=== FILE: README.md ===
# IntegraD core, modelled in Dafny

IntegraD is a Next.js dashboard for a district health office. It keeps
monthly health records per region, searches citizens by NIK (the national
identity number) across the datasets of the office's sections, and merges
the records it finds with a language model. It also shows KPI dashboards,
monitoring, reports and early warnings.

This project models the logic of that core as pure Dafny functions over
immutable data and proves what the code promises:

- the zod schemas become parsers over a `Json` value, with their round trips;
- the two API routes (`/api/health-data` and `/api/search`) become functions
  from a store and a request body to a new store and a response;
- the client handlers become state transitions whose network and model
  answers are parameters;
- the dashboard, monitoring, reporting, statistics, header and locale-switch
  computations are stated against independent definitions.

Modules (one file each):

- `Wrappers`, `Seqs`, `Strings`, `JsNumber`, `Json`: shared vocabulary.
  - `Seqs` and `Strings` hold filter, first index, dedup, sum, split, join and replace.
  - `JsNumber` holds JavaScript numbers: exact reals plus Infinity and NaN, and `Math.round`.
  - `Json` holds JSON values, zod property checks and zod's issue list, one
    entry per failed rule.
- `HealthSchema`, `HealthStore`, `DataManager`, `EditorDialog`: the health-data
  schema, its REST route and the data-management page with its editor dialog.
- `SearchRoute`, `MergeFlow`, `Selection`, `DataMerger`, `SearchPage`: the NIK
  search endpoint, the merge flow, and the two client pages that drive them.
- `Dashboard`, `Reporting`, `Monitoring`, `KpiSchema`: KPI figures, report
  region filter, achievement status bands and the KPI schemas. The report
  page's region picker lists `Dashboard.UniqueRegions`.
- `EarlyWarning`, `Statistics`: the rule-based early-warning flow, behind
  its validation of the sensor readings, and the risk/odds-ratio helpers.
- `Header`, `LocaleSwitcher`, `Profile`: navigation highlight, locale
  redirect and the profile form schema.

Oracles become parameters:

- `crypto.randomUUID()` is the `freshId` argument.
- Every `fetch` outcome is a `Result` argument.
- The language model's reply is a `Result<MergeOutput, string>` or `Result<Report, string>` argument.
- The e-mail check of `z.string().email()` is an `isEmail` predicate argument.

Two observations about the code, stated as proved lemmas rather than findings:

- The public-health record of NIK 3171234567890001 has a `null` phone. The
  merge flow's input schema accepts an absent phone but rejects `null`. So the
  default merge for that NIK ends with the validation error, whatever the model
  would answer (`DataMerger.DefaultMergeOfBudiFails`). That outcome depends on
  how the flow framework validates input, so it is recorded as modelled
  behaviour and not as a defect.
- The locale redirect is idempotent for every non-empty path, but `""` goes to
  `"/"` and then to `"/en"` (`LocaleSwitcher.EmptyPathNotIdempotent`). The router
  never reports an empty path, so this is not a defect either.

## Model

| member | source | states |
|---|---|---|
| HealthSchema.ParseFields | src/components/data-manager/schema.ts:5-9 | a new row is accepted only if every rule holds; a rejected object lists one issue per failed rule, in declaration order; on success the body, stripped of unknown keys, is exactly the encoding of the parsed row |
| HealthSchema.Parse | src/components/data-manager/schema.ts:3-10 | as above, with `id` required to be a UUID (8-4-4-4-12 hex digits) |
| HealthSchema.NonUuidRejected | src/components/data-manager/schema.ts:3-10 | a record whose id is not a UUID is rejected, and the first issue is under `id` |
| HealthSchema.CountChecks | src/components/data-manager/schema.ts:7-9 | a count passes its checks iff it is a positive whole number, and every issue it raises names that property |
| HealthSchema.CountIssues | src/components/data-manager/schema.ts:7-9 | a value that is not a number gives only the type issue; a number gives one issue for each of `int()` and `positive()` it breaks |
| HealthSchema.FieldChecksPass | src/components/data-manager/schema.ts:5-9 | a body raises no issue iff region, month and the three counts all meet their rules |
| HealthSchema.ParseFieldsEncode | src/components/data-manager/schema.ts:5-9 | every valid row is read back from its JSON encoding unchanged |
| HealthSchema.ParseEncode | src/components/data-manager/schema.ts:3-10 | every valid record is read back from its JSON encoding unchanged |
| HealthSchema.ZeroCountRejected | src/components/data-manager/schema.ts:7-9 | `positive()` excludes zero: a zero count yields exactly one issue, under that field's name |
| HealthSchema.NegativeFractionTwoIssues | src/components/data-manager/schema.ts:7 | a count of -1.5 breaks both `int()` and `positive()`, so `cases` is reported twice |
| HealthSchema.SeedIds | src/app/api/health-data/route.ts:6-11 | only the first seeded id is a UUID; the other three end in non-hex letters |
| HealthSchema.IntendedSeedValid | src/app/api/health-data/route.ts:6-11 | with hex last digits, all four seed records satisfy the schema and have distinct ids |
| HealthSchema.ParseProgramManager | src/components/data-manager/schema.ts:14-17 | accepted iff `id` and `name` are strings, whatever else the object holds; the body stripped of other keys is exactly the manager's encoding |
| HealthSchema.ProgramManagerRoundTrip | src/components/data-manager/schema.ts:14-17 | every manager is read back from its JSON, also when an extra property is present |
| HealthStore.GetAll | src/app/api/health-data/route.ts:13-15 | GET returns status 200 and the whole store in order |
| HealthStore.Post | src/app/api/health-data/route.ts:17-32 | 500 iff the body is not JSON; 400 with the issue list (one entry per failed rule) iff the row schema fails; otherwise 201, and the store grows by exactly the parsed row under the fresh id; nothing changes on error |
| HealthStore.Put | src/app/api/health-data/route.ts:34-50 | 500/400/404/200 cases exactly; 404 iff no stored record has the id; on 200 the first record with that id is replaced and nothing else changes |
| HealthStore.DeleteTarget | src/app/api/health-data/route.ts:52 | the delete body is accepted iff its `id` is a string |
| HealthStore.Delete | src/app/api/health-data/route.ts:54-70 | 404 iff no record has the id; on 204 the store shrinks and keeps exactly the records with other ids, each as often as before and in their original order |
| HealthStore.PostIgnoresClientId | src/app/api/health-data/route.ts:17-25 | an `id` sent by the client is stripped: the result is the same as without it, and the record gets the fresh id |
| HealthStore.PostThenPut | src/app/api/health-data/route.ts:19-50 | a record created by POST with a fresh UUID can be replaced by PUT under that id |
| HealthStore.SeedEditability | src/app/api/health-data/route.ts:34-43 | saving the first seeded record unchanged succeeds; saving any of the other three is rejected with 400 |
| HealthStore.IntendedSeedEditable | src/app/api/health-data/route.ts:34-43 | with UUID ids, saving any seeded record unchanged returns 200 and leaves the store as it was |
| HealthStore.DeleteTwice | src/app/api/health-data/route.ts:54-63 | deleting the same id a second time is a 404 that changes nothing |
| DataManager.Outcome | src/lib/api.ts:15-37 | a response yields a row iff its status is 2xx and it carries a record |
| DataManager.AddRow | src/components/data-manager/data-manager-page.tsx:72-80 | success appends exactly the returned row with a success toast; failure keeps the rows and shows the error toast |
| DataManager.ReplaceById | src/components/data-manager/data-manager-page.tsx:85 | every row with the returned id is replaced; the others are unchanged |
| DataManager.UpdateRow | src/components/data-manager/data-manager-page.tsx:82-90 | success replaces the rows carrying the returned id; failure keeps the rows and shows the error toast |
| DataManager.RemoveRow | src/components/data-manager/data-manager-page.tsx:92-100 | an acknowledged delete keeps exactly the rows with other ids, each as often as before and in their original order; otherwise the rows stay and the error toast shows |
| DataManager.AddMirrorsPost | src/components/data-manager/data-manager-page.tsx:72-80 | after an add, the page's rows equal the server's store, whether or not the POST succeeded |
| DataManager.UpdateMirrorsPut | src/components/data-manager/data-manager-page.tsx:82-90 | with unique ids, after an update the page's rows equal the server's store |
| DataManager.DuplicateIdsDiverge | src/components/data-manager/data-manager-page.tsx:85 | with a duplicated id, the page replaces both rows while the server replaces only the first |
| DataManager.RemoveMirrorsDelete | src/components/data-manager/data-manager-page.tsx:92-100 | after a delete, the page's rows equal the server's store |
| DataManager.SectionName | src/components/data-manager/data-manager-page.tsx:65 | the name of the first manager with the selected id, or `""` when none has it |
| DataManager.HandleFileUpload | src/components/data-manager/data-manager-page.tsx:56-70 | no file gives the destructive "select a file" toast; a file gives the success toast |
| DataManager.UploadNotice | src/components/data-manager/data-manager-page.tsx:65-69 | for a template with no brace before its two placeholders, a file name without `{` and file and section names without `$`, the success text has the file name and the section name substituted for the two placeholders |
| DataManager.BraceNameMisplaced | src/components/data-manager/data-manager-page.tsx:65-69 | a file name starting with `{sectionName}` receives the section name there, and the template's own `{sectionName}` stays in the text |
| Strings.ReplaceFirst | src/components/data-manager/data-manager-page.tsx:69 | only the first occurrence of the pattern is replaced, by the replacement with its `$` patterns expanded; the text around it is kept; a missing pattern leaves the string alone; a replacement without `$` is inserted verbatim |
| Strings.DollarPatterns | src/components/data-manager/data-manager-page.tsx:69 | in a replacement, `$&` inserts the matched placeholder, `$$` a single `$`, and a `$` before any other character stays |
| DataManager.UnknownSectionIsEmpty | src/components/data-manager/data-manager-page.tsx:49-54 | an id outside the four sections gives an empty section name |
| EditorDialog.FormIssues | src/components/data-manager/data-editor-dialog.tsx:30-36 | one issue per failed rule; no issues iff region, month and the three counts all meet their rules |
| EditorDialog.Submit | src/components/data-manager/data-editor-dialog.tsx:70-77 | nothing is saved iff the form has issues; otherwise the dialog closes and saves the row, with the initial id only when editing a record that has one |
| EditorDialog.DefaultValuesRejected | src/components/data-manager/data-editor-dialog.tsx:49-55 | the blank form fails on region and the three zero counts, in that order, and cannot be submitted |
| EditorDialog.FormAgreesWithStore | src/components/data-manager/data-editor-dialog.tsx:30-36 | the dialog's rules and the route's schema agree: the same checks, the same issues, and the same parsed row |
| EditorDialog.SubmittedRowIsStored | src/components/data-manager/data-editor-dialog.tsx:70-77 | a row the add dialog submits is always accepted by POST with 201 |
| Dashboard.FilterByRegion | src/components/dashboard/dashboard-page.tsx:76-78 | keeps exactly the records of the chosen region, each as often as in the data, in their original order |
| Seqs.FilterIndices | src/components/dashboard/dashboard-page.tsx:77 | the positions `filter` keeps are exactly those whose element passes, in increasing order, and the result lists the elements at those positions |
| Seqs.FilterCounts | src/components/dashboard/dashboard-page.tsx:77 | each passing element is kept as often as it occurs, and the others not at all |
| Dashboard.ComputeKpi | src/components/dashboard/dashboard-page.tsx:80-90 | no records gives all zeros; otherwise the last record's patients, a flat trend for one record, and totals equal to a single record's counts |
| Dashboard.Trend | src/components/dashboard/dashboard-page.tsx:87 | the percentage change from the first count to the last, with JavaScript's division by zero |
| Dashboard.Label | src/components/dashboard/dashboard-page.tsx:168 | increasing iff the trend is above 0, decreasing iff below, stable for 0 and NaN |
| Dashboard.TrendSign | src/components/dashboard/dashboard-page.tsx:80-90 | with a positive first count, the label is increasing, decreasing or stable exactly as the last count is above, below or equal to the first |
| Dashboard.OtherRegionsIgnored | src/components/dashboard/dashboard-page.tsx:76-90 | records of other regions, added before or after, change neither the filtered data nor the KPIs |
| Dashboard.TotalsSplit | src/components/dashboard/dashboard-page.tsx:84-86 | case and vaccination totals add over concatenation; patients come from the later part |
| Dashboard.UniqueRegions | src/components/dashboard/dashboard-page.tsx:96-98 | each region that occurs appears exactly once, and nothing else appears |
| Dashboard.UniqueRegionsOrder | src/components/dashboard/dashboard-page.tsx:96-98 | regions are listed in order of first appearance |
| Reporting.Selected | src/components/reporting/reporting-page.tsx:61-65 | `"all"` keeps every record; otherwise exactly the region's records, each as often as in the data, in their original order |
| Reporting.SelectedAgreesWithDashboard | src/components/reporting/reporting-page.tsx:61-65 | for a named region, the report selects exactly the dashboard's filtered data |
| Reporting.GenerateReport | src/components/reporting/reporting-page.tsx:54-85 | an empty selection shows the no-data report and skips the generator; otherwise the generator is asked with the selection, and its report or its error (falling back to the dictionary text) is shown |
| Reporting.EmptyRegionSkipsGenerator | src/components/reporting/reporting-page.tsx:67-70 | a region with no records never reaches the generator |
| Monitoring.Achievement | src/components/monitoring/monitoring-page.tsx:142 | a whole percentage within half a point of actual/target; a zero target gives Infinity, NaN or -Infinity as the actual value is positive, zero or negative |
| Monitoring.StatusOf | src/components/monitoring/monitoring-page.tsx:86-90 | achieved at 100 or more, nearly at 90 or more, not achieved otherwise (NaN included) |
| Monitoring.StatusBands | src/components/monitoring/monitoring-page.tsx:86-90 | after rounding, the bands start at exact ratios 99.5% and 89.5% |
| Monitoring.ZeroTarget | src/components/monitoring/monitoring-page.tsx:142 | with a zero target, any positive actual counts as achieved and anything else as not achieved |
| Monitoring.StuntingStatuses | src/components/monitoring/monitoring-page.tsx:22-31 | the stunting KPIs score 94 and 92 (nearly achieved); the third ratio is exactly 102.5 and is achieved whichever way the tie rounds |
| Monitoring.PriorityLabel | src/components/monitoring/monitoring-page.tsx:92-101 | High is labelled "Tinggi", Medium "Menengah" and Low "Rendah", each label belonging to that priority only |
| Monitoring.PriorityLabelsDistinct | src/components/monitoring/monitoring-page.tsx:92-101 | two priorities get the same label iff they are equal |
| EarlyWarning.Assess | src/ai/flows/early-warning-flow.ts:33-58 | high risk iff some reading exceeds a threshold, with the dengue alert and three recommendations; otherwise low risk and one recommendation; never medium |
| EarlyWarning.ThresholdsAreStrict | src/ai/flows/early-warning-flow.ts:33-38 | readings exactly at 30, 80 and 100, or with no measurements, are low risk |
| EarlyWarning.AssessAppend | src/ai/flows/early-warning-flow.ts:33-40 | the batch is high risk iff one of its parts is |
| EarlyWarning.ParseReading | src/ai/flows/early-warning-flow.ts:6-12 | accepted iff an object with string `deviceId` and `timestamp` and each measurement absent or a number (`null` fails); the stripped body is the reading's encoding |
| EarlyWarning.ParseReadings | src/ai/flows/early-warning-flow.ts:25 | accepted iff every element is a reading, each read in place |
| EarlyWarning.Flow | src/ai/flows/early-warning-flow.ts:22-58 | the rule runs iff the input is an array of valid readings, and then gives the rule's warning for them; otherwise the validation error |
| EarlyWarning.ReadingRoundTrip | src/ai/flows/early-warning-flow.ts:6-12 | every reading is read back from its JSON |
| EarlyWarning.FlowOnEncodings | src/ai/flows/early-warning-flow.ts:22-58 | the flow on the encoding of any readings gives the rule's warning for exactly those readings |
| EarlyWarning.NullMeasurementRejected | src/ai/flows/early-warning-flow.ts:6-12 | a reading with `temperature: null` makes the flow fail validation instead of giving the all-clear |
| EarlyWarning.MissingDeviceRejected | src/ai/flows/early-warning-flow.ts:6-12 | a reading without `deviceId` makes the flow fail validation |
| Statistics.Count | src/ai/utils/statistics.ts:5-8 | the four cells add up to the dataset size, and each cell is non-empty iff some row has its combination of exposure and outcome |
| Statistics.CountAppend | src/ai/utils/statistics.ts:5-8 | the table of a concatenation is the sum of the tables |
| Statistics.CountRow | src/ai/utils/statistics.ts:5-8 | a single row counts one in its own cell and nothing elsewhere |
| Statistics.RiskRatioOf | src/ai/utils/statistics.ts:10-17 | undefined iff the unexposed risk is exactly 0; with positive denominators, the cross-multiplied risk ratio |
| Statistics.OddsRatioOf | src/ai/utils/statistics.ts:28-35 | undefined iff the unexposed odds are exactly 0; with positive cells, the cross-multiplied odds ratio |
| Statistics.RiskRatioUndefined | src/ai/utils/statistics.ts:5-17 | the risk ratio is undefined iff some row is unexposed and no unexposed row has the outcome |
| Statistics.OddsRatioUndefined | src/ai/utils/statistics.ts:23-35 | the odds ratio is undefined for exactly the same datasets |
| Statistics.SameDatasetsDeclined | src/ai/utils/statistics.ts:2-36 | risk and odds ratios decline (undefined) on exactly the same datasets |
| Statistics.NoUnexposedRows | src/ai/utils/statistics.ts:5-17 | with every row exposed, both ratios are NaN rather than undefined |
| Header.NavLinks | src/components/common/header.tsx:19-26 | six links, dashboard first, each href the language prefix followed by its path |
| Header.AtMostOneActive | src/components/common/header.tsx:31-34 | no path highlights two links |
| Header.OwnHrefActive | src/components/common/header.tsx:19-34 | each link is highlighted on its own href |
| Header.ExtensionsHighlight | src/components/common/header.tsx:31-34 | a path that merely extends a section path highlights it; a trailing slash does not highlight the dashboard |
| Header.Render | src/components/common/header.tsx:42-83 | a login page shows no links and only the login button; any other page shows the six links, each highlighted exactly when active, and the profile and admin buttons |
| Header.LoginAnywhere | src/components/common/header.tsx:29 | any path containing `/login` counts as a login page |
| LocaleSwitcher.SetSecond | src/components/common/locale-switcher.tsx:14-16 | the second segment becomes the locale (appended when missing); the others are unchanged |
| LocaleSwitcher.Redirect | src/components/common/locale-switcher.tsx:12-17 | an empty path redirects to `/` |
| LocaleSwitcher.RedirectSegments | src/components/common/locale-switcher.tsx:12-17 | the redirected path's segments are the original ones with the second set to the locale |
| LocaleSwitcher.RedirectKeepsSegmentCount | src/components/common/locale-switcher.tsx:14-16 | a path with a slash keeps its number of segments |
| LocaleSwitcher.RedirectIdempotent | src/components/common/locale-switcher.tsx:12-17 | redirecting twice to the same locale equals redirecting once, for non-empty paths |
| LocaleSwitcher.EmptyPathNotIdempotent | src/components/common/locale-switcher.tsx:13 | the empty path goes to `/` and then to `/en` |
| LocaleSwitcher.NextLocale | src/components/common/locale-switcher.tsx:19-20 | `en` iff the current locale segment is `id`, `id` otherwise |
| LocaleSwitcher.SwitchAlternates | src/components/common/locale-switcher.tsx:12-20 | for a non-empty path, following the switch link flips the next locale offered |
| KpiSchema.ParseIndicator | src/components/monitoring/kpi-schema.ts:4-9 | accepted iff name, target and unit have their types and dataSource is absent or a string; the body stripped of other keys is exactly the indicator's encoding |
| KpiSchema.IndicatorRoundTrip | src/components/monitoring/kpi-schema.ts:4-9 | every indicator is read back from its JSON |
| KpiSchema.ParseIndicators | src/components/monitoring/kpi-schema.ts:46 | an array is accepted iff every element is an indicator, each parsed in place |
| KpiSchema.ParseTracking | src/components/monitoring/kpi-schema.ts:28-36 | accepted iff the six fields have their types (no date given); the body stripped of other keys is exactly the record's encoding, any achievement included |
| KpiSchema.TrackingRoundTrip | src/components/monitoring/kpi-schema.ts:28-36 | every tracking record, with any achievement, is read back from its JSON |
| KpiSchema.ParseConfigForm | src/components/monitoring/kpi-schema.ts:41-47 | accepted iff all five field checks pass; an accepted form meets every rule and holds the body's strings, year and parsed indicators; a rejection lists issues |
| KpiSchema.ConfigFormRoundTrip | src/components/monitoring/kpi-schema.ts:41-47 | every form meeting the rules is read back from its JSON |
| KpiSchema.ConfigFormBoundaries | src/components/monitoring/kpi-schema.ts:44-46 | years 2020, 2100 and non-integral years pass; 2019, a nine-character goal and no indicators fail |
| Profile.Validate | src/components/profile/profile-page.tsx:27-39 | valid iff name non-empty, e-mail valid, bio at most 160 and new password equal to confirmation; the mismatch and empty-name issues are reported exactly when they occur; flags default to false |
| Profile.CurrentPasswordIgnored | src/components/profile/profile-page.tsx:30-36 | the current password never affects validity |
| Profile.PasswordsOptionalTogether | src/components/profile/profile-page.tsx:31-39 | omitting both new passwords is valid; giving only one yields exactly the confirmation issue |
| Profile.DefaultsPass | src/components/profile/profile-page.tsx:51-57 | the default values are valid, with e-mail notifications on and SMS off |
| SearchPage.HandleSearch | src/components/search/search-page.tsx:36-63 | no NIK or no dataset gives the matching error toast and no request; otherwise one request with the NIK and selection, results shown, a toast exactly when nothing is found; on failure the toast carries the error from before the search |
| SearchPage.FailureToastIsStale | src/components/search/search-page.tsx:57-59 | a first failure shows no description; a second failure shows the first failure's message |
| SearchPage.HandleSearchIntended | src/components/search/search-page.tsx:57-59 | the failure toast describes the error the page now shows; everything else is as written |
| SearchPage.InitialSearchRejected | src/components/search/search-page.tsx:30-44 | the page starts with no dataset ticked, so a first search is always refused |
| SearchPage.SearchForgetsPrevious | src/components/search/search-page.tsx:46-58 | the previous results and error do not affect the state a search leaves |
| SearchPage.HandleDatasetSelection | src/components/search/search-page.tsx:65-71 | toggles membership of one id, keeps the selection duplicate-free, and changes nothing else |
| SearchPage.SearchAfterSelecting | src/components/search/search-page.tsx:41-52 | ticking one dataset sends exactly that id with the NIK |
| Selection.Toggle | src/components/dashboard/data-merger.tsx:111-117 | the id is in the result iff it was absent before; other ids are unchanged; no duplicates are introduced |
| Selection.ToggleTwice | src/components/dashboard/data-merger.tsx:111-117 | toggling twice restores the same ids, and the exact sequence when the id was absent |
| SearchRoute.ResultFor | src/app/api/search/route.ts:39-41 | a result names its dataset and holds the first record of that dataset with the NIK |
| SearchRoute.Results | src/app/api/search/route.ts:36-44 | only records with the NIK; empty iff no selected dataset holds it |
| SearchRoute.ResultsAppend | src/app/api/search/route.ts:36-44 | results follow dataset order across concatenation |
| SearchRoute.ResultsOfOneDataset | src/app/api/search/route.ts:38-43 | a dataset yields at most one result, its first match, and only if it is selected |
| SearchRoute.ResultsDependOnSelectedIdsOnly | src/app/api/search/route.ts:38 | order, repetition and unknown ids in the selection change nothing |
| SearchRoute.Search | src/app/api/search/route.ts:36-44 | the loop computes the reference definition `Results` |
| SearchRoute.ParseBody | src/app/api/search/route.ts:23-26 | an accepted body, stripped of unknown keys, encodes exactly the NIK and ids returned |
| SearchRoute.ParseBodyAcceptsEncodings | src/app/api/search/route.ts:23-31 | every body encoding a NIK and ids is accepted with exactly those |
| SearchRoute.Post | src/app/api/search/route.ts:28-53 | a non-JSON body gives 500, a schema failure 400, otherwise the results over the mock datasets |
| SearchRoute.BudiFoundTwice | src/app/api/search/route.ts:5-16 | NIK 3171234567890001 is found in the first and third sections, in dataset order, whatever the order of the ids |
| SearchRoute.UnknownNikNotFound | src/app/api/search/route.ts:5-16 | an unknown NIK finds nothing |
| MergeFlow.Run | src/ai/flows/merge-data-flow.ts:83-103 | an invalid input fails; no records fail with the fixed message; one record passes through with confidence 1; otherwise the model's answer is the result iff it fits the output schema; every success fits the schema |
| MergeFlow.FewRecordsIgnoreModel | src/ai/flows/merge-data-flow.ts:90-99 | with at most one record the model's reply is irrelevant |
| MergeFlow.ManyRecordsTakeModelAnswer | src/ai/flows/merge-data-flow.ts:100-101 | any schema-conforming model answer is returned as it is |
| MergeFlow.NikNotChecked | src/ai/flows/merge-data-flow.ts:93-99 | a record whose NIK differs from the input's still passes through |
| MergeFlow.KesmasRecordRejected | src/ai/flows/merge-data-flow.ts:20-22 | the null phone of the public-health record fails the record schema; the other mock records pass |
| DataMerger.ErrorText | src/components/dashboard/data-merger.tsx:76 | the message when non-empty, the fallback otherwise |
| DataMerger.ToMergeInput | src/components/dashboard/data-merger.tsx:86-100 | one entry per result, in order, with its dataset name and record |
| DataMerger.HandleMerge | src/components/dashboard/data-merger.tsx:82-109 | a successful flow's output becomes the merge result with no error; a failure shows its message (or the dictionary text) and no merge; NIK, selection and results are untouched |
| DataMerger.HandleSearch | src/components/dashboard/data-merger.tsx:50-80 | no NIK gives the toast only; a failure shows the error; one result is shown as the merge; several are merged by the flow, showing its output or its error; the no-results toast appears exactly when nothing is found |
| DataMerger.HandleDatasetSelection | src/components/dashboard/data-merger.tsx:111-117 | toggles one dataset id and changes nothing else |
| DataMerger.HandleConfirmMerge | src/components/dashboard/data-merger.tsx:119-129 | raises the confirmation toast, with a description exactly when the dictionary has the text, and that text unchanged when it has no `{nik}`; clears NIK, results, merge and error, and keeps the selection |
| DataMerger.ConfirmationNamesNik | src/components/dashboard/data-merger.tsx:120-123 | the confirmation text gets the NIK (its `$` patterns expanded) in place of its first `{nik}`, verbatim for a NIK without `$` |
| DataMerger.SearchForgetsPreviousOutcome | src/components/dashboard/data-merger.tsx:55-59 | the previous error, results and merge do not affect a search |
| DataMerger.SingleResultAgreesWithFlow | src/components/dashboard/data-merger.tsx:66-71 | a single result shows what the flow's one-record branch returns, apart from the explanation text |
| DataMerger.ConfirmErasesHistory | src/components/dashboard/data-merger.tsx:119-129 | after confirming, cards with the same selection behave identically |
| DataMerger.DefaultMergeOfBudiFails | src/components/dashboard/data-merger.tsx:47-65 | with every dataset selected, NIK 3171234567890001 gives two results and the input-validation error, with no merge |

## Left out

- Network and persistence: `fetch`, `request.json()`, `NextResponse` and the
  module-level store are modelled as values passed in and returned. The
  one-second delay of the search route is not modelled.
- `crypto.randomUUID()` becomes the `freshId` parameter. `Date.now()` in
  early-warning alert ids is not modelled; `Assess` returns the warning
  without an id.
- The language-model calls are oracles passed as parameters: the merge prompt,
  report generation and the monitoring page's analysis. So are the other
  genkit flows (trend detection, advanced analysis, ask-health-data,
  programme evaluation).
- React rendering, loading flags, toasts' styling, `toFixed`/`toLocaleString`
  formatting, charts and printing are not modelled. Neither are the admin,
  surveillance, login and static pages, or the table row-action wiring.
- `handleMerge` is not awaited in the source. The model runs it to completion
  inside `HandleSearch`, so interleavings with a later search are not modelled.
- Numbers: JSON numbers and form values are exact reals, not doubles, and
  signed zero is ignored. `z.coerce.number()` in the editor dialog is not modelled: form
  values are already numbers.
- Strings are sequences of characters; UTF-16 code-unit lengths are not
  distinguished.
- `z.string().email()` is the `isEmail` parameter; its regular expression is
  not modelled.
- `programKpiSchema` (kpi-schema.ts lines 14-23) is not modelled. Its
  `z.date()` fields, and `calculatedAt` of the tracking schema, are modelled
  as having to be absent, since JSON carries no dates.
- Nested issue paths: a failing indicator inside the KPI form, or a property
  of the wrong type inside a record, is reported under the top-level property
  name only, as a single issue however many nested fields fail (zod reports
  one per failed field of each bad element), and issue messages are not
  modelled.
- MergeFlow.InvalidInputMessage and MergeFlow.InvalidOutputMessage: the
  flow framework's schema-validation messages, which the card shows as the
  error and `EarlyWarning.Flow` reports for invalid readings, are
  placeholders; their exact wording is not modelled.
- Statistics.Count: a property read sees only a row's own keys. In the
  helpers `d[key]` also finds `Object.prototype` members, so for a key such
  as `constructor`, `toString`, `valueOf` or `__proto__` every row counts as
  exposed (or as having the outcome); the model reads such a name as absent
  and can answer `undefined` (`RiskRatioUndefined`, `OddsRatioUndefined`)
  where the helpers return NaN.
- Reading a property of a non-object dataset row in the statistics helpers
  counts as `undefined`. For a `null` row the helpers throw a TypeError
  (statistics.ts:5), which the model does not reproduce.
- Statistics.RiskRatioOf: the value is stated only when the exposed total and the unexposed-with-outcome count are positive; the Infinity/NaN values elsewhere are stated only for the all-exposed case (`NoUnexposedRows`).
- Statistics.OddsRatioOf: the value is stated only when the three denominator cells are positive; other non-undefined results (Infinity, NaN) are stated only in `NoUnexposedRows`.
- Statistics.RiskRatio and Statistics.OddsRatio carry no contract of their own. When they are undefined is stated by `RiskRatioUndefined` and `OddsRatioUndefined`. Their values follow from `RiskRatioOf`/`OddsRatioOf` applied to the table that `Count`, `CountAppend` and `CountRow` describe.
- Monitoring.Achievement: computed on exact reals. The page divides in doubles, so a ratio at a rounding tie can come out one lower there (82/80 shows 102 on the page and gives 103 here).
- Monitoring.StuntingStatuses: states the third KPI's exact ratio and its status, not the number shown, for the reason above.
- DataManager.UploadNotice: requires file and section names without `$`, a file name without `{`, and a template with no `{` before its two placeholders. `replace` expands `$` patterns in the names, which `Strings.DollarPatterns` states. A file name containing `{sectionName}` catches the second replacement, which `DataManager.BraceNameMisplaced` states. In these cases the names do not appear verbatim.
- Dashboard.ComputeKpi: the case and vaccination totals are stated for one record and, through `TotalsSplit`, for concatenations, rather than as a closed sum.
- LocaleSwitcher.RedirectIdempotent: requires a non-empty path, because the empty path is not idempotent (`EmptyPathNotIdempotent`).

## Findings

| source | as written | input that shows it | evidently intended | confidence | as-written member | corrected member |
|---|---|---|---|---|---|---|
| src/components/search/search-page.tsx:57-59 | the failure toast's description is the `error` state captured before the search, not the message just set | a first search that fails shows a toast with no description; a second failure ("Network down") shows the first failure's message | the toast describes the error of this search | high, not executed | SearchPage.FailureToastIsStale | SearchPage.HandleSearchIntended |
| src/app/api/health-data/route.ts:6-11 | three seeded ids end in `g`, `h`, `i`, so they are not UUIDs and fail `healthDataSchema` | PUT of the unchanged February record `…4e6g` returns 400, so the seeded rows 2-4 can never be edited | all seeded ids are UUIDs, so every seeded row is editable | medium, not executed | HealthStore.SeedEditability | HealthStore.IntendedSeedEditable |

=== FILE: dashboard.dfy ===
/** The dashboard's derived values: the records of the selected region, the
    four KPI figures, the trend label and the list of regions. */
module Dashboard {
  import opened Seqs
  import opened JsNumber
  import opened HealthSchema

  function InRegion(region: string): HealthData -> bool {
    (d: HealthData) => d.region == region
  }

  /** `filteredData`: the records of one region, in their original order. */
  function FilterByRegion(all: seq<HealthData>, region: string): (r: seq<HealthData>)
    ensures forall d :: d in r <==> d in all && d.region == region
    ensures forall d :: multiset(r)[d] == if d.region == region then multiset(all)[d] else 0
    ensures SelectsInOrder(r, all, FilterIndices(InRegion(region), all))
    ensures |r| <= |all|
  {
    FilterCounts(InRegion(region), all);
    Filter(InRegion(region), all)
  }

  datatype Kpi = Kpi(totalCases: int, totalVaccinations: int, totalPatients: int, caseTrend: Num)

  function Cases(d: HealthData): int { d.cases }
  function Vaccinations(d: HealthData): int { d.vaccinations }

  /** `kpiData` over the filtered records: all zero for no records; otherwise
      the case and vaccination sums, the last record's patients, and the
      relative change in cases from the first to the last record, in percent
      (zero for a single record). */
  function ComputeKpi(data: seq<HealthData>): (r: Kpi)
    ensures |data| == 0 ==> r == Kpi(0, 0, 0, Fin(0.0))
    ensures |data| > 0 ==> r.totalPatients == data[|data| - 1].patients
    ensures |data| <= 1 ==> r.caseTrend == Fin(0.0)
    ensures |data| == 1 ==> r.totalCases == data[0].cases && r.totalVaccinations == data[0].vaccinations
    ensures (forall i :: 0 <= i < |data| ==> data[i].cases > 0) ==> r.totalCases >= |data|
    ensures (forall i :: 0 <= i < |data| ==> data[i].vaccinations > 0) ==> r.totalVaccinations >= |data|
  {
    if |data| == 0 then Kpi(0, 0, 0, Fin(0.0))
    else
      var trend := if |data| > 1 then Trend(data[0].cases, data[|data| - 1].cases) else Fin(0.0);
      assert forall i :: 0 <= i < |data| ==> Cases(data[i]) == data[i].cases;
      assert forall i :: 0 <= i < |data| ==> Vaccinations(data[i]) == data[i].vaccinations;
      assert |data| == 1 ==> data[1..] == [] && Sum(Cases, data[1..]) == 0 && Sum(Vaccinations, data[1..]) == 0;
      Kpi(Sum(Cases, data), Sum(Vaccinations, data), data[|data| - 1].patients, trend)
  }

  /** `(last - first) / first * 100`. */
  function Trend(first: int, last: int): (r: Num)
    ensures first != 0 ==> r == Fin((last - first) as real / first as real * 100.0)
    ensures first == 0 ==> r == Scale(Div((last - first) as real, 0.0), 100.0)
  {
    Scale(Div((last - first) as real, first as real), 100.0)
  }

  /** Dividing by a positive number keeps the sign. */
  lemma DivSign(x: real, y: real)
    requires y > 0.0
    ensures x / y * 100.0 > 0.0 <==> x > 0.0
    ensures x / y * 100.0 < 0.0 <==> x < 0.0
  {
    assert x == (x / y) * y;
  }

  datatype TrendLabel = Increasing | Decreasing | Stable

  /** The trend card's text: `NaN` reads as stable. */
  function Label(trend: Num): (r: TrendLabel)
    ensures r == Increasing <==> Gt(trend, 0.0)
    ensures r == Decreasing <==> Lt(trend, 0.0)
    ensures r == Stable <==> trend == Fin(0.0) || trend == NaN
  {
    if Gt(trend, 0.0) then Increasing
    else if Lt(trend, 0.0) then Decreasing
    else Stable
  }

  /** With a positive first case count, the trend's sign is the sign of the
      change from the first to the last record. */
  lemma TrendSign(data: seq<HealthData>)
    requires |data| > 1 && data[0].cases > 0
    ensures var last := data[|data| - 1].cases;
            var first := data[0].cases;
            (Label(ComputeKpi(data).caseTrend) == Increasing <==> last > first) &&
            (Label(ComputeKpi(data).caseTrend) == Decreasing <==> last < first) &&
            (Label(ComputeKpi(data).caseTrend) == Stable <==> last == first)
  {
    var last := data[|data| - 1].cases;
    var first := data[0].cases;
    assert ComputeKpi(data).caseTrend == Trend(first, last);
    DivSign((last - first) as real, first as real);
  }

  /** Records of other regions have no influence on a region's figures. */
  lemma OtherRegionsIgnored(all: seq<HealthData>, extra: seq<HealthData>, region: string)
    requires forall i :: 0 <= i < |extra| ==> extra[i].region != region
    ensures FilterByRegion(all + extra, region) == FilterByRegion(all, region)
    ensures FilterByRegion(extra + all, region) == FilterByRegion(all, region)
    ensures ComputeKpi(FilterByRegion(all + extra, region)) == ComputeKpi(FilterByRegion(all, region))
  {
    FilterAppend(InRegion(region), all, extra);
    FilterAppend(InRegion(region), extra, all);
    FilterNone(InRegion(region), extra);
    assert all + [] == all;
  }

  /** Totals split over any division of the filtered records into two runs. */
  lemma TotalsSplit(a: seq<HealthData>, b: seq<HealthData>)
    requires |a| > 0 && |b| > 0
    ensures ComputeKpi(a + b).totalCases == ComputeKpi(a).totalCases + ComputeKpi(b).totalCases
    ensures ComputeKpi(a + b).totalVaccinations == ComputeKpi(a).totalVaccinations + ComputeKpi(b).totalVaccinations
    ensures ComputeKpi(a + b).totalPatients == ComputeKpi(b).totalPatients
  {
    SumAppend(Cases, a, b);
    SumAppend(Vaccinations, a, b);
  }

  function Regions(all: seq<HealthData>): (r: seq<string>)
    ensures |r| == |all| && forall i :: 0 <= i < |all| ==> r[i] == all[i].region
  {
    seq(|all|, i requires 0 <= i < |all| => all[i].region)
  }

  /** `uniqueRegions`: each region once, in order of first appearance. */
  function UniqueRegions(all: seq<HealthData>): (r: seq<string>)
    ensures NoDuplicates(r)
    ensures forall x :: x in r <==> exists i :: 0 <= i < |all| && all[i].region == x
  {
    var regions := Regions(all);
    assert forall x :: x in regions <==> exists i :: 0 <= i < |all| && all[i].region == x by {
      forall x | x in regions
        ensures exists i :: 0 <= i < |all| && all[i].region == x
      {
        var i :| 0 <= i < |regions| && regions[i] == x;
      }
    }
    Dedup(regions)
  }

  /** The listed regions appear in the order in which they first occur. */
  lemma UniqueRegionsOrder(all: seq<HealthData>)
    ensures forall i, j :: 0 <= i < j < |UniqueRegions(all)| ==>
              FirstIndex(Regions(all), UniqueRegions(all)[i]) < FirstIndex(Regions(all), UniqueRegions(all)[j])
  {
    DedupFirstOccurrenceOrder(Regions(all));
  }
}

=== FILE: data_manager.dfy ===
/** The data-management page: the local copy of the health-data list that
    mirrors the server store, and the file-upload notice. The outcome of each
    request is a parameter; `Outcome` and `Acknowledged` say how the client
    reads the store's responses. */
module DataManager {
  import opened Wrappers
  import opened Seqs
  import opened Strings
  import opened Json
  import opened HealthSchema
  import opened HealthStore

  /** The dictionary entries the page uses. */
  datatype Texts = Texts(
    addSuccess: string, addError: string,
    updateSuccess: string, updateError: string,
    deleteSuccess: string, deleteError: string,
    uploadFailed: string, selectFile: string,
    uploadSuccess: string, uploadSuccessDesc: string)

  /** The localized names of the health sections. */
  datatype SectionNames = SectionNames(p2p: string, sdk: string, kesmas: string, yankes: string)

  datatype Toast = Toast(destructive: bool, title: string, description: string)

  /** A `fetch` wrapper's result: the record of a 2xx response, or a thrown error. */
  function Outcome(resp: Response): (r: Result<HealthData, string>)
    ensures r.Success? <==> 200 <= resp.status < 300 && resp.payload.Record?
    ensures r.Success? ==> resp.payload == Record(r.value)
  {
    if 200 <= resp.status < 300 && resp.payload.Record? then Success(resp.payload.record)
    else Failure("request failed")
  }

  /** Whether `response.ok` holds (the DELETE wrapper reads no body). */
  predicate Acknowledged(resp: Response) {
    200 <= resp.status < 300
  }

  /** `handleAddRow`: the returned row goes at the end. */
  function AddRow(data: seq<HealthData>, added: Result<HealthData, string>, t: Texts): (r: (seq<HealthData>, Toast))
    ensures added.Success? ==>
      |r.0| == |data| + 1 && r.0[..|data|] == data && r.0[|data|] == added.value &&
      r.1 == Toast(false, "Success", t.addSuccess)
    ensures added.Failure? ==> r == (data, Toast(true, "Error", t.addError))
  {
    match added
    case Success(row) => (data + [row], Toast(false, "Success", t.addSuccess))
    case Failure(_) => (data, Toast(true, "Error", t.addError))
  }

  /** `prev.map(row => row.id === returned.id ? returned : row)`. */
  function ReplaceById(data: seq<HealthData>, returned: HealthData): (r: seq<HealthData>)
    ensures |r| == |data|
    ensures forall k :: 0 <= k < |data| ==> r[k] == (if data[k].id == returned.id then returned else data[k])
  {
    if |data| == 0 then []
    else [if data[0].id == returned.id then returned else data[0]] + ReplaceById(data[1..], returned)
  }

  /** `handleUpdateRow`: EVERY row with the returned id is replaced. */
  function UpdateRow(data: seq<HealthData>, returned: Result<HealthData, string>, t: Texts): (r: (seq<HealthData>, Toast))
    ensures returned.Success? ==>
      |r.0| == |data| && r.1 == Toast(false, "Success", t.updateSuccess) &&
      forall k :: 0 <= k < |data| ==>
        (data[k].id == returned.value.id ==> r.0[k] == returned.value) &&
        (data[k].id != returned.value.id ==> r.0[k] == data[k])
    ensures returned.Failure? ==> r == (data, Toast(true, "Error", t.updateError))
  {
    match returned
    case Success(row) => (ReplaceById(data, row), Toast(false, "Success", t.updateSuccess))
    case Failure(_) => (data, Toast(true, "Error", t.updateError))
  }

  /** `handleRemoveRow`: every row with the id is dropped, the rest keep their order. */
  function RemoveRow(data: seq<HealthData>, id: string, acknowledged: bool, t: Texts): (r: (seq<HealthData>, Toast))
    ensures acknowledged ==>
      (forall h :: h in r.0 <==> h in data && h.id != id) && r.1 == Toast(false, "Success", t.deleteSuccess)
    ensures acknowledged ==>
      (forall h :: multiset(r.0)[h] == if h.id != id then multiset(data)[h] else 0) &&
      SelectsInOrder(r.0, data, FilterIndices(LacksId(id), data))
    ensures !acknowledged ==> r == (data, Toast(true, "Error", t.deleteError))
  {
    FilterCounts(LacksId(id), data);
    if acknowledged then (Filter(LacksId(id), data), Toast(false, "Success", t.deleteSuccess))
    else (data, Toast(true, "Error", t.deleteError))
  }

  /** No two records share an id. */
  predicate UniqueIds(store: seq<HealthData>) {
    forall i, j :: 0 <= i < |store| && 0 <= j < |store| && store[i].id == store[j].id ==> i == j
  }

  /** Adding a row locally after the POST it sent keeps the local list equal
      to the store, whether or not the POST succeeded. */
  lemma AddMirrorsPost(store: seq<HealthData>, f: HealthFields, freshId: string, t: Texts)
    ensures var (s1, resp) := Post(store, Some(EncodeFields(f)), freshId);
            AddRow(store, Outcome(resp), t).0 == s1
  {
    var (s1, resp) := Post(store, Some(EncodeFields(f)), freshId);
    if resp.status == 201 {
      assert AddRow(store, Outcome(resp), t).0 == store + [resp.payload.record];
    }
  }

  /** Updating locally after the PUT it sent keeps the local list equal to
      the store when ids are unique: then "every match" and "the first
      match" are the same row. */
  lemma UpdateMirrorsPut(store: seq<HealthData>, h: HealthData, t: Texts)
    requires UniqueIds(store)
    ensures var (s1, resp) := Put(store, Some(Encode(h)));
            UpdateRow(store, Outcome(resp), t).0 == s1
  {
    var (s1, resp) := Put(store, Some(Encode(h)));
    if resp.status == 200 {
      var d := resp.payload.record;
      var i :| 0 <= i < |store| && store[i].id == d.id && s1 == store[i := d];
      var local := UpdateRow(store, Outcome(resp), t).0;
      assert |local| == |s1|;
      forall k | 0 <= k < |store|
        ensures local[k] == s1[k]
      {
        if k == i {
        } else {
          assert store[k].id != d.id;
        }
      }
    }
  }

  /** With duplicate ids the two lists part ways: the store replaces only the
      first of two rows sharing an id, the page replaces both. */
  lemma DuplicateIdsDiverge(t: Texts)
    ensures var a := Seed[0];
            var b := Seed[0].(region := "Jakarta Timur");
            var (s1, resp) := Put([a, a], Some(Encode(b)));
            s1 == [b, a] && UpdateRow([a, a], Outcome(resp), t).0 == [b, b]
  {
    var a := Seed[0];
    var b := Seed[0].(region := "Jakarta Timur");
    SeedIds();
    ParseEncode(b);
    assert FindIndex(HasId(b.id), [a, a]) == Some(0);
    var (s1, resp) := Put([a, a], Some(Encode(b)));
    assert s1 == [b, a] && resp == Response(200, Record(b));
    assert Outcome(resp) == Success(b);
    assert ReplaceById([a, a], b) == [b, b];
  }

  /** Removing locally after the DELETE it sent keeps the local list equal to
      the store, whether or not the DELETE found the id. */
  lemma RemoveMirrorsDelete(store: seq<HealthData>, id: string, t: Texts)
    ensures var (s1, resp) := Delete(store, Some(JObj(map["id" := JStr(id)])));
            RemoveRow(store, id, Acknowledged(resp), t).0 == s1
  {
  }

  /** The section choices of the upload card, in display order. */
  function ProgramManagers(n: SectionNames): seq<ProgramManager> {
    [ ProgramManager("seksi-p2p", n.p2p), ProgramManager("seksi-sdk", n.sdk),
      ProgramManager("seksi-kesmas", n.kesmas), ProgramManager("seksi-yankes", n.yankes) ]
  }

  /** `programManagers.find(p => p.id === selected)?.name || ''`. */
  function SectionName(managers: seq<ProgramManager>, selected: string): (r: string)
    ensures (forall k :: 0 <= k < |managers| ==> managers[k].id != selected) ==> r == ""
    ensures forall i :: 0 <= i < |managers| && managers[i].id == selected &&
                        (forall k :: 0 <= k < i ==> managers[k].id != selected)
                        ==> r == managers[i].name
  {
    match FindIndex((p: ProgramManager) => p.id == selected, managers)
    case None => ""
    case Some(i) => managers[i].name
  }

  /** `handleFileUpload`: without a file, a failure notice; otherwise the
      success text with the first `{fileName}` and then the first
      `{sectionName}` substituted. Nothing is uploaded. */
  function HandleFileUpload(file: Option<string>, selected: string, n: SectionNames, t: Texts): (r: Toast)
    ensures file.None? ==> r == Toast(true, t.uploadFailed, t.selectFile)
    ensures file.Some? ==> !r.destructive && r.title == t.uploadSuccess
  {
    match file
    case None => Toast(true, t.uploadFailed, t.selectFile)
    case Some(name) =>
      var section := SectionName(ProgramManagers(n), selected);
      Toast(false, t.uploadSuccess,
            ReplaceFirst(ReplaceFirst(t.uploadSuccessDesc, "{fileName}", name), "{sectionName}", section))
  }

  /** For a template with the two placeholders in that order and no other
      brace before them, and a file name without a brace, the notice reads
      the template with the file name and the section's name filled in.
      Names with a `$` are left aside: `replace` expands `$` patterns in
      them (see `Strings.DollarPatterns`). */
  lemma UploadNotice(pre: string, mid: string, post: string, name: string, selected: string, n: SectionNames, t: Texts)
    requires '{' !in pre && '{' !in mid && '{' !in name
    requires '$' !in name && '$' !in SectionName(ProgramManagers(n), selected)
    requires t.uploadSuccessDesc == pre + "{fileName}" + mid + "{sectionName}" + post
    ensures HandleFileUpload(Some(name), selected, n, t).description ==
      pre + name + mid + SectionName(ProgramManagers(n), selected) + post
  {
    var section := SectionName(ProgramManagers(n), selected);
    FillPlaceholders(pre, mid, post, name, section);
  }

  /** The two placeholder replacements of the upload notice, on a template
      with no brace before the placeholders and names without `$`. */
  lemma FillPlaceholders(pre: string, mid: string, post: string, name: string, section: string)
    requires '{' !in pre && '{' !in mid && '{' !in name
    requires '$' !in name && '$' !in section
    ensures ReplaceFirst(ReplaceFirst(pre + "{fileName}" + mid + "{sectionName}" + post, "{fileName}", name),
                         "{sectionName}", section) == pre + name + mid + section + post
  {
    var rest := mid + "{sectionName}" + post;
    var once := ReplaceFirst(pre + "{fileName}" + mid + "{sectionName}" + post, "{fileName}", name);
    assert once == pre + name + rest by {
      assert pre + "{fileName}" + mid + "{sectionName}" + post == pre + "{fileName}" + rest;
      ReplaceFirstAt(pre, "{fileName}", rest, name);
    }
    var head := pre + name + mid;
    assert once == head + "{sectionName}" + post;
    assert '{' !in head;
    ReplaceFirstAt(head, "{sectionName}", post, section);
  }

  /** A file name that itself contains `{sectionName}` takes the section name
      instead of the template's placeholder: the second `replace` finds the
      copy inside the file name first, and the template's own placeholder
      stays in the notice. */
  lemma BraceNameMisplaced(pre: string, mid: string, post: string, ext: string, selected: string, n: SectionNames, t: Texts)
    requires '{' !in pre && '{' !in mid && '$' !in ext
    requires '$' !in SectionName(ProgramManagers(n), selected)
    requires t.uploadSuccessDesc == pre + "{fileName}" + mid + "{sectionName}" + post
    ensures HandleFileUpload(Some("{sectionName}" + ext), selected, n, t).description ==
      pre + SectionName(ProgramManagers(n), selected) + ext + mid + "{sectionName}" + post
  {
    var section := SectionName(ProgramManagers(n), selected);
    var name := "{sectionName}" + ext;
    assert HandleFileUpload(Some(name), selected, n, t).description ==
           ReplaceFirst(ReplaceFirst(t.uploadSuccessDesc, "{fileName}", name), "{sectionName}", section);
    var rest := mid + "{sectionName}" + post;
    assert t.uploadSuccessDesc == pre + "{fileName}" + rest;
    PlaceholderInName(pre, rest, ext, section, "{fileName}", "{sectionName}");
    Regroup(pre + section, ext, mid, "{sectionName}", post);
  }

  /** The two replacements of the upload notice when the file name starts
      with the second placeholder `p2`: that copy is the one replaced. */
  lemma PlaceholderInName(pre: string, rest: string, ext: string, section: string, p1: string, p2: string)
    requires |p1| > 0 && |p2| > 0 && p1[0] !in pre && p2[0] !in pre
    requires '$' !in p2 && '$' !in ext && '$' !in section
    ensures ReplaceFirst(ReplaceFirst(pre + p1 + rest, p1, p2 + ext), p2, section) == pre + section + (ext + rest)
  {
    var once := ReplaceFirst(pre + p1 + rest, p1, p2 + ext);
    assert once == pre + p2 + (ext + rest) by {
      assert '$' !in p2 + ext;
      ReplaceFirstAt(pre, p1, rest, p2 + ext);
    }
    ReplaceFirstAt(pre, p2, ext + rest, section);
  }

  /** Concatenation regrouped, kept apart so that the placeholder literals do
      not enter the proofs that use it. */
  lemma Regroup(a: string, b: string, c: string, d: string, e: string)
    ensures a + (b + (c + d + e)) == a + b + c + d + e
  {
  }

  /** An id that is not one of the four sections fills in an empty name. */
  lemma UnknownSectionIsEmpty(n: SectionNames, selected: string)
    requires selected !in ["seksi-p2p", "seksi-sdk", "seksi-kesmas", "seksi-yankes"]
    ensures SectionName(ProgramManagers(n), selected) == ""
  {
  }
}

=== FILE: data_merger.dfy ===
/** The "search and merge" card on the dashboard, as a sequence of state
    transitions: `handleSearch` (with `handleMerge`), `handleDatasetSelection`
    and `handleConfirmMerge`. The search response and the model's reply are
    parameters; the loading flags are not modelled. */
module DataMerger {
  import opened Wrappers
  import opened SearchRoute
  import opened MergeFlow
  import opened Selection
  import opened Strings

  /** The dictionary entries the handlers use; the confirmation text is read
      with `?.`, so a dictionary may lack it. */
  datatype Texts = Texts(singleRecord: string, searchFailed: string, mergeFailed: string,
                         mergeConfirmedDesc: Option<string>)

  datatype State = State(
    nik: string,
    error: Option<string>,
    searchResults: seq<SearchResult>,
    mergeResult: Option<MergeOutput>,
    selected: seq<string>)

  /** The toasts the handlers raise; a confirmation carries its description,
      absent when the dictionary has no confirmation text. */
  datatype Toast = NoToast | NikRequired | NoResults | Confirmed(description: Option<string>)

  /** The ids of the three datasets offered as checkboxes. */
  const DatasetIds: seq<string> := ["seksi-p2p", "seksi-sdk", "seksi-kesmas"]

  /** The card's initial state: every dataset selected, nothing else set. */
  const Initial := State("", None, [], None, DatasetIds)

  /** `e.message || fallback`: an empty message falls back to the dictionary text. */
  function ErrorText(message: string, fallback: string): (r: string)
    ensures r == message || r == fallback
    ensures message != "" ==> r == message
  {
    if message == "" then fallback else message
  }

  /** The merge input `handleMerge` builds: the NIK typed in the card and, per
      result in order, its dataset name and a copy of the seven record properties. */
  function ToMergeInput(nik: string, results: seq<SearchResult>): (r: MergeInput)
    ensures r.nik == nik && |r.datasets| == |results|
    ensures forall i :: 0 <= i < |results| ==>
              r.datasets[i].datasetName == results[i].datasetName && r.datasets[i].record == results[i].record
  {
    MergeInput(nik, seq(|results|, i requires 0 <= i < |results| =>
      var rec := results[i].record;
      DatasetEntry(results[i].datasetName,
        PersonRecord(rec.id, rec.nik, rec.name, rec.address, rec.dob, rec.phone, rec.lastVisit))))
  }

  /** `handleMerge`: runs the flow; a failure sets the error and clears the merge result. */
  function HandleMerge(s: State, t: Texts, results: seq<SearchResult>, reply: Result<MergeOutput, string>): (r: State)
    ensures r.nik == s.nik && r.selected == s.selected && r.searchResults == s.searchResults
    ensures r.mergeResult.Some? <==> r.error.None?
    ensures var run := Run(ToMergeInput(s.nik, results), reply);
            (run.Success? ==> r.mergeResult == Some(run.value)) &&
            (run.Failure? ==> r.error == Some(ErrorText(run.error, t.mergeFailed)))
  {
    match Run(ToMergeInput(s.nik, results), reply)
    case Success(o) => s.(error := None, mergeResult := Some(o))
    case Failure(msg) => s.(error := Some(ErrorText(msg, t.mergeFailed)), mergeResult := None)
  }

  /** `handleSearch`. `found` is what `searchNik` yields: the results, or the
      message of the error it raised. */
  function HandleSearch(s: State, t: Texts, found: Result<seq<SearchResult>, string>,
                        reply: Result<MergeOutput, string>): (r: (State, Toast))
    ensures s.nik == "" ==> r == (s, NikRequired)
    ensures s.nik != "" ==> r.0.nik == s.nik && r.0.selected == s.selected
    ensures s.nik != "" && found.Failure? ==>
              r.0 == s.(error := Some(ErrorText(found.error, t.searchFailed)), searchResults := [], mergeResult := None)
    ensures s.nik != "" && found.Success? ==> r.0.searchResults == found.value
    ensures s.nik != "" && found.Success? && |found.value| == 0 ==>
              r.0.mergeResult.None? && r.0.error.None? && r.1 == NoResults
    ensures s.nik != "" && found.Success? && |found.value| == 1 ==>
              r.0.error.None? && r.0.mergeResult == Some(MergeOutput(found.value[0].record, t.singleRecord, 1.0))
    ensures s.nik != "" && found.Success? && |found.value| >= 2 ==>
              var run := Run(ToMergeInput(s.nik, found.value), reply);
              (r.0.mergeResult.Some? <==> run.Success?) && (r.0.error.None? <==> run.Success?) &&
              (run.Success? ==> r.0.mergeResult == Some(run.value)) &&
              (run.Failure? ==> r.0.error == Some(ErrorText(run.error, t.mergeFailed)))
    ensures s.nik != "" ==> r.1 == (if found.Success? && |found.value| == 0 then NoResults else NoToast)
  {
    if s.nik == "" then (s, NikRequired)
    else
      var cleared := s.(error := None, searchResults := [], mergeResult := None);
      match found
      case Failure(msg) => (cleared.(error := Some(ErrorText(msg, t.searchFailed))), NoToast)
      case Success(results) =>
        var withResults := cleared.(searchResults := results);
        if |results| > 1 then (HandleMerge(withResults, t, results, reply), NoToast)
        else if |results| == 1 then
          (withResults.(mergeResult := Some(MergeOutput(results[0].record, t.singleRecord, 1.0))), NoToast)
        else (withResults, NoResults)
  }

  /** `handleDatasetSelection`. */
  function HandleDatasetSelection(s: State, id: string): (r: State)
    ensures r.nik == s.nik && r.error == s.error && r.searchResults == s.searchResults && r.mergeResult == s.mergeResult
    ensures forall x :: x in r.selected <==> (if x == id then id !in s.selected else x in s.selected)
  {
    s.(selected := Toggle(s.selected, id))
  }

  /** `handleConfirmMerge`: raises the confirmation toast, whose text has the
      first `{nik}` replaced by the NIK typed in the card, and clears
      everything but the dataset selection. */
  function HandleConfirmMerge(s: State, t: Texts): (r: (State, Toast))
    ensures r.0.nik == "" && r.0.searchResults == [] && r.0.mergeResult.None? && r.0.error.None?
    ensures r.0.selected == s.selected
    ensures r.1.Confirmed? && (r.1.description.Some? <==> t.mergeConfirmedDesc.Some?)
    ensures t.mergeConfirmedDesc.Some? && !Contains(t.mergeConfirmedDesc.value, "{nik}") ==>
              r.1.description == t.mergeConfirmedDesc
  {
    var description := match t.mergeConfirmedDesc
      case None => None
      case Some(d) => Some(ReplaceFirst(d, "{nik}", s.nik));
    (State("", None, [], None, s.selected), Confirmed(description))
  }

  /** The confirmation names the NIK: a text with `{nik}` and no brace before
      it gets the NIK's expansion in its place, which is the NIK itself when
      it has no `$`. */
  lemma ConfirmationNamesNik(s: State, t: Texts, pre: string, post: string)
    requires t.mergeConfirmedDesc == Some(pre + "{nik}" + post) && '{' !in pre
    ensures HandleConfirmMerge(s, t).1 == Confirmed(Some(pre + Substitute(s.nik, pre, "{nik}", post) + post))
    ensures '$' !in s.nik ==> HandleConfirmMerge(s, t).1 == Confirmed(Some(pre + s.nik + post))
  {
    ReplaceFirstAt(pre, "{nik}", post, s.nik);
  }

  /** A search starts from scratch: the previous error, results and merge
      result have no influence on the state it leaves behind. */
  lemma SearchForgetsPreviousOutcome(s1: State, s2: State, t: Texts, found: Result<seq<SearchResult>, string>,
                                     reply: Result<MergeOutput, string>)
    requires s1.nik == s2.nik != "" && s1.selected == s2.selected
    ensures HandleSearch(s1, t, found, reply) == HandleSearch(s2, t, found, reply)
  {
    assert s1.(error := None, searchResults := [], mergeResult := None)
        == s2.(error := None, searchResults := [], mergeResult := None);
  }

  /** A single result never reaches the model, and the card shows what the
      flow's single-record branch would return except for the explanation,
      which comes from the dictionary. */
  lemma SingleResultAgreesWithFlow(s: State, t: Texts, res: SearchResult, reply: Result<MergeOutput, string>)
    requires s.nik != "" && SchemaRecord(res.record)
    ensures var st := HandleSearch(s, t, Success([res]), reply).0;
            var flow := Run(ToMergeInput(s.nik, [res]), reply);
            flow.Success? && st.mergeResult == Some(flow.value.(mergeExplanation := t.singleRecord))
  {
  }

  /** Confirming erases the session: two cards with the same dataset selection,
      whatever they showed before, are in the same state after confirming,
      and so after any later search. */
  lemma ConfirmErasesHistory(s1: State, s2: State, t: Texts, nik: string,
                             found: Result<seq<SearchResult>, string>, reply: Result<MergeOutput, string>)
    requires s1.selected == s2.selected
    ensures HandleConfirmMerge(s1, t).0 == HandleConfirmMerge(s2, t).0
    ensures HandleSearch(HandleConfirmMerge(s1, t).0.(nik := nik), t, found, reply)
         == HandleSearch(HandleConfirmMerge(s2, t).0.(nik := nik), t, found, reply)
  {
  }

  /** With the default selection, NIK 3171234567890001 is found in two sections;
      the public-health record's null phone fails the flow's input schema, so
      the card ends with the validation error and no merge result, whatever
      the model would have answered. */
  lemma DefaultMergeOfBudiFails(t: Texts, reply: Result<MergeOutput, string>)
    ensures var s := Initial.(nik := "3171234567890001");
            var st := HandleSearch(s, t, Success(Results(MockDatasets, "3171234567890001", DatasetIds)), reply).0;
            st.mergeResult.None? && st.error == Some(InvalidInputMessage) && |st.searchResults| == 2
  {
    BudiFoundTwice();
    var input := ToMergeInput("3171234567890001", [SearchResult(P2pName, Rec001), SearchResult(KesmasName, Rec004)]);
    assert input.datasets[1].record == Rec004;
    KesmasRecordRejected();
    assert !ValidInput(input);
  }
}

=== FILE: early_warning.dfy ===
/** The rule-based early-warning flow over sensor readings, behind the
    flow's validation of its input against `z.array(IoTDataSchema)`. The
    alert id (built from the clock) is not modelled. */
module EarlyWarning {
  import opened Wrappers
  import opened Seqs
  import opened Json
  import MergeFlow

  /** One sensor reading; the three measurements are optional. */
  datatype Reading = Reading(deviceId: string, timestamp: string,
                             temperature: Option<real>, humidity: Option<real>, mosquitoCount: Option<real>)

  datatype RiskLevel = Rendah | Sedang | Tinggi

  datatype Warning = Warning(disease: string, riskLevel: RiskLevel, recommendations: seq<string>)

  /** `value && value > limit`: an absent (or zero) measurement never exceeds. */
  predicate Exceeds(value: Option<real>, limit: real) {
    match value
    case None => false
    case Some(x) => x != 0.0 && x > limit
  }

  /** A reading that signals high risk: strictly above 30 degrees, 80% humidity
      or 100 mosquitoes. */
  predicate HighRisk(r: Reading) {
    Exceeds(r.temperature, 30.0) || Exceeds(r.humidity, 80.0) || Exceeds(r.mosquitoCount, 100.0)
  }

  const HighRiskWarning: Warning := Warning("Demam Berdarah", Tinggi, [
    "Lakukan fogging di area yang terkena.",
    "Tingkatkan surveilans di fasilitas kesehatan terdekat.",
    "Sediakan konseling bagi warga tentang cara mencegah demam berdarah."])

  const LowRiskWarning: Warning := Warning("Tidak ada", Rendah, ["Tidak ada tindakan yang diperlukan saat ini."])

  /** The flow: the dengue alert when some reading signals high risk, the
      all-clear otherwise (an empty list included). The medium level is
      never produced. */
  function Assess(readings: seq<Reading>): (r: Warning)
    ensures r.riskLevel == Tinggi <==> exists i :: 0 <= i < |readings| && HighRisk(readings[i])
    ensures r.riskLevel == Tinggi ==> r.disease == "Demam Berdarah" && |r.recommendations| == 3
    ensures r.riskLevel != Tinggi ==> r.riskLevel == Rendah && r.disease == "Tidak ada" && |r.recommendations| == 1
    ensures r.riskLevel != Sedang
  {
    var flagged := Filter(HighRisk, readings);
    if |flagged| > 0 then
      assert flagged[0] in flagged;
      HighRiskWarning
    else
      assert forall i :: 0 <= i < |readings| ==> readings[i] in readings;
      LowRiskWarning
  }

  /** Readings exactly at the thresholds do not raise the alert. */
  lemma ThresholdsAreStrict(device: string, time: string)
    ensures Assess([Reading(device, time, Some(30.0), Some(80.0), Some(100.0))]) == LowRiskWarning
    ensures Assess([Reading(device, time, None, None, None)]) == LowRiskWarning
  {
  }

  /** More readings can only raise the alert: the batch is high risk exactly
      when one of its parts is. */
  lemma {:induction false} AssessAppend(a: seq<Reading>, b: seq<Reading>)
    ensures Assess(a + b).riskLevel == Tinggi <==> Assess(a).riskLevel == Tinggi || Assess(b).riskLevel == Tinggi
  {
    FilterAppend(HighRisk, a, b);
  }

  /** The properties `IoTDataSchema` declares. */
  const ReadingKeys: set<string> := {"deviceId", "timestamp", "temperature", "humidity", "mosquitoCount"}

  /** A reading as the JSON object a sensor sends; absent measurements are
      left out. */
  function EncodeReading(r: Reading): Json {
    var m := map["deviceId" := JStr(r.deviceId), "timestamp" := JStr(r.timestamp)];
    var m1 := if r.temperature.Some? then m["temperature" := JNum(r.temperature.value)] else m;
    var m2 := if r.humidity.Some? then m1["humidity" := JNum(r.humidity.value)] else m1;
    var m3 := if r.mosquitoCount.Some? then m2["mosquitoCount" := JNum(r.mosquitoCount.value)] else m2;
    JObj(m3)
  }

  /** `IoTDataSchema.parse`: an object with string `deviceId` and `timestamp`
      and each measurement absent or a number (`null` is not accepted); the
      properties it does not declare are dropped. */
  function ParseReading(j: Json): (r: Option<Reading>)
    ensures r.Some? <==>
      j.JObj? && StringField(j, "deviceId").Some? && StringField(j, "timestamp").Some? &&
      OptionalNumberField(j, "temperature").Some? && OptionalNumberField(j, "humidity").Some? &&
      OptionalNumberField(j, "mosquitoCount").Some?
    ensures r.Some? ==> Keep(j, ReadingKeys) == EncodeReading(r.value)
  {
    if !j.JObj? then None
    else match (StringField(j, "deviceId"), StringField(j, "timestamp"), OptionalNumberField(j, "temperature"),
                OptionalNumberField(j, "humidity"), OptionalNumberField(j, "mosquitoCount"))
      case (Some(d), Some(t), Some(temp), Some(hum), Some(mos)) =>
        var r := Reading(d, t, temp, hum, mos);
        assert Keep(j, ReadingKeys).fields == EncodeReading(r).fields;
        Some(r)
      case _ => None
  }

  /** `z.array(IoTDataSchema)` on the items of an array: every element must be
      a reading, and the readings keep their order. */
  function ParseReadings(items: seq<Json>): (r: Option<seq<Reading>>)
    ensures r.Some? <==> forall i :: 0 <= i < |items| ==> ParseReading(items[i]).Some?
    ensures r.Some? ==> |r.value| == |items|
    ensures r.Some? ==> forall i :: 0 <= i < |items| ==> ParseReading(items[i]) == Some(r.value[i])
  {
    if |items| == 0 then Some([])
    else match (ParseReading(items[0]), ParseReadings(items[1..]))
      case (Some(x), Some(rest)) =>
        assert forall i :: 1 <= i < |items| ==> items[i] == items[1..][i - 1];
        Some([x] + rest)
      case (None, _) => None
      case (_, None) =>
        assert forall i :: 0 <= i < |items| - 1 ==> items[1..][i] == items[i + 1];
        None
  }

  /** `earlyWarningFlow` on a JSON input: anything other than an array of
      readings fails the input validation before the rule runs; otherwise
      the rule's warning. */
  function Flow(input: Json): (r: Result<Warning, string>)
    ensures r.Success? <==> input.JArr? && ParseReadings(input.items).Some?
    ensures r.Failure? ==> r.error == MergeFlow.InvalidInputMessage
    ensures r.Success? ==> r.value == Assess(ParseReadings(input.items).value)
  {
    if !input.JArr? then Failure(MergeFlow.InvalidInputMessage)
    else match ParseReadings(input.items)
      case None => Failure(MergeFlow.InvalidInputMessage)
      case Some(readings) => Success(Assess(readings))
  }

  /** Every reading is read back from its JSON. */
  lemma ReadingRoundTrip(r: Reading)
    ensures ParseReading(EncodeReading(r)) == Some(r)
  {
    var j := EncodeReading(r);
    assert StringField(j, "deviceId") == Some(r.deviceId);
    assert StringField(j, "timestamp") == Some(r.timestamp);
    assert OptionalNumberField(j, "temperature") == Some(r.temperature);
    assert OptionalNumberField(j, "humidity") == Some(r.humidity);
    assert OptionalNumberField(j, "mosquitoCount") == Some(r.mosquitoCount);
  }

  /** The flow on the encoding of any readings passes validation and gives
      the rule's warning for exactly those readings. */
  lemma FlowOnEncodings(rs: seq<Reading>)
    ensures Flow(JArr(seq(|rs|, i requires 0 <= i < |rs| => EncodeReading(rs[i])))) == Success(Assess(rs))
  {
    var items := seq(|rs|, i requires 0 <= i < |rs| => EncodeReading(rs[i]));
    forall i | 0 <= i < |rs|
      ensures ParseReading(items[i]) == Some(rs[i])
    {
      ReadingRoundTrip(rs[i]);
    }
    assert ParseReadings(items).value == rs;
  }

  /** A `null` measurement fails `z.number().optional()`, so the flow
      reports a validation error instead of the all-clear. */
  lemma NullMeasurementRejected(device: string, time: string)
    ensures Flow(JArr([JObj(map["deviceId" := JStr(device), "timestamp" := JStr(time), "temperature" := JNull])])).Failure?
  {
    var j := JObj(map["deviceId" := JStr(device), "timestamp" := JStr(time), "temperature" := JNull]);
    assert OptionalNumberField(j, "temperature").None?;
  }

  /** A reading without `deviceId` is rejected as well. */
  lemma MissingDeviceRejected(time: string, x: real)
    ensures Flow(JArr([JObj(map["timestamp" := JStr(time), "temperature" := JNum(x)])])).Failure?
  {
    var j := JObj(map["timestamp" := JStr(time), "temperature" := JNum(x)]);
    assert StringField(j, "deviceId").None?;
  }
}

=== FILE: editor_dialog.dfy ===
/** The add/edit dialog of the data-management table: its form schema, its
    default values and the id handling of its submit handler. Form inputs
    are taken as already converted to numbers. */
module EditorDialog {
  import opened Wrappers
  import opened Json
  import opened HealthSchema
  import opened HealthStore

  /** What the form holds: the record's properties without `id`. */
  datatype FormValues = FormValues(region: string, month: string, cases: real, vaccinations: real, patients: real)

  datatype Variant = Add | Edit

  /** The record the dialog opens with; `id` is absent for `Omit<HealthData, 'id'>`. */
  datatype InitialData = InitialData(values: FormValues, id: Option<string>)

  /** What `onSave` receives. */
  datatype Saved = New(fields: HealthFields) | Existing(record: HealthData)

  /** The values of an empty add form. */
  const DefaultValues: FormValues := FormValues("", "Jan", 0.0, 0.0, 0.0)

  /** The `int()` and `positive()` rules of one count field, in rule order. */
  function CountRules(key: string, n: real): seq<Check> {
    [Check(key, IsInteger(n)), Check(key, n > 0.0)]
  }

  /** `formSchema`: the record rules, one check per rule, in field order. */
  function FormChecks(v: FormValues): seq<Check> {
    [ Check("region", ValidRegion(v.region)), Check("month", ValidMonth(v.month)) ] +
    CountRules("cases", v.cases) + CountRules("vaccinations", v.vaccinations) +
    CountRules("patients", v.patients)
  }

  /** The issues the form reports, one per failed rule. */
  function FormIssues(v: FormValues): (r: seq<string>)
    ensures |r| == 0 <==>
      ValidRegion(v.region) && ValidMonth(v.month) &&
      ValidCount(v.cases) && ValidCount(v.vaccinations) && ValidCount(v.patients)
  {
    var checks := FormChecks(v);
    var r := Issues(checks);
    assert |r| == 0 ==> forall i :: 0 <= i < |checks| ==> checks[i].ok;
    assert |r| == 0 ==> checks[0].ok && checks[1].ok && checks[2].ok && checks[3].ok &&
                        checks[4].ok && checks[5].ok && checks[6].ok && checks[7].ok;
    r
  }

  /** The form values as the JSON body the client sends. */
  function EncodeForm(v: FormValues): Json {
    JObj(map["region" := JStr(v.region), "month" := JStr(v.month), "cases" := JNum(v.cases),
             "vaccinations" := JNum(v.vaccinations), "patients" := JNum(v.patients)])
  }

  /** The parsed form output: counts are integers once the schema passed. */
  function ToFields(v: FormValues): HealthFields {
    HealthFields(v.region, v.month, v.cases.Floor, v.vaccinations.Floor, v.patients.Floor)
  }

  /** `handleSubmit(onSubmit)`: values with issues are not submitted and the
      dialog stays as it is (`None`); otherwise `onSave` receives the values,
      with the initial record's `id` only in edit mode when that record has
      one, and the dialog closes (the second component is `open`). */
  function Submit(variant: Variant, initial: Option<InitialData>, v: FormValues): (r: Option<(Saved, bool)>)
    ensures r.None? <==> |FormIssues(v)| > 0
    ensures r.Some? ==> !r.value.1 && ValidFields(ToFields(v))
    ensures r.Some? && variant == Edit && initial.Some? && initial.value.id.Some? ==>
      r.value.0 == Existing(WithId(ToFields(v), initial.value.id.value))
    ensures r.Some? && !(variant == Edit && initial.Some? && initial.value.id.Some?) ==>
      r.value.0 == New(ToFields(v))
  {
    if |FormIssues(v)| > 0 then None
    else if variant == Edit && initial.Some? && initial.value.id.Some? then
      Some((Existing(WithId(ToFields(v), initial.value.id.value)), false))
    else Some((New(ToFields(v)), false))
  }

  /** The empty add form cannot be submitted as it is: the region is empty
      and every count is zero. */
  lemma DefaultValuesRejected()
    ensures FormIssues(DefaultValues) == ["region", "cases", "vaccinations", "patients"]
    ensures Submit(Add, None, DefaultValues).None?
  {
    var c := FormChecks(DefaultValues);
    assert !ValidCount(0.0);
    assert ValidMonth("Jan");
    assert Issues(c[7..]) == ["patients"];
    assert Issues(c[6..]) == ["patients"];
    assert Issues(c[5..]) == ["vaccinations", "patients"];
    assert Issues(c[4..]) == ["vaccinations", "patients"];
    assert Issues(c[3..]) == ["cases", "vaccinations", "patients"];
    assert Issues(c[2..]) == ["cases", "vaccinations", "patients"];
    assert Issues(c[1..]) == ["cases", "vaccinations", "patients"];
  }

  /** The form reports exactly the issues the store's POST schema reports for
      the same values, so a form that submits is a body the store accepts. */
  lemma FormAgreesWithStore(v: FormValues)
    ensures FieldChecks(EncodeForm(v)) == FormChecks(v)
    ensures |FormIssues(v)| == 0 <==> ParseFields(EncodeForm(v)).Success?
    ensures |FormIssues(v)| > 0 ==> ParseFields(EncodeForm(v)) == Failure(FormIssues(v))
    ensures |FormIssues(v)| == 0 ==> ParseFields(EncodeForm(v)) == Success(ToFields(v))
  {
    var j := EncodeForm(v);
    assert FieldChecks(j) == FormChecks(v) by {
      assert CountChecks(j, "cases") == CountRules("cases", v.cases);
      assert CountChecks(j, "vaccinations") == CountRules("vaccinations", v.vaccinations);
      assert CountChecks(j, "patients") == CountRules("patients", v.patients);
    }
    if |FormIssues(v)| == 0 {
      assert ParseFields(j).Success?;
      var f := ParseFields(j).value;
      assert f == ToFields(v) by {
        assert Keep(j, FieldKeys).fields == EncodeFields(f).fields;
        assert Keep(j, FieldKeys).fields["cases"] == JNum(v.cases);
        assert EncodeFields(f).fields["cases"] == JNum(f.cases as real);
      }
    }
  }

  /** A row submitted from the add dialog is stored by POST with status 201. */
  lemma SubmittedRowIsStored(store: seq<HealthData>, initial: Option<InitialData>, v: FormValues, freshId: string)
    requires Submit(Add, initial, v).Some?
    ensures Submit(Add, initial, v).value.0 == New(ToFields(v))
    ensures Post(store, Some(EncodeForm(v)), freshId) ==
      (store + [WithId(ToFields(v), freshId)], Response(201, Record(WithId(ToFields(v), freshId))))
  {
    FormAgreesWithStore(v);
  }
}

=== FILE: header.dfy ===
/** The page header: the six navigation links, which of them is highlighted
    for the current path, and the reduced header of the login page. */
module Header {
  import opened Strings

  datatype NavLabels = NavLabels(dashboard: string, dataManagement: string, dataSearch: string,
                                 monitoring: string, reporting: string, surveillance: string)

  /** A link: where it goes, its text and its path below the locale prefix. */
  datatype NavLink = NavLink(href: string, text: string, path: string)

  /** The part of the URL the locale occupies: `/id`, `/en`, ... */
  function LangPrefix(lang: string): string { "/" + lang }

  /** The sub-paths of the five links after the dashboard. */
  const SectionPaths: seq<string> := ["/upload", "/search", "/monitoring", "/reporting", "/surveillance"]

  /** `navLinks`: the dashboard first, then the five sections. */
  function NavLinks(lang: string, labels: NavLabels): (r: seq<NavLink>)
    ensures |r| == 6
    ensures forall i :: 0 <= i < 6 ==> LangPrefix(lang) <= r[i].href && r[i].href == LangPrefix(lang) + r[i].path
    ensures r[0].path == "" && forall i :: 1 <= i < 6 ==> r[i].path == SectionPaths[i - 1]
  {
    var p := LangPrefix(lang);
    [ NavLink(p, labels.dashboard, ""),
      NavLink(p + "/upload", labels.dataManagement, "/upload"),
      NavLink(p + "/search", labels.dataSearch, "/search"),
      NavLink(p + "/monitoring", labels.monitoring, "/monitoring"),
      NavLink(p + "/reporting", labels.reporting, "/reporting"),
      NavLink(p + "/surveillance", labels.surveillance, "/surveillance") ]
  }

  /** `checkActivePath`: the dashboard only on its exact path, any other link
      on every path that starts with its href (so `/id/uploadX` highlights
      the upload link). */
  predicate IsActive(lang: string, current: string, linkPath: string) {
    if linkPath == "" then current == LangPrefix(lang)
    else LangPrefix(lang) + linkPath <= current
  }

  /** Two prefixes of one string: the shorter is a prefix of the longer. */
  lemma PrefixesNest(a: string, b: string, c: string)
    requires a <= c && b <= c && |a| <= |b|
    ensures a <= b
  {
    assert forall i :: 0 <= i < |a| ==> a[i] == c[i] == b[i];
  }

  /** Equal heads can be dropped from a prefix relation. */
  lemma PrefixCancel(p: string, x: string, y: string)
    requires p + x <= p + y
    ensures x <= y
  {
    assert forall i :: 0 <= i < |x| ==> (p + x)[|p| + i] == x[i] && (p + y)[|p| + i] == y[i];
  }

  /** No section path is a prefix of another. */
  lemma SectionPathsPrefixFree()
    ensures forall i, j :: 0 <= i < 5 && 0 <= j < 5 && i != j ==> !(SectionPaths[i] <= SectionPaths[j])
  {
    forall i, j | 0 <= i < 5 && 0 <= j < 5 && i != j
      ensures !(SectionPaths[i] <= SectionPaths[j])
    {
      var a, b := SectionPaths[i], SectionPaths[j];
      if (i == 1 && j == 4) || (i == 4 && j == 1) {
        assert a[2] != b[2];
      } else {
        assert a[1] != b[1];
      }
    }
  }

  /** Whatever the path, at most one link is highlighted. */
  lemma AtMostOneActive(lang: string, labels: NavLabels, current: string)
    ensures var links := NavLinks(lang, labels);
            forall i, j :: 0 <= i < 6 && 0 <= j < 6 && i != j && IsActive(lang, current, links[i].path)
                           ==> !IsActive(lang, current, links[j].path)
  {
    var links := NavLinks(lang, labels);
    var p := LangPrefix(lang);
    forall i, j | 0 <= i < 6 && 0 <= j < 6 && i != j && IsActive(lang, current, links[i].path)
      ensures !IsActive(lang, current, links[j].path)
    {
      if i == 0 {
        assert |p + links[j].path| > |current|;
      } else if j == 0 {
        assert |current| >= |p + links[i].path| > |p|;
      } else if IsActive(lang, current, links[j].path) {
        var a, b := links[i].path, links[j].path;
        SectionPathsPrefixFree();
        if |a| <= |b| {
          PrefixesNest(p + a, p + b, current);
          PrefixCancel(p, a, b);
        } else {
          PrefixesNest(p + b, p + a, current);
          PrefixCancel(p, b, a);
        }
      }
    }
  }

  /** On its own href every link is the highlighted one. */
  lemma OwnHrefActive(lang: string, labels: NavLabels)
    ensures var links := NavLinks(lang, labels);
            forall i :: 0 <= i < 6 ==> IsActive(lang, links[i].href, links[i].path)
  {
  }

  /** A path that only extends a link's href also highlights it. */
  lemma ExtensionsHighlight()
    ensures IsActive("id", "/id/uploadX", "/upload")
    ensures !IsActive("id", "/id/", "")
  {
    assert "/id" + "/upload" <= "/id/uploadX";
  }

  /** `isLoginPage`: the path contains `/login` anywhere. */
  predicate IsLoginPage(path: string) {
    Contains(path, "/login")
  }

  /** What the header shows: the links with their highlight, or none, and
      the hrefs of the icon buttons on the right. */
  datatype View = View(nav: seq<(NavLink, bool)>, buttons: seq<string>)

  function Render(lang: string, labels: NavLabels, path: string): (r: View)
    ensures IsLoginPage(path) ==> r == View([], [LangPrefix(lang) + "/login"])
    ensures !IsLoginPage(path) ==>
      |r.nav| == 6 && r.buttons == [LangPrefix(lang) + "/profile", LangPrefix(lang) + "/admin"] &&
      forall i :: 0 <= i < 6 ==>
        r.nav[i].0 == NavLinks(lang, labels)[i] && (r.nav[i].1 <==> IsActive(lang, path, NavLinks(lang, labels)[i].path))
  {
    if IsLoginPage(path) then View([], [LangPrefix(lang) + "/login"])
    else
      var links := NavLinks(lang, labels);
      View(seq(6, i requires 0 <= i < 6 => (links[i], IsActive(lang, path, links[i].path))),
           [LangPrefix(lang) + "/profile", LangPrefix(lang) + "/admin"])
  }

  /** `/login` counts wherever it appears, also inside a longer segment. */
  lemma LoginAnywhere(prefix: string, suffix: string)
    ensures IsLoginPage(prefix + "/login" + suffix)
  {
    var s := prefix + "/login" + suffix;
    assert s[|prefix|..] == "/login" + suffix;
    assert OccursAt(s, "/login", |prefix|);
  }
}

=== FILE: health_schema.dfy ===
/** The health-data record schema and the program-manager shape. */
module HealthSchema {
  import opened Wrappers
  import opened Json

  /** One month of a region's figures. */
  datatype HealthData = HealthData(id: string, region: string, month: string, cases: int, vaccinations: int, patients: int)

  /** A record without its id, as a client submits a new row. */
  datatype HealthFields = HealthFields(region: string, month: string, cases: int, vaccinations: int, patients: int)

  const Months: seq<string> := ["Jan", "Feb", "Mar", "Apr", "May", "Jun", "Jul", "Aug", "Sep", "Oct", "Nov", "Dec"]

  predicate IsHexDigit(c: char) {
    '0' <= c <= '9' || 'a' <= c <= 'f' || 'A' <= c <= 'F'
  }

  /** `z.string().uuid()`: the textual form of section 3 of RFC 4122, five
      groups of 8, 4, 4, 4 and 12 hexadecimal digits (either case) joined by
      hyphens; the version and variant digits are not checked. */
  predicate IsUuid(s: string) {
    |s| == 36 &&
    forall i :: 0 <= i < 36 ==>
      if i == 8 || i == 13 || i == 18 || i == 23 then s[i] == '-' else IsHexDigit(s[i])
  }

  /** `z.string().min(1)`. */
  predicate ValidRegion(s: string) { |s| >= 1 }

  /** `z.enum(Months)`. */
  predicate ValidMonth(s: string) { s in Months }

  /** `z.number().int().positive()`: zero is rejected. */
  predicate ValidCount(n: real) { IsInteger(n) && n > 0.0 }

  function FieldsOf(h: HealthData): HealthFields {
    HealthFields(h.region, h.month, h.cases, h.vaccinations, h.patients)
  }

  function WithId(f: HealthFields, id: string): HealthData {
    HealthData(id, f.region, f.month, f.cases, f.vaccinations, f.patients)
  }

  /** What the schema promises about a record it accepted. */
  predicate ValidFields(f: HealthFields) {
    ValidRegion(f.region) && ValidMonth(f.month) && f.cases > 0 && f.vaccinations > 0 && f.patients > 0
  }

  predicate Valid(h: HealthData) {
    IsUuid(h.id) && ValidFields(FieldsOf(h))
  }

  function StringIs(j: Json, key: string, p: string -> bool): bool {
    match StringField(j, key)
    case Some(s) => p(s)
    case None => false
  }

  function CountIs(j: Json, key: string): bool {
    match NumberField(j, key)
    case Some(n) => ValidCount(n)
    case None => false
  }

  /** The rule checks of a `z.number().int().positive()` property, in rule
      order: a value that is not a number fails the type check alone; a
      number is checked against both rules, each failure an issue of its own. */
  function CountChecks(j: Json, key: string): (r: seq<Check>)
    ensures |Issues(r)| == 0 <==> CountIs(j, key)
    ensures forall i :: 0 <= i < |r| ==> r[i].path == key
  {
    match NumberField(j, key)
    case Some(n) => [Check(key, IsInteger(n)), Check(key, n > 0.0)]
    case None => [Check(key, false)]
  }

  /** The rule checks of the schema without `id`, in declaration order. */
  function FieldChecks(j: Json): seq<Check> {
    [ Check("region", StringIs(j, "region", ValidRegion)),
      Check("month", StringIs(j, "month", ValidMonth)) ] +
    CountChecks(j, "cases") + CountChecks(j, "vaccinations") + CountChecks(j, "patients")
  }

  /** The issues of the field checks, property by property. */
  lemma FieldIssues(j: Json)
    ensures Issues(FieldChecks(j)) ==
      Issues([Check("region", StringIs(j, "region", ValidRegion))]) +
      Issues([Check("month", StringIs(j, "month", ValidMonth))]) +
      Issues(CountChecks(j, "cases")) + Issues(CountChecks(j, "vaccinations")) + Issues(CountChecks(j, "patients"))
  {
    var r := [Check("region", StringIs(j, "region", ValidRegion))];
    var m := [Check("month", StringIs(j, "month", ValidMonth))];
    var c := CountChecks(j, "cases");
    var v := CountChecks(j, "vaccinations");
    var p := CountChecks(j, "patients");
    assert FieldChecks(j) == r + m + c + v + p;
    IssuesAppend(r + m + c + v, p);
    IssuesAppend(r + m + c, v);
    IssuesAppend(r + m, c);
    IssuesAppend(r, m);
  }

  /** A body passes every field check exactly when each property meets its rules. */
  lemma FieldChecksPass(j: Json)
    ensures |Issues(FieldChecks(j))| == 0 <==>
      StringIs(j, "region", ValidRegion) && StringIs(j, "month", ValidMonth) &&
      CountIs(j, "cases") && CountIs(j, "vaccinations") && CountIs(j, "patients")
  {
    FieldIssues(j);
  }

  const FieldKeys: set<string> := {"region", "month", "cases", "vaccinations", "patients"}

  function EncodeFieldsMap(f: HealthFields): map<string, Json> {
    map["region" := JStr(f.region), "month" := JStr(f.month), "cases" := JNum(f.cases as real),
        "vaccinations" := JNum(f.vaccinations as real), "patients" := JNum(f.patients as real)]
  }

  /** A new row as JSON. */
  function EncodeFields(f: HealthFields): Json {
    JObj(EncodeFieldsMap(f))
  }

  /** A record as JSON. */
  function Encode(h: HealthData): Json {
    JObj(EncodeFieldsMap(FieldsOf(h))["id" := JStr(h.id)])
  }

  /** The row a body that passed every field check carries. */
  function ReadFields(j: Json): (f: HealthFields)
    requires |Issues(FieldChecks(j))| == 0
    ensures ValidFields(f)
    ensures Keep(j, FieldKeys) == EncodeFields(f)
  {
    FieldChecksPass(j);
    var f := HealthFields(StringField(j, "region").value, StringField(j, "month").value,
                          NumberField(j, "cases").value.Floor, NumberField(j, "vaccinations").value.Floor,
                          NumberField(j, "patients").value.Floor);
    var kept := Keep(j, FieldKeys).fields;
    assert kept.Keys == FieldKeys;
    assert kept == EncodeFieldsMap(f);
    f
  }

  /** `healthDataSchema.omit({ id: true }).parse`: the issue list names the
      property of every failed rule; a non-object fails at the root (path "").
      An accepted body, stripped of unknown properties, is the encoding of the
      row it yields. */
  function ParseFields(j: Json): (r: Result<HealthFields, seq<string>>)
    ensures r.Failure? ==> |r.error| > 0
    ensures r.Failure? && j.JObj? ==> r.error == Issues(FieldChecks(j))
    ensures r.Success? ==> ValidFields(r.value) && Keep(j, FieldKeys) == EncodeFields(r.value)
  {
    if !j.JObj? then Failure([""])
    else
      var issues := Issues(FieldChecks(j));
      if |issues| > 0 then Failure(issues)
      else
        Success(ReadFields(j))
  }

  /** `healthDataSchema.parse`: the same checks preceded by the UUID check on `id`. */
  function Parse(j: Json): (r: Result<HealthData, seq<string>>)
    ensures r.Failure? ==> |r.error| > 0
    ensures r.Success? ==> Valid(r.value) && Keep(j, FieldKeys + {"id"}) == Encode(r.value)
    ensures j.JObj? ==> (r.Success? <==> StringIs(j, "id", IsUuid) && |Issues(FieldChecks(j))| == 0)
    ensures j.JObj? && !StringIs(j, "id", IsUuid) ==> r.Failure? && r.error[0] == "id"
  {
    if !j.JObj? then Failure([""])
    else
      var idCheck := [Check("id", StringIs(j, "id", IsUuid))];
      var issues := Issues(idCheck + FieldChecks(j));
      IssuesAppend(idCheck, FieldChecks(j));
      assert idCheck[1..] == [];
      if |issues| > 0 then Failure(issues)
      else
        assert StringIs(j, "id", IsUuid);
        var f := ReadFields(j);
        var h := WithId(f, StringField(j, "id").value);
        assert Keep(j, FieldKeys).fields == EncodeFieldsMap(f);
        assert Keep(j, FieldKeys + {"id"}).fields == Keep(j, FieldKeys).fields["id" := JStr(h.id)];
        Success(h)
  }

  /** A record whose id is not a UUID is rejected, the id issue first. */
  lemma NonUuidRejected(h: HealthData)
    requires !IsUuid(h.id)
    ensures Parse(Encode(h)).Failure? && Parse(Encode(h)).error[0] == "id"
  {
    assert StringField(Encode(h), "id") == Some(h.id);
  }

  /** Every row that satisfies the schema's rules is accepted back from its JSON. */
  lemma ParseFieldsEncode(f: HealthFields)
    requires ValidFields(f)
    ensures ParseFields(EncodeFields(f)) == Success(f)
  {
    FieldChecksPass(EncodeFields(f));
  }

  /** Every valid record is accepted back from its JSON. */
  lemma ParseEncode(h: HealthData)
    requires Valid(h)
    ensures Parse(Encode(h)) == Success(h)
  {
    var j := Encode(h);
    assert StringIs(j, "id", IsUuid);
    FieldChecksPass(j);
    IssuesAppend([Check("id", StringIs(j, "id", IsUuid))], FieldChecks(j));
  }

  /** The issues of one count property: the type issue alone for a value
      that is not a number, otherwise one issue per broken rule. */
  lemma CountIssues(j: Json, key: string)
    ensures NumberField(j, key).None? ==> Issues(CountChecks(j, key)) == [key]
    ensures NumberField(j, key).Some? ==>
      Issues(CountChecks(j, key)) ==
        (if IsInteger(NumberField(j, key).value) then [] else [key]) +
        (if NumberField(j, key).value > 0.0 then [] else [key])
  {
    var c := CountChecks(j, key);
    if NumberField(j, key).Some? {
      assert c[1..][1..] == [];
    } else {
      assert c[1..] == [];
    }
  }

  /** The issues of a valid row's JSON with one count set to `n`: those of
      that count alone. */
  lemma OneCountIssues(f: HealthFields, key: string, n: real)
    requires ValidFields(f)
    requires key in {"cases", "vaccinations", "patients"}
    ensures Issues(FieldChecks(JObj(EncodeFieldsMap(f)[key := JNum(n)]))) ==
            Issues(CountChecks(JObj(EncodeFieldsMap(f)[key := JNum(n)]), key))
  {
    var j := JObj(EncodeFieldsMap(f)[key := JNum(n)]);
    FieldIssues(j);
    assert StringIs(j, "region", ValidRegion) && StringIs(j, "month", ValidMonth);
    if key != "cases" { OtherCountPasses(f, key, n, "cases"); }
    if key != "vaccinations" { OtherCountPasses(f, key, n, "vaccinations"); }
    if key != "patients" { OtherCountPasses(f, key, n, "patients"); }
  }

  /** Setting one count leaves the checks of another valid count passing. */
  lemma OtherCountPasses(f: HealthFields, key: string, n: real, other: string)
    requires ValidFields(f)
    requires other in {"cases", "vaccinations", "patients"} && other != key
    ensures Issues(CountChecks(JObj(EncodeFieldsMap(f)[key := JNum(n)]), other)) == []
  {
    var j := JObj(EncodeFieldsMap(f)[key := JNum(n)]);
    assert NumberField(j, other) == NumberField(EncodeFields(f), other);
    FieldChecksPass(EncodeFields(f));
  }

  /** A single count of zero is one issue under its property. */
  lemma ZeroCountIssue(f: HealthFields, key: string)
    requires ValidFields(f)
    requires key in {"cases", "vaccinations", "patients"}
    ensures ParseFields(JObj(EncodeFieldsMap(f)[key := JNum(0.0)])) == Failure([key])
  {
    var j := JObj(EncodeFieldsMap(f)[key := JNum(0.0)]);
    OneCountIssues(f, key, 0.0);
    CountIssues(j, key);
    assert NumberField(j, key) == Some(0.0);
    assert IsInteger(0.0);
    assert Issues(CountChecks(j, key)) == [] + [key];
    assert Issues(FieldChecks(j)) == [key];
  }

  /** Counts must be strictly positive: a zero count breaks `positive()` only
      and is a single issue under its property. */
  lemma ZeroCountRejected(f: HealthFields)
    requires ValidFields(f)
    ensures ParseFields(EncodeFields(f.(cases := 0))) == Failure(["cases"])
    ensures ParseFields(EncodeFields(f.(patients := 0))) == Failure(["patients"])
  {
    assert EncodeFields(f.(cases := 0)) == JObj(EncodeFieldsMap(f)["cases" := JNum(0.0)]);
    ZeroCountIssue(f, "cases");
    assert EncodeFields(f.(patients := 0)) == JObj(EncodeFieldsMap(f)["patients" := JNum(0.0)]);
    ZeroCountIssue(f, "patients");
  }

  /** Each failed rule is an issue of its own: a count of -1.5 breaks both
      `int()` and `positive()`, so its property is named twice. */
  lemma NegativeFractionTwoIssues(f: HealthFields)
    requires ValidFields(f)
    ensures ParseFields(JObj(EncodeFieldsMap(f)["cases" := JNum(-1.5)])) == Failure(["cases", "cases"])
  {
    var j := JObj(EncodeFieldsMap(f)["cases" := JNum(-1.5)]);
    OneCountIssues(f, "cases", -1.5);
    assert !IsInteger(-1.5) by { assert (-1.5).Floor == -2; }
    CountIssues(j, "cases");
    assert NumberField(j, "cases") == Some(-1.5);
    assert Issues(CountChecks(j, "cases")) == ["cases", "cases"];
    assert Issues(FieldChecks(j)) == ["cases", "cases"];
  }

  /** The four records the in-memory store starts with. */
  const Seed: seq<HealthData> := [
    HealthData("d27b8e5c-7d3d-4c3e-9b2f-9a1b2c3d4e5f", "Jakarta Pusat", "Jan", 1200, 800, 22000),
    HealthData("d27b8e5c-7d3d-4c3e-9b2f-9a1b2c3d4e6g", "Jakarta Pusat", "Feb", 1500, 950, 23500),
    HealthData("d27b8e5c-7d3d-4c3e-9b2f-9a1b2c3d4e7h", "Jakarta Barat", "Mar", 850, 750, 16500),
    HealthData("d27b8e5c-7d3d-4c3e-9b2f-9a1b2c3d4e8i", "Jakarta Selatan", "Apr", 1300, 1000, 21000)
  ]

  /** Only the first seeded id is a UUID: the others end in `g`, `h` and `i`,
      which are not hexadecimal digits. */
  lemma SeedIds()
    ensures IsUuid(Seed[0].id)
    ensures !IsUuid(Seed[1].id) && !IsUuid(Seed[2].id) && !IsUuid(Seed[3].id)
  {
    assert Seed[1].id[35] == 'g' && Seed[2].id[35] == 'h' && Seed[3].id[35] == 'i';
  }

  /** The seed as evidently intended: the same rows with identifiers that are
      UUIDs, the last hexadecimal digit standing in for the letters. */
  const IntendedSeed: seq<HealthData> := [
    Seed[0],
    Seed[1].(id := "d27b8e5c-7d3d-4c3e-9b2f-9a1b2c3d4e6f"),
    Seed[2].(id := "d27b8e5c-7d3d-4c3e-9b2f-9a1b2c3d4e7f"),
    Seed[3].(id := "d27b8e5c-7d3d-4c3e-9b2f-9a1b2c3d4e8f")
  ]

  /** Changing one hexadecimal digit of a UUID gives a UUID. */
  lemma UuidDigitChange(s: string, k: nat, c: char)
    requires IsUuid(s) && k < 36 && k != 8 && k != 13 && k != 18 && k != 23 && IsHexDigit(c)
    ensures IsUuid(s[k := c])
  {
  }

  /** Every intended seed record satisfies the record schema, and their ids
      are pairwise distinct. */
  lemma IntendedSeedValid()
    ensures forall i :: 0 <= i < 4 ==> Valid(IntendedSeed[i])
    ensures forall i, j :: 0 <= i < 4 && 0 <= j < 4 && i != j ==> IntendedSeed[i].id != IntendedSeed[j].id
  {
    var u := Seed[0].id;
    assert IsUuid(u) by { SeedIds(); }
    UuidDigitChange(u, 34, '6');
    UuidDigitChange(u, 34, '7');
    UuidDigitChange(u, 34, '8');
    assert IntendedSeed[1].id == u[34 := '6'];
    assert IntendedSeed[2].id == u[34 := '7'];
    assert IntendedSeed[3].id == u[34 := '8'];
    assert IntendedSeed[0].id[34] == '5' && IntendedSeed[1].id[34] == '6';
    assert IntendedSeed[2].id[34] == '7' && IntendedSeed[3].id[34] == '8';
  }

  datatype ProgramManager = ProgramManager(id: string, name: string)

  function EncodeProgramManager(m: ProgramManager): Json {
    JObj(map["id" := JStr(m.id), "name" := JStr(m.name)])
  }

  /** `programManagerSchema.parse`: any object whose `id` and `name` are
      strings is accepted, whatever else it holds; the unknown properties are
      stripped and the two strings are the manager. */
  function ParseProgramManager(j: Json): (r: Option<ProgramManager>)
    ensures r.Some? <==> StringField(j, "id").Some? && StringField(j, "name").Some?
    ensures r.Some? ==> Keep(j, {"id", "name"}) == EncodeProgramManager(r.value)
  {
    match (StringField(j, "id"), StringField(j, "name"))
    case (Some(id), Some(name)) =>
      var kept := Keep(j, {"id", "name"}).fields;
      assert kept.Keys == {"id", "name"};
      assert kept == EncodeProgramManager(ProgramManager(id, name)).fields;
      Some(ProgramManager(id, name))
    case _ => None
  }

  /** Every manager is read back from its JSON, and extra properties change nothing. */
  lemma ProgramManagerRoundTrip(m: ProgramManager, extra: string, v: Json)
    requires extra !in {"id", "name"}
    ensures ParseProgramManager(EncodeProgramManager(m)) == Some(m)
    ensures ParseProgramManager(JObj(EncodeProgramManager(m).fields[extra := v])) == Some(m)
  {
  }
}

=== FILE: health_store.dfy ===
/** The `/api/health-data` route: an in-memory list of records with GET,
    POST, PUT and DELETE handlers. Each handler is a function from the store
    and the parsed request body to the new store and the response. The body
    is `None` when `request.json()` throws; that is answered with status 500. */
module HealthStore {
  import opened Wrappers
  import opened Seqs
  import opened Json
  import opened HealthSchema

  datatype Payload =
    | Records(records: seq<HealthData>)
    | Record(record: HealthData)
    | ValidationIssues(paths: seq<string>)
    | ErrorMessage(text: string)
    | NoContent

  datatype Response = Response(status: int, payload: Payload)

  const RecordNotFound: string := "Record not found"
  const InternalServerError: string := "Internal Server Error"

  function HasId(id: string): HealthData -> bool {
    (h: HealthData) => h.id == id
  }

  function LacksId(id: string): HealthData -> bool {
    (h: HealthData) => h.id != id
  }

  predicate ContainsId(store: seq<HealthData>, id: string) {
    exists k :: 0 <= k < |store| && store[k].id == id
  }

  /** GET: the whole store, in insertion order. */
  function GetAll(store: seq<HealthData>): (r: Response)
    ensures r.status == 200 && r.payload.Records?
    ensures |r.payload.records| == |store| && forall k :: 0 <= k < |store| ==> r.payload.records[k] == store[k]
  {
    Response(200, Records(store))
  }

  /** POST: a body that passes the schema without `id` is stored under a
      fresh id (the value `crypto.randomUUID()` returns, a parameter here)
      and echoed with status 201; any `id` in the body is dropped. */
  function Post(store: seq<HealthData>, body: Option<Json>, freshId: string): (r: (seq<HealthData>, Response))
    ensures r.1.status in {201, 400, 500}
    ensures r.1.status != 201 ==> r.0 == store
    ensures r.1.status == 500 <==> body.None?
    ensures r.1.status == 400 <==> body.Some? && ParseFields(body.value).Failure?
    ensures r.1.status == 400 ==> r.1.payload == ValidationIssues(ParseFields(body.value).error)
    ensures r.1.status == 201 ==>
      r.1.payload.Record? && r.0 == store + [r.1.payload.record] &&
      r.1.payload.record.id == freshId && ValidFields(FieldsOf(r.1.payload.record)) &&
      Keep(body.value, FieldKeys) == EncodeFields(FieldsOf(r.1.payload.record))
  {
    match body
    case None => (store, Response(500, ErrorMessage(InternalServerError)))
    case Some(j) =>
      match ParseFields(j)
      case Failure(issues) => (store, Response(400, ValidationIssues(issues)))
      case Success(f) =>
        var created := WithId(f, freshId);
        (store + [created], Response(201, Record(created)))
  }

  /** PUT: a body that passes the full schema replaces the FIRST stored
      record with the same id (status 200); later records with that id and
      all other records stay as they were. An unknown id is 404. */
  function Put(store: seq<HealthData>, body: Option<Json>): (r: (seq<HealthData>, Response))
    ensures r.1.status in {200, 400, 404, 500}
    ensures r.1.status != 200 ==> r.0 == store
    ensures r.1.status == 500 <==> body.None?
    ensures r.1.status == 400 <==> body.Some? && Parse(body.value).Failure?
    ensures r.1.status == 404 <==>
      body.Some? && Parse(body.value).Success? && !ContainsId(store, Parse(body.value).value.id)
    ensures r.1.status == 200 ==>
      var d := Parse(body.value).value;
      r.1.payload == Record(d) && Valid(d) && |r.0| == |store| &&
      exists i :: 0 <= i < |store| && store[i].id == d.id &&
        (forall k :: 0 <= k < i ==> store[k].id != d.id) && r.0 == store[i := d]
  {
    match body
    case None => (store, Response(500, ErrorMessage(InternalServerError)))
    case Some(j) =>
      match Parse(j)
      case Failure(issues) => (store, Response(400, ValidationIssues(issues)))
      case Success(d) =>
        match FindIndex(HasId(d.id), store)
        case None => (store, Response(404, ErrorMessage(RecordNotFound)))
        case Some(i) => (store[i := d], Response(200, Record(d)))
  }

  /** The `{ id: z.string() }` schema of a DELETE body. */
  function DeleteTarget(j: Json): (r: Result<string, seq<string>>)
    ensures r.Success? <==> StringField(j, "id").Some?
    ensures r.Success? ==> r.value == StringField(j, "id").value
  {
    match StringField(j, "id")
    case Some(id) => Success(id)
    case None => Failure(if j.JObj? then ["id"] else [""])
  }

  /** DELETE: every record with the given id is removed (204); when none
      has it the store is unchanged and the answer is 404. */
  function Delete(store: seq<HealthData>, body: Option<Json>): (r: (seq<HealthData>, Response))
    ensures r.1.status in {204, 400, 404, 500}
    ensures r.1.status != 204 ==> r.0 == store
    ensures r.1.status == 500 <==> body.None?
    ensures r.1.status == 400 <==> body.Some? && DeleteTarget(body.value).Failure?
    ensures body.Some? && DeleteTarget(body.value).Success? ==>
      var id := DeleteTarget(body.value).value;
      (r.1.status == 404 <==> !ContainsId(store, id)) &&
      (r.1.status == 204 ==> |r.0| < |store| && forall h :: h in r.0 <==> h in store && h.id != id) &&
      (r.1.status == 204 ==>
         (forall h :: multiset(r.0)[h] == if h.id != id then multiset(store)[h] else 0) &&
         SelectsInOrder(r.0, store, FilterIndices(LacksId(id), store)))
  {
    match body
    case None => (store, Response(500, ErrorMessage(InternalServerError)))
    case Some(j) =>
      match DeleteTarget(j)
      case Failure(issues) => (store, Response(400, ValidationIssues(issues)))
      case Success(id) =>
        var remaining := Filter(LacksId(id), store);
        FilterCounts(LacksId(id), store);
        if |remaining| == |store| then
          FilterSameLength(LacksId(id), store);
          assert forall k :: 0 <= k < |store| ==> store[k] in store;
          (remaining, Response(404, ErrorMessage(RecordNotFound)))
        else
          assert ContainsId(store, id) by {
            if !ContainsId(store, id) {
              FilterKeepsAll(LacksId(id), store);
            }
          }
          (remaining, Response(204, NoContent))
  }

  /** The `id` a client puts in a POST body has no effect: the stored record
      gets the fresh id either way. */
  lemma PostIgnoresClientId(store: seq<HealthData>, f: HealthFields, clientId: string, freshId: string)
    requires ValidFields(f)
    ensures Post(store, Some(Encode(WithId(f, clientId))), freshId) == Post(store, Some(EncodeFields(f)), freshId)
    ensures Post(store, Some(EncodeFields(f)), freshId) == (store + [WithId(f, freshId)], Response(201, Record(WithId(f, freshId))))
  {
    var j := Encode(WithId(f, clientId));
    ParseFieldsEncode(f);
    assert FieldChecks(j) == FieldChecks(EncodeFields(f));
    FieldChecksPass(j);
    assert ParseFields(j) == Success(ReadFields(j));
    assert ReadFields(j) == f;
  }

  /** A record created by POST can afterwards be edited by PUT, provided its
      fresh id is a UUID that was not in use. */
  lemma PostThenPut(store: seq<HealthData>, f: HealthFields, g: HealthFields, freshId: string)
    requires ValidFields(f) && ValidFields(g) && IsUuid(freshId) && !ContainsId(store, freshId)
    ensures var s1 := Post(store, Some(EncodeFields(f)), freshId).0;
            Put(s1, Some(Encode(WithId(g, freshId)))) ==
              (store + [WithId(g, freshId)], Response(200, Record(WithId(g, freshId))))
  {
    var s1 := store + [WithId(f, freshId)];
    assert Post(store, Some(EncodeFields(f)), freshId).0 == s1 by {
      PostIgnoresClientId(store, f, "", freshId);
    }
    var d := WithId(g, freshId);
    assert Parse(Encode(d)) == Success(d) by {
      ParseEncode(d);
    }
    assert FindIndex(HasId(d.id), s1) == Some(|store|) by {
      FindLast(store, WithId(f, freshId));
    }
    assert s1[|store| := d] == store + [d];
  }

  /** A record whose id no earlier record has is found at its own position. */
  lemma FindLast(store: seq<HealthData>, h: HealthData)
    requires !ContainsId(store, h.id)
    ensures FindIndex(HasId(h.id), store + [h]) == Some(|store|)
  {
    var s1 := store + [h];
    assert HasId(h.id)(s1[|store|]);
    assert forall k :: 0 <= k < |store| ==> s1[k] == store[k];
  }

  /** Of the seeded records only the first can be edited: the ids of the
      other three are not UUIDs, so the schema rejects every PUT for them. */
  lemma SeedEditability()
    ensures Put(Seed, Some(Encode(Seed[0]))) == (Seed, Response(200, Record(Seed[0])))
    ensures forall i :: 1 <= i < 4 ==> Put(Seed, Some(Encode(Seed[i]))).1.status == 400
  {
    assert Put(Seed, Some(Encode(Seed[0]))) == (Seed, Response(200, Record(Seed[0]))) by {
      SeedIds();
      ParseEncode(Seed[0]);
      assert FindIndex(HasId(Seed[0].id), Seed) == Some(0);
      assert Seed[0 := Seed[0]] == Seed;
    }
    forall i | 1 <= i < 4
      ensures Put(Seed, Some(Encode(Seed[i]))).1.status == 400
    {
      NonUuidSeedRejected(i);
    }
  }

  /** PUT of an unchanged seeded record with a non-UUID id is a 400. */
  lemma NonUuidSeedRejected(i: nat)
    requires 1 <= i < 4
    ensures Put(Seed, Some(Encode(Seed[i]))).1.status == 400
  {
    SeedIds();
    NonUuidRejected(Seed[i]);
  }

  /** With UUID identifiers, saving any seeded row unchanged succeeds and
      leaves the store as it is. */
  lemma IntendedSeedEditable()
    ensures forall i :: 0 <= i < 4 ==>
              Put(IntendedSeed, Some(Encode(IntendedSeed[i]))) == (IntendedSeed, Response(200, Record(IntendedSeed[i])))
  {
    IntendedSeedValid();
    forall i | 0 <= i < 4
      ensures Put(IntendedSeed, Some(Encode(IntendedSeed[i]))) == (IntendedSeed, Response(200, Record(IntendedSeed[i])))
    {
      ParseEncode(IntendedSeed[i]);
      assert FindIndex(HasId(IntendedSeed[i].id), IntendedSeed) == Some(i);
      assert IntendedSeed[i := IntendedSeed[i]] == IntendedSeed;
    }
  }

  /** Deleting is idempotent: once an id is gone, deleting it again is a 404
      that leaves the store as it is. */
  lemma DeleteTwice(store: seq<HealthData>, body: Json)
    requires Delete(store, Some(body)).1.status == 204
    ensures var s1 := Delete(store, Some(body)).0;
            Delete(s1, Some(body)) == (s1, Response(404, ErrorMessage(RecordNotFound)))
  {
    var s1 := Delete(store, Some(body)).0;
    var id := DeleteTarget(body).value;
    assert !ContainsId(s1, id) by {
      forall k | 0 <= k < |s1|
        ensures s1[k].id != id
      {
        assert s1[k] in s1;
      }
    }
  }
}

=== FILE: jsnumber.dfy ===
/** JavaScript numbers as the source uses them: finite values are exact
    rationals (no binary rounding), and division by zero gives `Infinity`,
    `-Infinity` or `NaN` as IEEE 754 prescribes. Negative zero is not
    distinguished from zero; no computation modelled here divides by it. */
module JsNumber {

  datatype Num = Fin(v: real) | PosInf | NegInf | NaN

  /** `x / y` for finite operands. */
  function Div(x: real, y: real): (r: Num)
    ensures y != 0.0 ==> r == Fin(x / y)
    ensures y == 0.0 ==> (r == PosInf <==> x > 0.0)
    ensures y == 0.0 ==> (r == NegInf <==> x < 0.0)
    ensures y == 0.0 ==> (r == NaN <==> x == 0.0)
  {
    if y != 0.0 then Fin(x / y)
    else if x > 0.0 then PosInf
    else if x < 0.0 then NegInf
    else NaN
  }

  /** `a / b` for arbitrary numbers. */
  function DivNum(a: Num, b: Num): (r: Num)
    ensures a.Fin? && b.Fin? ==> r == Div(a.v, b.v)
    ensures a == NaN || b == NaN ==> r == NaN
    ensures a.Fin? && !b.Fin? && b != NaN ==> r == Fin(0.0)
    ensures !a.Fin? && !b.Fin? ==> r == NaN
  {
    match (a, b)
    case (NaN, _) => NaN
    case (_, NaN) => NaN
    case (Fin(x), Fin(y)) => Div(x, y)
    case (Fin(_), _) => Fin(0.0)
    case (PosInf, Fin(y)) => if y < 0.0 then NegInf else PosInf
    case (NegInf, Fin(y)) => if y < 0.0 then PosInf else NegInf
    case (_, _) => NaN
  }

  /** Multiplication by a positive constant (the source's `* 100`). */
  function Scale(a: Num, k: real): (r: Num)
    requires k > 0.0
    ensures a.Fin? <==> r.Fin?
    ensures a.Fin? ==> r.v == a.v * k
    ensures !a.Fin? ==> r == a
  {
    match a
    case Fin(x) => Fin(x * k)
    case _ => a
  }

  /** `Math.round`: the nearest integer, halves rounded up; infinities and NaN
      are returned unchanged. */
  function Round(a: Num): (r: Num)
    ensures a.Fin? <==> r.Fin?
    ensures a.Fin? ==> r.v.Floor as real == r.v && r.v - 0.5 <= a.v < r.v + 0.5
    ensures !a.Fin? ==> r == a
  {
    match a
    case Fin(x) => Fin((x + 0.5).Floor as real)
    case _ => a
  }

  /** `a > c` for a finite constant `c`; every comparison with NaN is false. */
  predicate Gt(a: Num, c: real) {
    match a
    case Fin(x) => x > c
    case PosInf => true
    case _ => false
  }

  /** `a < c` for a finite constant `c`. */
  predicate Lt(a: Num, c: real) {
    match a
    case Fin(x) => x < c
    case NegInf => true
    case _ => false
  }

  /** `a >= c` for a finite constant `c`. */
  predicate Ge(a: Num, c: real) {
    Gt(a, c) || a == Fin(c)
  }
}

=== FILE: json.dfy ===
/** Parsed JSON request bodies and the object-schema checks the source runs
    on them with zod: a property of the wrong type, a missing required
    property, or a failed refinement is an issue reported under the
    property's name; properties the schema does not mention are dropped. */
module Json {
  import opened Wrappers

  datatype Json =
    | JNull
    | JBool(b: bool)
    | JNum(n: real)
    | JStr(s: string)
    | JArr(items: seq<Json>)
    | JObj(fields: map<string, Json>)

  /** The value of property `key`, or `None` for `undefined`. */
  function Get(j: Json, key: string): Option<Json> {
    if j.JObj? && key in j.fields then Some(j.fields[key]) else None
  }

  /** The object with only the named properties kept (zod's default stripping). */
  function Keep(j: Json, keys: set<string>): Json {
    if j.JObj? then JObj(map k | k in j.fields && k in keys :: j.fields[k]) else j
  }

  /** JavaScript truthiness of a property read: `undefined`, `null`, `false`,
      `0` and `""` are falsy, everything else is truthy. */
  predicate Truthy(v: Option<Json>) {
    match v
    case None => false
    case Some(JNull) => false
    case Some(JBool(b)) => b
    case Some(JNum(n)) => n != 0.0
    case Some(JStr(s)) => s != ""
    case Some(_) => true
  }

  /** `z.number().int()`. */
  predicate IsInteger(n: real) {
    n.Floor as real == n
  }

  /** A required `z.string()` property. */
  function StringField(j: Json, key: string): (r: Option<string>)
    ensures r.Some? <==> Get(j, key).Some? && Get(j, key).value.JStr?
    ensures r.Some? ==> Get(j, key) == Some(JStr(r.value))
  {
    match Get(j, key)
    case Some(JStr(s)) => Some(s)
    case _ => None
  }

  /** A required `z.number()` property. */
  function NumberField(j: Json, key: string): (r: Option<real>)
    ensures r.Some? <==> Get(j, key).Some? && Get(j, key).value.JNum?
    ensures r.Some? ==> Get(j, key) == Some(JNum(r.value))
  {
    match Get(j, key)
    case Some(JNum(n)) => Some(n)
    case _ => None
  }

  /** A `z.string().optional()` property: `Some(None)` when absent,
      `Some(Some(s))` for a string, `None` (an issue) for anything else,
      `null` included. */
  function OptionalStringField(j: Json, key: string): (r: Option<Option<string>>)
    ensures r == Some(None) <==> Get(j, key).None?
    ensures r.None? <==> Get(j, key).Some? && !Get(j, key).value.JStr?
  {
    match Get(j, key)
    case None => Some(None)
    case Some(JStr(s)) => Some(Some(s))
    case Some(_) => None
  }

  /** A `z.number().optional()` property: `Some(None)` when absent,
      `Some(Some(n))` for a number, `None` (an issue) for anything else,
      `null` included. */
  function OptionalNumberField(j: Json, key: string): (r: Option<Option<real>>)
    ensures r == Some(None) <==> Get(j, key).None?
    ensures r.None? <==> Get(j, key).Some? && !Get(j, key).value.JNum?
    ensures r.Some? && r.value.Some? ==> Get(j, key) == Some(JNum(r.value.value))
  {
    match Get(j, key)
    case None => Some(None)
    case Some(JNum(n)) => Some(Some(n))
    case Some(_) => None
  }

  /** Encoding of an optional string property value. */
  function OptionalString(o: Option<string>): Option<Json> {
    match o
    case None => None
    case Some(s) => Some(JStr(s))
  }

  /** A `z.array(z.string())` value. */
  function StringArray(j: Json): (r: Option<seq<string>>)
    ensures r.Some? ==> j == JArr(Strings(r.value))
    ensures r.None? ==> forall ss :: j != JArr(Strings(ss))
  {
    if j.JArr? && forall i :: 0 <= i < |j.items| ==> j.items[i].JStr? then
      var ss := seq(|j.items|, i requires 0 <= i < |j.items| => j.items[i].s);
      assert Strings(ss) == j.items;
      Some(ss)
    else None
  }

  /** Reading back an encoded string array gives the strings. */
  lemma StringArrayOfStrings(ss: seq<string>)
    ensures StringArray(JArr(Strings(ss))) == Some(ss)
  {
    var items := Strings(ss);
    var back := seq(|items|, i requires 0 <= i < |items| => items[i].s);
    assert back == ss;
  }

  /** The JSON array of the given strings. */
  function Strings(ss: seq<string>): (r: seq<Json>)
    ensures |r| == |ss| && forall i :: 0 <= i < |ss| ==> r[i] == JStr(ss[i])
  {
    seq(|ss|, i requires 0 <= i < |ss| => JStr(ss[i]))
  }

  /** One property check of a schema: its name and whether it passed. */
  datatype Check = Check(path: string, ok: bool)

  /** The paths of the failed checks, in schema order: zod's issue list, one
      entry per failed rule. */
  function Issues(checks: seq<Check>): (r: seq<string>)
    ensures |r| == 0 <==> forall i :: 0 <= i < |checks| ==> checks[i].ok
    ensures forall p :: p in r ==> exists i :: 0 <= i < |checks| && checks[i].path == p && !checks[i].ok
  {
    if |checks| == 0 then []
    else if checks[0].ok then Issues(checks[1..])
    else [checks[0].path] + Issues(checks[1..])
  }

  /** The issues of concatenated check lists are the concatenated issues. */
  lemma {:induction false} IssuesAppend(a: seq<Check>, b: seq<Check>)
    ensures Issues(a + b) == Issues(a) + Issues(b)
    decreases |a|
  {
    if |a| == 0 {
      assert a + b == b;
    } else {
      assert (a + b)[1..] == a[1..] + b;
      IssuesAppend(a[1..], b);
    }
  }
}

=== FILE: kpi_schema.dfy ===
/** The KPI shapes of the monitoring module: an indicator, a tracking
    record, and the configuration form. */
module KpiSchema {
  import opened Wrappers
  import opened Json

  datatype KpiIndicator = KpiIndicator(name: string, target: real, unit: string, dataSource: Option<string>)

  const IndicatorKeys: set<string> := {"name", "target", "unit", "dataSource"}

  /** `kpiIndicatorSchema.parse`: a name, a numeric target, a unit and an
      optional data-source string. */
  function ParseIndicator(j: Json): (r: Option<KpiIndicator>)
    ensures r.Some? <==>
      StringField(j, "name").Some? && NumberField(j, "target").Some? &&
      StringField(j, "unit").Some? && OptionalStringField(j, "dataSource").Some?
    ensures r.Some? ==> Keep(j, IndicatorKeys) == EncodeIndicator(r.value)
  {
    match (StringField(j, "name"), NumberField(j, "target"), StringField(j, "unit"), OptionalStringField(j, "dataSource"))
    case (Some(name), Some(target), Some(unit), Some(source)) =>
      var i := KpiIndicator(name, target, unit, source);
      var kept := Keep(j, IndicatorKeys).fields;
      assert source.None? ==> kept.Keys == {"name", "target", "unit"};
      assert source.Some? ==> kept.Keys == IndicatorKeys;
      assert kept == EncodeIndicator(i).fields;
      Some(i)
    case _ => None
  }

  function EncodeIndicator(i: KpiIndicator): Json {
    var m := map["name" := JStr(i.name), "target" := JNum(i.target), "unit" := JStr(i.unit)];
    match i.dataSource
    case None => JObj(m)
    case Some(s) => JObj(m["dataSource" := JStr(s)])
  }

  /** Every indicator, with or without a data source, is read back from its JSON. */
  lemma IndicatorRoundTrip(i: KpiIndicator)
    ensures ParseIndicator(EncodeIndicator(i)) == Some(i)
  {
  }

  /** `z.array(kpiIndicatorSchema)`: every element must be an indicator. */
  function ParseIndicators(items: seq<Json>): (r: Option<seq<KpiIndicator>>)
    ensures r.Some? <==> forall k :: 0 <= k < |items| ==> ParseIndicator(items[k]).Some?
    ensures r.Some? ==> |r.value| == |items| && forall k :: 0 <= k < |items| ==> Some(r.value[k]) == ParseIndicator(items[k])
  {
    if |items| == 0 then Some([])
    else
      match (ParseIndicator(items[0]), ParseIndicators(items[1..]))
      case (Some(first), Some(rest)) =>
        assert forall k :: 1 <= k < |items| ==> items[k] == items[1..][k - 1];
        Some([first] + rest)
      case (None, _) => None
      case (_, None) =>
        assert forall k :: 1 <= k < |items| ==> items[k] == items[1..][k - 1];
        None
  }

  datatype KpiTracking = KpiTracking(id: string, programKpiId: string, indicatorName: string,
                                     actualValue: real, achievement: real, period: string)

  const TrackingKeys: set<string> := {"id", "programKpiId", "indicatorName", "actualValue", "achievement", "period"}

  /** `kpiTrackingSchema.parse`: the achievement is any number, with no bound;
      `calculatedAt` must be absent (a JSON body cannot hold a `Date`). */
  function ParseTracking(j: Json): (r: Option<KpiTracking>)
    ensures r.Some? <==>
      StringField(j, "id").Some? && StringField(j, "programKpiId").Some? &&
      StringField(j, "indicatorName").Some? && NumberField(j, "actualValue").Some? &&
      NumberField(j, "achievement").Some? && StringField(j, "period").Some? &&
      Get(j, "calculatedAt").None?
    ensures r.Some? ==> Keep(j, TrackingKeys) == EncodeTracking(r.value)
  {
    match (StringField(j, "id"), StringField(j, "programKpiId"), StringField(j, "indicatorName"),
           NumberField(j, "actualValue"), NumberField(j, "achievement"), StringField(j, "period"))
    case (Some(id), Some(pk), Some(name), Some(actual), Some(achievement), Some(period)) =>
      if Get(j, "calculatedAt").None? then
        var t := KpiTracking(id, pk, name, actual, achievement, period);
        var kept := Keep(j, TrackingKeys).fields;
        assert kept.Keys == TrackingKeys;
        assert kept == EncodeTracking(t).fields;
        Some(t)
      else None
    case _ => None
  }

  function EncodeTracking(t: KpiTracking): Json {
    JObj(map["id" := JStr(t.id), "programKpiId" := JStr(t.programKpiId), "indicatorName" := JStr(t.indicatorName),
             "actualValue" := JNum(t.actualValue), "achievement" := JNum(t.achievement), "period" := JStr(t.period)])
  }

  /** Any tracking record is accepted back, whatever its achievement, below
      zero and above a hundred included. */
  lemma TrackingRoundTrip(t: KpiTracking)
    ensures ParseTracking(EncodeTracking(t)) == Some(t)
  {
  }

  datatype KpiConfigForm = KpiConfigForm(programId: string, programName: string, year: real,
                                         goal: string, indicators: seq<KpiIndicator>)

  /** `year: z.number().min(2020).max(2100)`: not required to be an integer. */
  predicate ValidYear(y: real) { 2020.0 <= y <= 2100.0 }

  predicate ValidForm(f: KpiConfigForm) {
    |f.programId| >= 1 && |f.programName| >= 1 && ValidYear(f.year) && |f.goal| >= 10 && |f.indicators| >= 1
  }

  function StringMin(j: Json, key: string, n: nat): bool {
    match StringField(j, key)
    case Some(s) => |s| >= n
    case None => false
  }

  function YearOk(j: Json): bool {
    match NumberField(j, "year")
    case Some(y) => ValidYear(y)
    case None => false
  }

  function IndicatorsOk(j: Json): bool {
    match Get(j, "indicators")
    case Some(JArr(items)) => |items| >= 1 && ParseIndicators(items).Some?
    case _ => false
  }

  /** One check per form field; a failing indicator is reported under `indicators`. */
  function FormChecks(j: Json): seq<Check> {
    [ Check("programId", StringMin(j, "programId", 1)), Check("programName", StringMin(j, "programName", 1)),
      Check("year", YearOk(j)), Check("goal", StringMin(j, "goal", 10)), Check("indicators", IndicatorsOk(j)) ]
  }

  /** `kpiConfigFormSchema.parse`. */
  function ParseConfigForm(j: Json): (r: Result<KpiConfigForm, seq<string>>)
    ensures r.Failure? ==> |r.error| > 0
    ensures r.Success? <==> j.JObj? && forall k :: 0 <= k < 5 ==> FormChecks(j)[k].ok
    ensures r.Success? ==> ValidForm(r.value)
    ensures r.Success? ==>
      StringField(j, "programId") == Some(r.value.programId) &&
      StringField(j, "programName") == Some(r.value.programName) &&
      NumberField(j, "year") == Some(r.value.year) && StringField(j, "goal") == Some(r.value.goal) &&
      Get(j, "indicators").Some? && Get(j, "indicators").value.JArr? &&
      ParseIndicators(Get(j, "indicators").value.items) == Some(r.value.indicators)
  {
    if !j.JObj? then Failure([""])
    else
      var checks := FormChecks(j);
      var issues := Issues(checks);
      if |issues| > 0 then Failure(issues)
      else
        assert checks[0].ok && checks[1].ok && checks[2].ok && checks[3].ok && checks[4].ok;
        var items := j.fields["indicators"].items;
        Success(KpiConfigForm(StringField(j, "programId").value, StringField(j, "programName").value,
                              NumberField(j, "year").value, StringField(j, "goal").value,
                              ParseIndicators(items).value))
  }

  function EncodeForm(f: KpiConfigForm): Json {
    JObj(map["programId" := JStr(f.programId), "programName" := JStr(f.programName), "year" := JNum(f.year),
             "goal" := JStr(f.goal), "indicators" := JArr(seq(|f.indicators|, k requires 0 <= k < |f.indicators| => EncodeIndicator(f.indicators[k])))])
  }

  /** Every form meeting the rules is accepted back from its JSON. */
  lemma ConfigFormRoundTrip(f: KpiConfigForm)
    requires ValidForm(f)
    ensures ParseConfigForm(EncodeForm(f)) == Success(f)
  {
    var j := EncodeForm(f);
    var items := j.fields["indicators"].items;
    forall k | 0 <= k < |items|
      ensures ParseIndicator(items[k]) == Some(f.indicators[k])
    {
      IndicatorRoundTrip(f.indicators[k]);
    }
    var parsed := ParseIndicators(items).value;
    assert parsed == f.indicators;
    assert forall k :: 0 <= k < 5 ==> FormChecks(j)[k].ok;
  }

  /** The year bounds are inclusive and fractions pass; a nine-character goal
      and an empty indicator list are rejected. */
  lemma ConfigFormBoundaries(f: KpiConfigForm)
    requires ValidForm(f)
    ensures ParseConfigForm(EncodeForm(f.(year := 2020.0))).Success?
    ensures ParseConfigForm(EncodeForm(f.(year := 2100.0))).Success?
    ensures ParseConfigForm(EncodeForm(f.(year := 2024.5))).Success?
    ensures ParseConfigForm(EncodeForm(f.(year := 2019.0))).Failure?
    ensures ParseConfigForm(EncodeForm(f.(goal := "123456789"))).Failure?
    ensures ParseConfigForm(EncodeForm(f.(indicators := []))).Failure?
  {
    ConfigFormRoundTrip(f.(year := 2020.0));
    ConfigFormRoundTrip(f.(year := 2100.0));
    ConfigFormRoundTrip(f.(year := 2024.5));
  }
}

=== FILE: locale_switcher.dfy ===
/** The language switch in the header: the current path with its locale
    segment replaced, and the locale the switch offers. */
module LocaleSwitcher {
  import opened Strings

  /** `segments[1] = locale`: a one-element list grows to two. */
  function SetSecond(segs: seq<string>, locale: string): (r: seq<string>)
    requires |segs| >= 1
    ensures |r| == if |segs| >= 2 then |segs| else 2
    ensures r[0] == segs[0] && r[1] == locale
    ensures forall k :: 2 <= k < |segs| ==> r[k] == segs[k]
  {
    if |segs| >= 2 then segs[1 := locale] else segs + [locale]
  }

  /** `redirectedPathName`: an empty path goes to `/`; otherwise the path is
      split on `/`, its segment 1 set to the locale, and joined again. */
  function Redirect(path: string, locale: string): (r: string)
    ensures path == "" ==> r == "/"
  {
    if path == "" then "/"
    else Join(SetSecond(Split(path, '/'), locale), '/')
  }

  /** For a non-empty path and a locale without `/`, segment 1 of the result
      is the locale, every other segment is the path's own, and there are as
      many segments as before (at least two). */
  lemma RedirectSegments(path: string, locale: string)
    requires path != "" && '/' !in locale
    ensures var before := Split(path, '/');
            var after := Split(Redirect(path, locale), '/');
            |after| == (if |before| >= 2 then |before| else 2) &&
            after[0] == before[0] && after[1] == locale &&
            forall k :: 2 <= k < |before| ==> after[k] == before[k]
  {
    var segs := SetSecond(Split(path, '/'), locale);
    SplitJoin(segs, '/');
  }

  /** A path with a `/` in it has at least two segments. */
  lemma SlashMeansTwoSegments(path: string)
    requires '/' in path
    ensures |Split(path, '/')| >= 2
  {
  }

  /** The number of segments of a path with a `/` is kept. */
  lemma RedirectKeepsSegmentCount(path: string, locale: string)
    requires '/' in path && '/' !in locale
    ensures |Split(Redirect(path, locale), '/')| == |Split(path, '/')|
  {
    SlashMeansTwoSegments(path);
    RedirectSegments(path, locale);
  }

  /** Switching to the same locale twice is switching once, for every
      non-empty path. */
  lemma RedirectIdempotent(path: string, locale: string)
    requires path != "" && '/' !in locale
    ensures Redirect(Redirect(path, locale), locale) == Redirect(path, locale)
  {
    var segs := SetSecond(Split(path, '/'), locale);
    var once := Join(segs, '/');
    JoinHasSeparator(segs, '/');
    SplitJoin(segs, '/');
    assert SetSecond(segs, locale) == segs;
  }

  /** The empty path is the exception: it becomes `/`, and `/` then becomes `/en`. */
  lemma EmptyPathNotIdempotent()
    ensures Redirect("", "en") == "/"
    ensures Redirect(Redirect("", "en"), "en") == "/en"
  {
    assert Split("/", '/') == ["", ""] by {
      SplitJoin(["", ""], '/');
    }
  }

  /** `nextLocale`: English when the current locale segment is `id`,
      Indonesian in every other case. */
  function NextLocale(path: string): (r: string)
    ensures r == "en" <==> |Split(path, '/')| >= 2 && Split(path, '/')[1] == "id"
    ensures r == "id" <==> !(|Split(path, '/')| >= 2 && Split(path, '/')[1] == "id")
  {
    var segs := Split(path, '/');
    if |segs| >= 2 && segs[1] == "id" then "en" else "id"
  }

  /** Following the switch flips the offered locale. */
  lemma SwitchAlternates(path: string)
    requires path != ""
    ensures NextLocale(Redirect(path, NextLocale(path))) != NextLocale(path)
  {
    RedirectSegments(path, NextLocale(path));
  }
}

=== FILE: merge_flow.dfy ===
/** The record-merge flow: zero candidate records is an error, one record
    passes through with full confidence, and two or more are merged by a
    language model whose answer is taken as it is once it fits the output
    schema. The model is an oracle: its reply is a parameter. */
module MergeFlow {
  import opened Wrappers
  import opened SearchRoute

  datatype DatasetEntry = DatasetEntry(datasetName: string, record: PersonRecord)

  datatype MergeInput = MergeInput(nik: string, datasets: seq<DatasetEntry>)

  datatype MergeOutput = MergeOutput(mergedRecord: PersonRecord, mergeExplanation: string, confidenceScore: real)

  /** `RecordSchema`: `dob`, `phone` and `lastVisit` are absent or strings;
      `null` is rejected (the four required properties are strings by type). */
  predicate SchemaRecord(r: PersonRecord) {
    r.dob != Null && r.phone != Null && r.lastVisit != Null
  }

  /** `MergeDataInputSchema`, checked before the flow body runs. */
  predicate ValidInput(input: MergeInput) {
    forall i :: 0 <= i < |input.datasets| ==> SchemaRecord(input.datasets[i].record)
  }

  /** `MergeDataOutputSchema`: a schema record and a confidence in [0, 1]. */
  predicate ValidOutput(o: MergeOutput) {
    SchemaRecord(o.mergedRecord) && 0.0 <= o.confidenceScore <= 1.0
  }

  const NoDatasetsMessage := "No datasets provided to merge."
  const SingleRecordExplanation := "Only one record was found, so no merge was necessary."
  /** The messages of the schema-validation errors raised around the flow;
      their wording belongs to the flow framework and is a placeholder here. */
  const InvalidInputMessage := "Schema validation failed for the flow input."
  const InvalidOutputMessage := "Schema validation failed for the flow output."

  /** `mergeDataFlow`. `reply` is what the model call yields: a structured
      answer or the message of the error it raised. */
  function Run(input: MergeInput, reply: Result<MergeOutput, string>): (r: Result<MergeOutput, string>)
    ensures r.Success? ==> ValidOutput(r.value)
    ensures !ValidInput(input) ==> r == Failure(InvalidInputMessage)
    ensures ValidInput(input) && |input.datasets| == 0 ==> r == Failure(NoDatasetsMessage)
    ensures ValidInput(input) && |input.datasets| == 1 ==>
              r == Success(MergeOutput(input.datasets[0].record, SingleRecordExplanation, 1.0))
    ensures ValidInput(input) && |input.datasets| >= 2 ==>
              (r.Success? <==> reply.Success? && ValidOutput(reply.value)) && (r.Success? ==> r == reply)
  {
    if !ValidInput(input) then Failure(InvalidInputMessage)
    else if |input.datasets| == 0 then Failure(NoDatasetsMessage)
    else if |input.datasets| == 1 then
      Success(MergeOutput(input.datasets[0].record, SingleRecordExplanation, 1.0))
    else match reply
      case Failure(msg) => Failure(msg)
      case Success(o) => if ValidOutput(o) then Success(o) else Failure(InvalidOutputMessage)
  }

  /** With fewer than two records the model is never consulted: its reply
      does not affect the outcome. */
  lemma FewRecordsIgnoreModel(input: MergeInput, reply1: Result<MergeOutput, string>, reply2: Result<MergeOutput, string>)
    requires |input.datasets| <= 1
    ensures Run(input, reply1) == Run(input, reply2)
  {
  }

  /** With two or more valid records, any schema-conforming answer of the
      model is the result: no field is chosen, and no NIK compared, by the
      flow itself. */
  lemma ManyRecordsTakeModelAnswer(input: MergeInput, o: MergeOutput)
    requires ValidInput(input) && |input.datasets| >= 2 && ValidOutput(o)
    ensures Run(input, Success(o)) == Success(o)
  {
  }

  /** The flow does not compare record NIKs with the input NIK: a single record
      with another NIK passes through. */
  lemma NikNotChecked()
    ensures var rec := PersonRecord("r", "2", "n", "a", Absent, Absent, Absent);
            Run(MergeInput("1", [DatasetEntry("d", rec)]), Failure("unused"))
              == Success(MergeOutput(rec, SingleRecordExplanation, 1.0))
  {
  }

  /** The public-health section's record for NIK 3171234567890001 has a null
      phone, which the record schema rejects. */
  lemma KesmasRecordRejected()
    ensures !SchemaRecord(Rec004)
    ensures SchemaRecord(Rec001) && SchemaRecord(Rec002) && SchemaRecord(Rec003)
  {
  }
}

=== FILE: monitoring.dfy ===
/** The program-monitoring page: how a KPI's achievement is computed and
    which status chip and priority badge it gets. */
module Monitoring {
  import opened JsNumber

  datatype KpiEntry = KpiEntry(name: string, target: real, actual: real, unit: string)

  /** `Math.round(actual / target * 100)`. */
  function Achievement(k: KpiEntry): (r: Num)
    ensures k.target != 0.0 ==>
      r.Fin? && r.v.Floor as real == r.v &&
      r.v - 0.5 <= k.actual / k.target * 100.0 < r.v + 0.5
    ensures k.target == 0.0 ==>
      (r == PosInf <==> k.actual > 0.0) && (r == NaN <==> k.actual == 0.0) && (r == NegInf <==> k.actual < 0.0)
  {
    Round(Scale(Div(k.actual, k.target), 100.0))
  }

  datatype Status = Tercapai | HampirTercapai | BelumTercapai

  /** `getStatusChip`: 100 and above is reached, from 90 below 100 is nearly
      reached, everything else (NaN included) is not reached. */
  function StatusOf(achievement: Num): (r: Status)
    ensures r == Tercapai <==> Ge(achievement, 100.0)
    ensures r == HampirTercapai <==> Ge(achievement, 90.0) && !Ge(achievement, 100.0)
    ensures r == BelumTercapai <==> !Ge(achievement, 90.0)
  {
    if Ge(achievement, 100.0) then Tercapai
    else if Ge(achievement, 90.0) then HampirTercapai
    else BelumTercapai
  }

  /** An integer is at least `n` exactly when it is above `n - 1`. */
  lemma IntegralAbove(r: real, n: int)
    requires r.Floor as real == r
    ensures r > (n - 1) as real <==> r >= n as real
  {
    var k := r.Floor;
    assert r == k as real;
    if r > (n - 1) as real {
      assert k > n - 1;
      assert k >= n;
    }
  }

  /** In terms of the exact ratio, with rounding half up: reached from 99.5%
      on, nearly reached from 89.5% up to 99.5%, not reached below 89.5%. */
  lemma StatusBands(k: KpiEntry)
    requires k.target != 0.0
    ensures var x := k.actual / k.target * 100.0;
            (StatusOf(Achievement(k)) == Tercapai <==> x >= 99.5) &&
            (StatusOf(Achievement(k)) == HampirTercapai <==> 89.5 <= x < 99.5) &&
            (StatusOf(Achievement(k)) == BelumTercapai <==> x < 89.5)
  {
    var a := Achievement(k);
    IntegralAbove(a.v, 100);
    IntegralAbove(a.v, 90);
  }

  /** A zero target: any positive actual value counts as reached (the ratio
      is `Infinity`), a zero actual value as not reached (`NaN`). */
  lemma ZeroTarget(k: KpiEntry)
    requires k.target == 0.0
    ensures k.actual > 0.0 ==> StatusOf(Achievement(k)) == Tercapai
    ensures k.actual <= 0.0 ==> StatusOf(Achievement(k)) == BelumTercapai
  {
  }

  /** The KPIs of the stunting programme. */
  const StuntingKpis: seq<KpiEntry> := [
    KpiEntry("Cakupan Ibu Hamil Mendapat Tablet Tambah Darah (TTD)", 90.0, 85.0, "%"),
    KpiEntry("Cakupan Kunjungan Balita ke Posyandu", 85.0, 78.0, "%"),
    KpiEntry("Keluarga dengan Akses Sanitasi Layak", 80.0, 82.0, "%")
  ]

  /** The stunting programme shows 94% and 92% (nearly reached) and a third
      KPI that is reached. The third ratio is exactly 102.5, a rounding tie:
      the exact model rounds it up to 103, while the page, dividing in
      doubles, gets 102.49999999999999 and shows 102; the status is the same. */
  lemma StuntingStatuses()
    ensures Achievement(StuntingKpis[0]) == Fin(94.0) && StatusOf(Fin(94.0)) == HampirTercapai
    ensures Achievement(StuntingKpis[1]) == Fin(92.0) && StatusOf(Fin(92.0)) == HampirTercapai
    ensures StuntingKpis[2].actual / StuntingKpis[2].target * 100.0 == 102.5
    ensures StatusOf(Fin(102.0)) == Tercapai && StatusOf(Fin(103.0)) == Tercapai
    ensures StatusOf(Achievement(StuntingKpis[2])) == Tercapai
  {
    assert (85.0 / 90.0 * 100.0 + 0.5).Floor == 94;
    assert (78.0 / 85.0 * 100.0 + 0.5).Floor == 92;
    assert (82.0 / 80.0 * 100.0 + 0.5).Floor == 103;
  }

  datatype Priority = High | Medium | Low

  /** `getPriorityBadge`. */
  function PriorityLabel(p: Priority): (r: string)
    ensures r in {"Tinggi", "Menengah", "Rendah"}
    ensures r == "Tinggi" <==> p == High
    ensures r == "Menengah" <==> p == Medium
    ensures r == "Rendah" <==> p == Low
  {
    match p
    case High => "Tinggi"
    case Medium => "Menengah"
    case Low => "Rendah"
  }

  /** Different priorities get different labels. */
  lemma PriorityLabelsDistinct(p: Priority, q: Priority)
    ensures PriorityLabel(p) == PriorityLabel(q) <==> p == q
  {
  }
}

=== FILE: profile.dfy ===
/** The profile form's schema: required name, e-mail, a short optional bio,
    optional passwords that must agree, and two notification switches. The
    e-mail check is the validation library's own and is a parameter. */
module Profile {
  import opened Wrappers
  import opened Json

  /** The form's raw values; `None` is a field left undefined. */
  datatype ProfileInput = ProfileInput(
    fullName: string, email: string, bio: Option<string>,
    currentPassword: Option<string>, newPassword: Option<string>, confirmPassword: Option<string>,
    emailNotifications: Option<bool>, smsNotifications: Option<bool>)

  /** The parsed values: the switches always have a value. */
  datatype ProfileValues = ProfileValues(
    fullName: string, email: string, bio: Option<string>,
    currentPassword: Option<string>, newPassword: Option<string>, confirmPassword: Option<string>,
    emailNotifications: bool, smsNotifications: bool)

  predicate BioOk(bio: Option<string>) {
    match bio
    case None => true
    case Some(b) => |b| <= 160
  }

  /** The field checks, then the refinement, reported under `confirmPassword`. */
  function ProfileChecks(v: ProfileInput, isEmail: string -> bool): seq<Check> {
    [ Check("fullName", |v.fullName| >= 1), Check("email", isEmail(v.email)), Check("bio", BioOk(v.bio)),
      Check("confirmPassword", v.newPassword == v.confirmPassword) ]
  }

  function OrFalse(b: Option<bool>): bool {
    match b
    case None => false
    case Some(x) => x
  }

  /** `profileFormSchema.parse`. */
  function Validate(v: ProfileInput, isEmail: string -> bool): (r: Result<ProfileValues, seq<string>>)
    ensures r.Success? <==>
      |v.fullName| >= 1 && isEmail(v.email) && BioOk(v.bio) && v.newPassword == v.confirmPassword
    ensures r.Failure? ==> ("confirmPassword" in r.error <==> v.newPassword != v.confirmPassword)
    ensures r.Failure? ==> ("fullName" in r.error <==> v.fullName == "")
    ensures r.Success? ==>
      r.value.emailNotifications == (v.emailNotifications == Some(true)) &&
      r.value.smsNotifications == (v.smsNotifications == Some(true))
  {
    var checks := ProfileChecks(v, isEmail);
    var issues := Issues(checks);
    if |issues| > 0 then
      assert checks[3].path == "confirmPassword" && checks[0].path == "fullName";
      assert !checks[3].ok ==> "confirmPassword" in issues by {
        if !checks[3].ok {
          IssueListed(checks, 3);
        }
      }
      assert !checks[0].ok ==> "fullName" in issues by {
        if !checks[0].ok {
          IssueListed(checks, 0);
        }
      }
      Failure(issues)
    else
      assert checks[0].ok && checks[1].ok && checks[2].ok && checks[3].ok;
      Success(ProfileValues(v.fullName, v.email, v.bio, v.currentPassword, v.newPassword, v.confirmPassword,
                            OrFalse(v.emailNotifications), OrFalse(v.smsNotifications)))
  }

  /** A failing check is always reported. */
  lemma {:induction false} IssueListed(checks: seq<Check>, k: nat)
    requires k < |checks| && !checks[k].ok
    ensures checks[k].path in Issues(checks)
  {
    if k > 0 {
      IssueListed(checks[1..], k - 1);
    }
  }

  /** The current password is never looked at. */
  lemma CurrentPasswordIgnored(v: ProfileInput, other: Option<string>, isEmail: string -> bool)
    ensures Validate(v.(currentPassword := other), isEmail).Success? == Validate(v, isEmail).Success?
  {
  }

  /** Leaving both new-password fields empty passes the refinement; filling
      in only one of them does not. */
  lemma PasswordsOptionalTogether(v: ProfileInput, isEmail: string -> bool, p: string)
    requires |v.fullName| >= 1 && isEmail(v.email) && BioOk(v.bio)
    ensures Validate(v.(newPassword := None, confirmPassword := None), isEmail).Success?
    ensures Validate(v.(newPassword := Some(p), confirmPassword := None), isEmail) == Failure(["confirmPassword"])
  {
    var w := v.(newPassword := Some(p), confirmPassword := None);
    var c := ProfileChecks(w, isEmail);
    assert Issues(c[3..]) == ["confirmPassword"];
    assert Issues(c[2..]) == ["confirmPassword"];
    assert Issues(c[1..]) == ["confirmPassword"];
  }

  /** The form's initial values. */
  const DefaultInput: ProfileInput := ProfileInput(
    "Budi Santoso", "budi.santoso@example.com",
    Some("Health data analyst with a passion for public health informatics."),
    None, None, None, Some(true), Some(false))

  /** The initial values pass, given that the address is accepted as an
      e-mail address; both switches keep their initial positions. */
  lemma DefaultsPass(isEmail: string -> bool)
    requires isEmail("budi.santoso@example.com")
    ensures Validate(DefaultInput, isEmail).Success?
    ensures Validate(DefaultInput, isEmail).value.emailNotifications
    ensures !Validate(DefaultInput, isEmail).value.smsNotifications
  {
  }
}

=== FILE: reporting.dfy ===
/** The reporting page: which records a report is generated from, and the
    state `handleGenerateReport` leaves behind. The report generator is a
    language-model flow; its answer is a parameter. */
module Reporting {
  import opened Wrappers
  import opened Seqs
  import opened HealthSchema
  import Dashboard
  import DataMerger

  datatype Report = Report(summary: string, detailedData: seq<HealthData>)

  /** What the page sends to the generator (the records are sent as JSON text). */
  datatype ReportRequest = ReportRequest(reportType: string, data: seq<HealthData>, dateRange: string, region: string)

  datatype State = State(error: Option<string>, report: Option<Report>)

  /** The region choice that stands for every region. */
  const AllRegions: string := "all"

  function MatchesRegion(region: string): HealthData -> bool {
    (d: HealthData) => region == AllRegions || d.region == region
  }

  /** The records a report covers: all of them for `"all"`, otherwise those
      of the chosen region, in their original order. The date range plays
      no part. */
  function Selected(all: seq<HealthData>, region: string): (r: seq<HealthData>)
    ensures region == AllRegions ==> r == all
    ensures region != AllRegions ==> forall d :: d in r <==> d in all && d.region == region
    ensures region != AllRegions ==>
      (forall d :: multiset(r)[d] == if d.region == region then multiset(all)[d] else 0) &&
      SelectsInOrder(r, all, FilterIndices(MatchesRegion(region), all))
  {
    var p := MatchesRegion(region);
    FilterCounts(p, all);
    if region == AllRegions then
      FilterKeepsAll(p, all);
      Filter(p, all)
    else Filter(p, all)
  }

  /** For a specific region the report covers the records the dashboard shows. */
  lemma SelectedAgreesWithDashboard(all: seq<HealthData>, region: string)
    requires region != AllRegions
    ensures Selected(all, region) == Dashboard.FilterByRegion(all, region)
  {
    FilterCongruent(MatchesRegion(region), Dashboard.InRegion(region), all);
  }

  /** `handleGenerateReport`: the previous error and report are cleared; no
      selected records give the "no data" report without asking the
      generator; otherwise the generator's report, or its error message
      (the dictionary's error text when the message is empty). The second
      component is the request sent to the generator, if any. */
  function GenerateReport(all: seq<HealthData>, template: string, dateRange: string, region: string,
                          noData: string, errorText: string, reply: Result<Report, string>): (r: (State, Option<ReportRequest>))
    ensures |Selected(all, region)| == 0 ==> r == (State(None, Some(Report(noData, []))), None)
    ensures |Selected(all, region)| > 0 ==>
      r.1 == Some(ReportRequest(template, Selected(all, region), dateRange, region)) &&
      (reply.Success? ==> r.0 == State(None, Some(reply.value))) &&
      (reply.Failure? ==>
         r.0.report.None? && r.0.error.Some? &&
         (reply.error != "" ==> r.0.error.value == reply.error) &&
         (reply.error == "" ==> r.0.error.value == errorText))
  {
    var data := Selected(all, region);
    if |data| == 0 then (State(None, Some(Report(noData, []))), None)
    else
      var request := ReportRequest(template, data, dateRange, region);
      match reply
      case Success(report) => (State(None, Some(report)), Some(request))
      case Failure(message) => (State(Some(DataMerger.ErrorText(message, errorText)), None), Some(request))
  }

  /** With no record in the chosen region the generator is never asked,
      whatever the date range or template. */
  lemma EmptyRegionSkipsGenerator(all: seq<HealthData>, template: string, dateRange: string, region: string,
                                  noData: string, errorText: string, reply: Result<Report, string>)
    requires region != AllRegions
    requires forall i :: 0 <= i < |all| ==> all[i].region != region
    ensures GenerateReport(all, template, dateRange, region, noData, errorText, reply).1.None?
    ensures GenerateReport(all, template, dateRange, region, noData, errorText, reply).0.report == Some(Report(noData, []))
  {
    FilterNone(MatchesRegion(region), all);
  }
}

=== FILE: search_page.dfy ===
/** The NIK search page: the two checks before a search, the state a search
    leaves, and the dataset checkboxes. The search response is a parameter:
    the results, or the message of the error `searchNik` raised. */
module SearchPage {
  import opened Wrappers
  import opened Seqs
  import opened SearchRoute
  import opened Selection
  import DataMerger

  datatype State = State(
    nik: string,
    selected: seq<string>,
    results: seq<SearchResult>,
    error: Option<string>,
    attempted: bool)

  /** A toast; a `null` description is `None`. */
  datatype Toast = Toast(destructive: bool, title: string, description: Option<string>)

  /** Nothing typed, nothing selected, nothing searched yet. */
  const Initial: State := State("", [], [], None, false)

  const NikRequired: Toast := Toast(true, "Error", Some("Nomor Induk Kependudukan (NIK) harus diisi."))
  const DatasetRequired: Toast := Toast(true, "Error", Some("Pilih minimal satu dataset untuk dicari."))
  const NotFound: Toast := Toast(false, "Tidak Ditemukan", Some("Tidak ada data yang cocok dengan NIK yang diberikan."))
  const UnexpectedError: string := "Terjadi kesalahan tak terduga."
  const SearchFailedTitle: string := "Pencarian Gagal"

  /** The outcome of `handleSearch`: the new state, the toast shown (if
      any), and the request sent (if any). */
  datatype Outcome = Outcome(state: State, toast: Option<Toast>, request: Option<(string, seq<string>)>)

  /** `handleSearch` as written. The failure toast reads `error` from the
      render the handler was created in, so it shows the error of the
      PREVIOUS search, not the message just received. */
  function HandleSearch(s: State, found: Result<seq<SearchResult>, string>): (r: Outcome)
    ensures s.nik == "" ==> r == Outcome(s, Some(NikRequired), None)
    ensures s.nik != "" && |s.selected| == 0 ==> r == Outcome(s, Some(DatasetRequired), None)
    ensures s.nik != "" && |s.selected| > 0 ==>
      r.request == Some((s.nik, s.selected)) && r.state.attempted &&
      r.state.nik == s.nik && r.state.selected == s.selected
    ensures s.nik != "" && |s.selected| > 0 && found.Success? ==>
      r.state.results == found.value && r.state.error.None? &&
      (r.toast == Some(NotFound) <==> |found.value| == 0) && (|found.value| > 0 ==> r.toast.None?)
    ensures s.nik != "" && |s.selected| > 0 && found.Failure? ==>
      r.state.results == [] && r.state.error == Some(DataMerger.ErrorText(found.error, UnexpectedError)) &&
      r.toast == Some(Toast(true, SearchFailedTitle, s.error))
  {
    if s.nik == "" then Outcome(s, Some(NikRequired), None)
    else if |s.selected| == 0 then Outcome(s, Some(DatasetRequired), None)
    else
      var cleared := s.(error := None, results := [], attempted := true);
      var request := Some((s.nik, s.selected));
      match found
      case Success(rs) =>
        Outcome(cleared.(results := rs), if |rs| == 0 then Some(NotFound) else None, request)
      case Failure(msg) =>
        Outcome(cleared.(error := Some(DataMerger.ErrorText(msg, UnexpectedError))),
                Some(Toast(true, SearchFailedTitle, s.error)), request)
  }

  /** The first failing search shows a toast without a description, and a
      second failure shows the first one's message. */
  lemma FailureToastIsStale()
    ensures var s := Initial.(nik := "3171234567890001", selected := ["seksi-p2p"]);
            var first := HandleSearch(s, Failure("Failed to search NIK"));
            first.toast == Some(Toast(true, SearchFailedTitle, None)) &&
            first.state.error == Some("Failed to search NIK") &&
            HandleSearch(first.state, Failure("Network down")).toast ==
              Some(Toast(true, SearchFailedTitle, Some("Failed to search NIK")))
  {
  }

  /** `handleSearch` as evidently intended: the failure toast carries the
      message the state now shows. */
  function HandleSearchIntended(s: State, found: Result<seq<SearchResult>, string>): (r: Outcome)
    ensures found.Failure? && s.nik != "" && |s.selected| > 0 ==>
      r.toast.Some? && r.toast.value.description == r.state.error && r.state.error.Some?
    ensures r.state == HandleSearch(s, found).state && r.request == HandleSearch(s, found).request
    ensures found.Success? || s.nik == "" || |s.selected| == 0 ==> r == HandleSearch(s, found)
  {
    var o := HandleSearch(s, found);
    if found.Failure? && s.nik != "" && |s.selected| > 0 then
      o.(toast := Some(Toast(true, SearchFailedTitle, o.state.error)))
    else o
  }

  /** No search runs before a dataset has been ticked: the page starts with
      none selected. */
  lemma InitialSearchRejected(nik: string, found: Result<seq<SearchResult>, string>)
    requires nik != ""
    ensures HandleSearch(Initial.(nik := nik), found) == Outcome(Initial.(nik := nik), Some(DatasetRequired), None)
  {
  }

  /** A search that was sent drops the previous outcome: what it leaves does
      not depend on the earlier results or error. */
  lemma SearchForgetsPrevious(s: State, t: State, found: Result<seq<SearchResult>, string>)
    requires s.nik == t.nik && s.selected == t.selected && s.nik != "" && |s.selected| > 0
    ensures HandleSearch(s, found).state == HandleSearch(t, found).state
    ensures HandleSearchIntended(s, found) == HandleSearchIntended(t, found)
  {
  }

  /** `handleDatasetSelection`: a checkbox click toggles the dataset. */
  function HandleDatasetSelection(s: State, id: string): (r: State)
    ensures forall x :: x in r.selected <==> (if x == id then id !in s.selected else x in s.selected)
    ensures NoDuplicates(s.selected) ==> NoDuplicates(r.selected)
    ensures r.nik == s.nik && r.results == s.results && r.error == s.error && r.attempted == s.attempted
  {
    s.(selected := Toggle(s.selected, id))
  }

  /** Ticking one dataset on the initial page selects just that dataset, and
      the search then sends exactly its id with the NIK. */
  lemma SearchAfterSelecting(nik: string)
    requires nik != ""
    ensures var s := HandleDatasetSelection(Initial.(nik := nik), "seksi-kesmas");
            s.selected == ["seksi-kesmas"] &&
            HandleSearch(s, Success(Results(MockDatasets, nik, s.selected))).request == Some((nik, ["seksi-kesmas"]))
  {
  }
}

=== FILE: search_route.dfy ===
/** The NIK search endpoint: the first record with the queried national
    identity number (NIK) from each selected dataset, in the fixed order of
    the mock datasets. */
module SearchRoute {
  import opened Wrappers
  import opened Seqs
  import opened Json

  /** An optional person-record property as the search data holds it:
      missing, explicitly `null`, or a string. */
  datatype Field = Absent | Null | Text(value: string)

  datatype PersonRecord = PersonRecord(
    id: string, nik: string, name: string, address: string,
    dob: Field, phone: Field, lastVisit: Field)

  datatype Dataset = Dataset(id: string, name: string, data: seq<PersonRecord>)

  /** One hit: the dataset's display name and the matching record. */
  datatype SearchResult = SearchResult(datasetName: string, record: PersonRecord)

  const P2pName := "Seksi Pencegahan dan Penanggulangan Penyakit"
  const SdkName := "Seksi Sumber Daya Kesehatan"
  const KesmasName := "Seksi Kesehatan Masyarakat"

  const Rec001 := PersonRecord("rec-001", "3171234567890001", "Budi Santoso", "Jl. Merdeka No. 1, Jakarta",
                               Text("1985-08-17"), Text("081234567890"), Text("2024-05-20"))
  const Rec002 := PersonRecord("rec-002", "3171234567890002", "Citra Lestari", "Jl. Pahlawan No. 10, Jakarta",
                               Text("1990-03-22"), Text("081234567891"), Text("2024-06-11"))
  const Rec003 := PersonRecord("rec-003", "3273123456789001", "Agus Wijaya", "Jl. Asia Afrika No. 5, Bandung",
                               Text("1979-11-30"), Text("081234567892"), Text("2024-04-15"))
  const Rec004 := PersonRecord("rec-004", "3171234567890001", "Budi S.", "Jl. Merdeka No. 1, Jakarta Pusat",
                               Text("1985-08-17"), Null, Text("2023-12-01"))

  /** The three sections' data, in the order the endpoint visits them. */
  const MockDatasets: seq<Dataset> := [
    Dataset("seksi-p2p", P2pName, [Rec001, Rec002]),
    Dataset("seksi-sdk", SdkName, [Rec003]),
    Dataset("seksi-kesmas", KesmasName, [Rec004])
  ]

  function HasNik(nik: string): PersonRecord -> bool {
    (r: PersonRecord) => r.nik == nik
  }

  /** A dataset yields a result: it is selected and holds a record with the NIK. */
  predicate Contributes(d: Dataset, nik: string, ids: seq<string>) {
    d.id in ids && FindIndex(HasNik(nik), d.data).Some?
  }

  function ContributesTo(nik: string, ids: seq<string>): Dataset -> bool {
    (d: Dataset) => Contributes(d, nik, ids)
  }

  /** The result a contributing dataset yields: its name and its first record with the NIK. */
  function ResultFor(d: Dataset, nik: string): (r: SearchResult)
    requires FindIndex(HasNik(nik), d.data).Some?
    ensures r.datasetName == d.name && r.record.nik == nik && r.record in d.data
    ensures exists i :: 0 <= i < |d.data| && r.record == d.data[i] &&
                        forall k :: 0 <= k < i ==> d.data[k].nik != nik
  {
    var i := FindIndex(HasNik(nik), d.data).value;
    assert forall k :: 0 <= k < i ==> !HasNik(nik)(d.data[k]);
    SearchResult(d.name, d.data[i])
  }

  /** Reference definition of the search: keep the contributing datasets, then
      map each to its result. */
  function Results(ds: seq<Dataset>, nik: string, ids: seq<string>): (r: seq<SearchResult>)
    ensures |r| <= |ds|
    ensures forall i :: 0 <= i < |r| ==> r[i].record.nik == nik
    ensures |r| == 0 <==> forall j :: 0 <= j < |ds| ==> !Contributes(ds[j], nik, ids)
  {
    var m := Filter(ContributesTo(nik, ids), ds);
    assert forall x :: x in m <==> x in ds && Contributes(x, nik, ids);
    assert |m| > 0 ==> m[0] in ds && Contributes(m[0], nik, ids);
    assert forall i :: 0 <= i < |m| ==> m[i] in m && Contributes(m[i], nik, ids);
    seq(|m|, i requires 0 <= i < |m| => ResultFor(m[i], nik))
  }

  /** The search distributes over concatenated dataset lists, so results keep
      the order of the datasets and not the order of the selected ids. */
  lemma ResultsAppend(a: seq<Dataset>, b: seq<Dataset>, nik: string, ids: seq<string>)
    ensures Results(a + b, nik, ids) == Results(a, nik, ids) + Results(b, nik, ids)
  {
    FilterAppend(ContributesTo(nik, ids), a, b);
  }

  /** A single dataset yields at most one result: the first record with the NIK,
      labelled with the dataset's display name. */
  lemma ResultsOfOneDataset(d: Dataset, nik: string, ids: seq<string>)
    ensures |Results([d], nik, ids)| <= 1
    ensures Contributes(d, nik, ids) ==> Results([d], nik, ids) == [ResultFor(d, nik)]
    ensures !Contributes(d, nik, ids) ==> Results([d], nik, ids) == []
  {
    assert [d][1..] == [];
  }

  /** Only which dataset ids are selected matters: the order of `ids`, repeated
      ids and ids that name no dataset change nothing. */
  lemma ResultsDependOnSelectedIdsOnly(ds: seq<Dataset>, nik: string, ids1: seq<string>, ids2: seq<string>)
    requires forall j :: 0 <= j < |ds| ==> (ds[j].id in ids1 <==> ds[j].id in ids2)
    ensures Results(ds, nik, ids1) == Results(ds, nik, ids2)
  {
    FilterCongruent(ContributesTo(nik, ids1), ContributesTo(nik, ids2), ds);
  }

  /** The `forEach` loop of the endpoint, pushing each selected dataset's first
      match; it computes the reference definition. */
  method Search(datasets: seq<Dataset>, nik: string, ids: seq<string>) returns (found: seq<SearchResult>)
    ensures found == Results(datasets, nik, ids)
  {
    found := [];
    for i := 0 to |datasets|
      invariant found == Results(datasets[..i], nik, ids)
    {
      var d := datasets[i];
      if d.id in ids {
        var k := FindIndex(HasNik(nik), d.data);
        if k.Some? {
          found := found + [SearchResult(d.name, d.data[k.value])];
        }
      }
      assert datasets[..i + 1] == datasets[..i] + [d];
      ResultsAppend(datasets[..i], [d], nik, ids);
      ResultsOfOneDataset(d, nik, ids);
    }
    assert datasets[..|datasets|] == datasets;
  }

  /** The request body `{nik, datasetIds}` as a client sends it. */
  function EncodeBody(nik: string, ids: seq<string>): Json {
    JObj(map["nik" := JStr(nik), "datasetIds" := JArr(Strings(ids))])
  }

  const BodyKeys: set<string> := {"nik", "datasetIds"}

  /** `searchBodySchema.parse`: what it accepts, once unknown properties are
      dropped, is the encoding of the `{nik, datasetIds}` it returns. */
  function ParseBody(j: Json): (r: Option<(string, seq<string>)>)
    ensures r.Some? ==> Keep(j, BodyKeys) == EncodeBody(r.value.0, r.value.1)
  {
    match (StringField(j, "nik"), Get(j, "datasetIds"))
    case (Some(nik), Some(arr)) =>
      (match StringArray(arr)
       case Some(ids) =>
         assert Keep(j, BodyKeys).fields == EncodeBody(nik, ids).fields;
         Some((nik, ids))
       case None => None)
    case _ => None
  }

  datatype Response = Ok(results: seq<SearchResult>) | BadRequest | InternalError

  /** `POST /api/search`. `None` stands for a body that is not JSON at all,
      which the handler answers with status 500; a body failing the schema
      gets 400. The simulated one-second delay is not modelled. */
  method Post(body: Option<Json>) returns (resp: Response)
    ensures body.None? ==> resp == InternalError
    ensures body.Some? && ParseBody(body.value).None? ==> resp == BadRequest
    ensures body.Some? && ParseBody(body.value).Some? ==>
              resp == Ok(Results(MockDatasets, ParseBody(body.value).value.0, ParseBody(body.value).value.1))
  {
    if body.None? {
      return InternalError;
    }
    var parsed := ParseBody(body.value);
    if parsed.None? {
      return BadRequest;
    }
    var found := Search(MockDatasets, parsed.value.0, parsed.value.1);
    return Ok(found);
  }

  /** Every body that encodes `{nik, datasetIds}`, whatever other properties it
      carries, is accepted with exactly those values; so the bodies rejected
      with status 400 are exactly those that encode no such pair. */
  lemma ParseBodyAcceptsEncodings(j: Json, nik: string, ids: seq<string>)
    requires Keep(j, BodyKeys) == EncodeBody(nik, ids)
    ensures ParseBody(j) == Some((nik, ids))
  {
    assert j.JObj?;
    assert "nik" in Keep(j, BodyKeys).fields && "datasetIds" in Keep(j, BodyKeys).fields;
    assert Get(j, "nik") == Some(JStr(nik));
    assert Get(j, "datasetIds") == Some(JArr(Strings(ids)));
    StringArrayOfStrings(ids);
  }

  const AllIds: seq<string> := ["seksi-p2p", "seksi-sdk", "seksi-kesmas"]

  /** NIK 3171234567890001 is in the first and third sections; the result
      follows dataset order whatever the order of the selected ids. */
  lemma BudiFoundTwice()
    ensures Results(MockDatasets, "3171234567890001", AllIds)
         == [SearchResult(P2pName, Rec001), SearchResult(KesmasName, Rec004)]
    ensures Results(MockDatasets, "3171234567890001", ["seksi-kesmas", "seksi-sdk", "seksi-p2p", "seksi-kesmas", "seksi-x"])
         == [SearchResult(P2pName, Rec001), SearchResult(KesmasName, Rec004)]
  {
    var nik := "3171234567890001";
    assert MockDatasets == [MockDatasets[0]] + [MockDatasets[1]] + [MockDatasets[2]];
    ResultsAppend([MockDatasets[0]] + [MockDatasets[1]], [MockDatasets[2]], nik, AllIds);
    ResultsAppend([MockDatasets[0]], [MockDatasets[1]], nik, AllIds);
    ResultsOfOneDataset(MockDatasets[0], nik, AllIds);
    ResultsOfOneDataset(MockDatasets[1], nik, AllIds);
    ResultsOfOneDataset(MockDatasets[2], nik, AllIds);
    assert FindIndex(HasNik(nik), MockDatasets[0].data) == Some(0);
    assert FindIndex(HasNik(nik), MockDatasets[1].data) == None;
    assert FindIndex(HasNik(nik), MockDatasets[2].data) == Some(0);
    var ids2 := ["seksi-kesmas", "seksi-sdk", "seksi-p2p", "seksi-kesmas", "seksi-x"];
    assert MockDatasets[0].id == AllIds[0] == ids2[2];
    assert MockDatasets[1].id == AllIds[1] == ids2[1];
    assert MockDatasets[2].id == AllIds[2] == ids2[0];
    ResultsDependOnSelectedIdsOnly(MockDatasets, nik, AllIds, ids2);
  }

  /** A NIK that no dataset holds gives no results. */
  lemma UnknownNikNotFound()
    ensures Results(MockDatasets, "999", ["seksi-p2p", "seksi-sdk"]) == []
  {
    assert forall j :: 0 <= j < |MockDatasets| ==> FindIndex(HasNik("999"), MockDatasets[j].data).None?;
  }
}

=== FILE: selection.dfy ===
/** The dataset checkbox toggle shared by the merger card and the search page:
    `prev.includes(id) ? prev.filter(x => x !== id) : [...prev, id]`. */
module Selection {
  import opened Seqs

  function Toggle(selected: seq<string>, id: string): (r: seq<string>)
    ensures forall x :: x in r <==> (if x == id then id !in selected else x in selected)
    ensures NoDuplicates(selected) ==> NoDuplicates(r)
  {
    if id in selected then
      var p := (x: string) => x != id;
      FilterNoDuplicates(p, selected);
      Filter(p, selected)
    else selected + [id]
  }

  /** Toggling an absent id twice restores the selection exactly; toggling a
      present id twice restores the same set of ids. */
  lemma {:induction false} ToggleTwice(selected: seq<string>, id: string)
    ensures id !in selected ==> Toggle(Toggle(selected, id), id) == selected
    ensures forall x :: x in Toggle(Toggle(selected, id), id) <==> x in selected
  {
    if id !in selected {
      var p := (x: string) => x != id;
      FilterAppend(p, selected, [id]);
      FilterKeepsAll(p, selected);
      assert Filter(p, [id]) == [];
    }
  }
}

=== FILE: seqs.dfy ===
/** Sequence operations the source performs through `Array.prototype` methods:
    `filter`, `findIndex`, `reduce` and de-duplication through `new Set`. */
module Seqs {
  import opened Wrappers

  /** No element occurs twice. */
  predicate NoDuplicates<T(==)>(s: seq<T>) {
    forall i, j :: 0 <= i < j < |s| ==> s[i] != s[j]
  }

  /** `s.filter(p)`: the elements of `s` satisfying `p`, in their original order. */
  function Filter<T(!new)>(p: T -> bool, s: seq<T>): (r: seq<T>)
    ensures |r| <= |s|
    ensures forall x :: x in r <==> x in s && p(x)
  {
    if |s| == 0 then []
    else if p(s[0]) then [s[0]] + Filter(p, s[1..])
    else Filter(p, s[1..])
  }

  /** A filter keeps something exactly when some element satisfies the predicate. */
  lemma FilterNonEmpty<T(!new)>(p: T -> bool, s: seq<T>)
    ensures |Filter(p, s)| > 0 <==> exists i :: 0 <= i < |s| && p(s[i])
  {
    var r := Filter(p, s);
    if |r| > 0 {
      assert r[0] in r;
      var i :| 0 <= i < |s| && s[i] == r[0];
    }
    if exists i :: 0 <= i < |s| && p(s[i]) {
      var i :| 0 <= i < |s| && p(s[i]);
      assert s[i] in r;
    }
  }

  /** Each element kept by a filter is kept as often as it occurs, and the
      others not at all. */
  lemma {:induction false} FilterCounts<T(!new)>(p: T -> bool, s: seq<T>)
    ensures forall x :: multiset(Filter(p, s))[x] == if p(x) then multiset(s)[x] else 0
    decreases |s|
  {
    if |s| > 0 {
      assert s == [s[0]] + s[1..];
      FilterCounts(p, s[1..]);
    }
  }

  /** `r` lists the elements of `s` at the positions `idx`, which increase. */
  ghost predicate SelectsInOrder<T>(r: seq<T>, s: seq<T>, idx: seq<nat>) {
    |idx| == |r| &&
    (forall k :: 0 <= k < |idx| ==> idx[k] < |s| && r[k] == s[idx[k]]) &&
    (forall k, l :: 0 <= k < l < |idx| ==> idx[k] < idx[l])
  }

  /** Every position moved one place on. */
  function Shift(idx: seq<nat>): (r: seq<nat>)
    ensures |r| == |idx| && forall k :: 0 <= k < |idx| ==> r[k] == idx[k] + 1
  {
    seq(|idx|, k requires 0 <= k < |idx| => idx[k] + 1)
  }

  /** The positions `Filter` keeps: exactly those whose element satisfies
      `p`, in increasing order, so the kept elements keep their order. */
  function FilterIndices<T(!new)>(p: T -> bool, s: seq<T>): (idx: seq<nat>)
    ensures SelectsInOrder(Filter(p, s), s, idx)
    ensures forall k :: 0 <= k < |idx| ==> idx[k] < |s| && p(s[idx[k]])
    ensures forall i :: 0 <= i < |s| && p(s[i]) ==> i in idx
    decreases |s|
  {
    if |s| == 0 then []
    else
      var rest := FilterIndices(p, s[1..]);
      var idx := if p(s[0]) then [0] + Shift(rest) else Shift(rest);
      FilterIndicesOrder(p, s, rest, idx);
      FilterIndicesSatisfy(p, s, rest, idx);
      FilterIndicesComplete(p, s, rest, idx);
      idx
  }

  /** The step of `FilterIndices` keeps the selection in order. */
  lemma FilterIndicesOrder<T(!new)>(p: T -> bool, s: seq<T>, rest: seq<nat>, idx: seq<nat>)
    requires |s| > 0
    requires SelectsInOrder(Filter(p, s[1..]), s[1..], rest)
    requires idx == if p(s[0]) then [0] + Shift(rest) else Shift(rest)
    ensures SelectsInOrder(Filter(p, s), s, idx)
  {
    var ft := Filter(p, s[1..]);
    TailSelects(ft, s, rest);
    if p(s[0]) {
      ShiftedSelects(s[0], ft, s, Shift(rest));
    }
  }

  /** The step of `FilterIndices` selects only elements satisfying `p`. */
  lemma FilterIndicesSatisfy<T(!new)>(p: T -> bool, s: seq<T>, rest: seq<nat>, idx: seq<nat>)
    requires |s| > 0
    requires forall k :: 0 <= k < |rest| ==> rest[k] < |s[1..]| && p(s[1..][rest[k]])
    requires idx == if p(s[0]) then [0] + Shift(rest) else Shift(rest)
    ensures forall k :: 0 <= k < |idx| ==> idx[k] < |s| && p(s[idx[k]])
  {
    var shifted := Shift(rest);
    assert forall k :: 0 <= k < |rest| ==> shifted[k] < |s| && s[shifted[k]] == s[1..][rest[k]];
    if p(s[0]) {
      assert forall k :: 1 <= k < |idx| ==> idx[k] == shifted[k - 1];
    }
  }

  /** A selection in order from the tail of `s` is one from `s`, its
      positions moved one place on. */
  lemma TailSelects<T>(r: seq<T>, s: seq<T>, rest: seq<nat>)
    requires |s| > 0
    requires SelectsInOrder(r, s[1..], rest)
    ensures SelectsInOrder(r, s, Shift(rest))
    ensures forall k :: 0 <= k < |rest| ==> Shift(rest)[k] > 0
  {
    var shifted := Shift(rest);
    assert forall k :: 0 <= k < |rest| ==> s[shifted[k]] == s[1..][rest[k]];
  }

  /** The step of `FilterIndices` misses no position whose element satisfies `p`. */
  lemma FilterIndicesComplete<T(!new)>(p: T -> bool, s: seq<T>, rest: seq<nat>, idx: seq<nat>)
    requires |s| > 0
    requires forall i :: 0 <= i < |s[1..]| && p(s[1..][i]) ==> i in rest
    requires idx == if p(s[0]) then [0] + Shift(rest) else Shift(rest)
    ensures forall i :: 0 <= i < |s| && p(s[i]) ==> i in idx
  {
    var t := s[1..];
    var shifted := Shift(rest);
    forall i | 0 <= i < |s| && p(s[i])
      ensures i in idx
    {
      if i == 0 {
        assert idx[0] == 0;
      } else {
        assert s[i] == t[i - 1];
        assert i - 1 in rest;
        var k :| 0 <= k < |rest| && rest[k] == i - 1;
        assert shifted[k] == i;
        assert i in shifted;
      }
    }
  }

  /** Putting a head element at position 0 in front of an in-order selection
      from positions past 0 keeps it in order. */
  lemma ShiftedSelects<T>(x: T, r: seq<T>, s: seq<T>, idx: seq<nat>)
    requires |s| > 0 && s[0] == x
    requires SelectsInOrder(r, s, idx)
    requires forall k :: 0 <= k < |idx| ==> idx[k] > 0
    ensures SelectsInOrder([x] + r, s, [0] + idx)
  {
    var r2, idx2 := [x] + r, [0] + idx;
    assert forall k :: 1 <= k < |idx2| ==> idx2[k] == idx[k - 1] && r2[k] == r[k - 1];
  }

  /** Filtering commutes with concatenation; together with the one-element case
      this pins down the order of the kept elements. */
  lemma {:induction false} FilterAppend<T(!new)>(p: T -> bool, a: seq<T>, b: seq<T>)
    ensures Filter(p, a + b) == Filter(p, a) + Filter(p, b)
    decreases |a|
  {
    if |a| == 0 {
      assert a + b == b;
    } else {
      assert (a + b)[0] == a[0];
      assert (a + b)[1..] == a[1..] + b;
      FilterAppend(p, a[1..], b);
    }
  }

  /** Nothing is kept when no element satisfies the predicate. */
  lemma {:induction false} FilterNone<T(!new)>(p: T -> bool, s: seq<T>)
    requires forall i :: 0 <= i < |s| ==> !p(s[i])
    ensures Filter(p, s) == []
  {
    if |s| > 0 {
      FilterNone(p, s[1..]);
    }
  }

  /** Two predicates that agree on every element of `s` keep the same elements. */
  lemma {:induction false} FilterCongruent<T(!new)>(p: T -> bool, q: T -> bool, s: seq<T>)
    requires forall x :: x in s ==> (p(x) <==> q(x))
    ensures Filter(p, s) == Filter(q, s)
    decreases |s|
  {
    if |s| > 0 {
      assert forall x :: x in s[1..] ==> x in s;
      FilterCongruent(p, q, s[1..]);
    }
  }

  /** A filter that keeps everything is the identity. */
  lemma {:induction false} FilterKeepsAll<T(!new)>(p: T -> bool, s: seq<T>)
    requires forall x :: x in s ==> p(x)
    ensures Filter(p, s) == s
    decreases |s|
  {
    if |s| > 0 {
      assert forall x :: x in s[1..] ==> x in s;
      FilterKeepsAll(p, s[1..]);
    }
  }

  /** A filter that drops nothing keeps the sequence unchanged, and every
      element satisfied the predicate. */
  lemma {:induction false} FilterSameLength<T(!new)>(p: T -> bool, s: seq<T>)
    requires |Filter(p, s)| == |s|
    ensures Filter(p, s) == s
    ensures forall x :: x in s ==> p(x)
    decreases |s|
  {
    if |s| > 0 {
      if p(s[0]) {
        FilterSameLength(p, s[1..]);
      }
    }
  }

  /** Filtering a duplicate-free sequence keeps it duplicate-free. */
  lemma {:induction false} FilterNoDuplicates<T(!new)>(p: T -> bool, s: seq<T>)
    ensures NoDuplicates(s) ==> NoDuplicates(Filter(p, s))
    decreases |s|
  {
    if |s| > 0 {
      FilterNoDuplicates(p, s[1..]);
    }
  }

  /** `s.findIndex(p)`: the first position whose element satisfies `p`, or
      `None` where the source gets -1 (and `find` gets `undefined`). */
  function FindIndex<T>(p: T -> bool, s: seq<T>): (r: Option<nat>)
    ensures r.Some? ==> r.value < |s| && p(s[r.value])
    ensures r.Some? ==> forall k :: 0 <= k < r.value ==> !p(s[k])
    ensures r.None? ==> forall k :: 0 <= k < |s| ==> !p(s[k])
  {
    if |s| == 0 then None
    else if p(s[0]) then Some(0)
    else match FindIndex(p, s[1..])
      case None => None
      case Some(i) => Some(i + 1)
  }

  /** The position of the first occurrence of `x` in `s`. */
  function FirstIndex<T(==)>(s: seq<T>, x: T): (i: nat)
    requires x in s
    ensures i < |s| && s[i] == x && x !in s[..i]
  {
    if s[0] == x then 0
    else
      assert x in s[1..];
      var k := FirstIndex(s[1..], x);
      assert s[..k + 1] == [s[0]] + s[1..][..k];
      k + 1
  }

  /** Any position holding `x` with no earlier `x` is the first index. */
  lemma FirstIndexUnique<T>(s: seq<T>, x: T, i: nat)
    requires i < |s| && s[i] == x && x !in s[..i]
    ensures FirstIndex(s, x) == i
  {
  }

  /** The first occurrence of an element of a prefix is found inside the prefix. */
  lemma FirstIndexPrefix<T>(s: seq<T>, n: nat, x: T)
    requires n <= |s| && x in s[..n]
    ensures FirstIndex(s, x) == FirstIndex(s[..n], x)
  {
    var k := FirstIndex(s[..n], x);
    assert s[..n][..k] == s[..k];
    FirstIndexUnique(s, x, k);
  }

  /** `[...new Set(s)]`: each distinct element once, in order of first appearance.
      A `Set` is built by inserting the elements one after another, so an
      element is added exactly when it is not yet present. */
  function Dedup<T(==,!new)>(s: seq<T>): (r: seq<T>)
    ensures NoDuplicates(r)
    ensures forall x :: x in r <==> x in s
  {
    if |s| == 0 then []
    else
      var init := s[..|s| - 1];
      var last := s[|s| - 1];
      assert forall x :: x in init ==> x in s;
      if last in init then Dedup(init) else Dedup(init) + [last]
  }

  /** The de-duplicated elements appear in the order of their first occurrence. */
  lemma {:induction false} DedupFirstOccurrenceOrder<T(!new)>(s: seq<T>)
    ensures forall i, j :: 0 <= i < j < |Dedup(s)| ==>
              FirstIndex(s, Dedup(s)[i]) < FirstIndex(s, Dedup(s)[j])
    decreases |s|
  {
    if |s| > 0 {
      var init := s[..|s| - 1];
      var last := s[|s| - 1];
      DedupFirstOccurrenceOrder(init);
      var d := Dedup(init);
      forall i, j | 0 <= i < j < |Dedup(s)|
        ensures FirstIndex(s, Dedup(s)[i]) < FirstIndex(s, Dedup(s)[j])
      {
        assert Dedup(s)[i] == d[i];
        assert d[i] in init;
        FirstIndexPrefix(s, |s| - 1, d[i]);
        if j < |d| {
          assert Dedup(s)[j] == d[j];
          assert d[j] in init;
          FirstIndexPrefix(s, |s| - 1, d[j]);
        } else {
          assert Dedup(s)[j] == last && last !in init;
          assert s[..|s| - 1] == init;
          FirstIndexUnique(s, last, |s| - 1);
        }
      }
    }
  }

  /** `s.reduce((acc, x) => acc + f(x), 0)` over integer-valued fields. */
  function Sum<T>(f: T -> int, s: seq<T>): (r: int)
    ensures (forall i :: 0 <= i < |s| ==> f(s[i]) > 0) ==> r >= |s|
  {
    if |s| == 0 then 0 else f(s[0]) + Sum(f, s[1..])
  }

  /** Sums split over concatenation. */
  lemma {:induction false} SumAppend<T>(f: T -> int, a: seq<T>, b: seq<T>)
    ensures Sum(f, a + b) == Sum(f, a) + Sum(f, b)
    decreases |a|
  {
    if |a| == 0 {
      assert a + b == b;
    } else {
      assert (a + b)[1..] == a[1..] + b;
      SumAppend(f, a[1..], b);
    }
  }
}

=== FILE: statistics.dfy ===
/** The 2x2 contingency table behind the risk ratio and the odds ratio. Rows
    are JSON values; a property read on anything but an object is `undefined`. */
module Statistics {
  import opened Wrappers
  import opened Seqs
  import opened Json
  import opened JsNumber

  /** Whether `row[key]` is truthy. */
  predicate Has(row: Json, key: string) {
    Truthy(Get(row, key))
  }

  function Cell(exposure: string, outcome: string, exposed: bool, withOutcome: bool): Json -> bool {
    (row: Json) => Has(row, exposure) == exposed && Has(row, outcome) == withOutcome
  }

  /** The four cell counts: exposed with and without the outcome, unexposed
      with and without it. */
  datatype Table = Table(a: nat, b: nat, c: nat, d: nat)

  /** The table of the dataset: each cell counts the rows in it, and a cell
      is non-empty exactly when some row falls in it. */
  function Count(dataset: seq<Json>, exposure: string, outcome: string): (t: Table)
    ensures t.a + t.b + t.c + t.d == |dataset|
    ensures t.a > 0 <==> exists i :: 0 <= i < |dataset| && Has(dataset[i], exposure) && Has(dataset[i], outcome)
    ensures t.b > 0 <==> exists i :: 0 <= i < |dataset| && Has(dataset[i], exposure) && !Has(dataset[i], outcome)
    ensures t.c > 0 <==> exists i :: 0 <= i < |dataset| && !Has(dataset[i], exposure) && Has(dataset[i], outcome)
    ensures t.d > 0 <==> exists i :: 0 <= i < |dataset| && !Has(dataset[i], exposure) && !Has(dataset[i], outcome)
  {
    CountPartition(dataset, exposure, outcome);
    FilterNonEmpty(Cell(exposure, outcome, true, true), dataset);
    FilterNonEmpty(Cell(exposure, outcome, true, false), dataset);
    FilterNonEmpty(Cell(exposure, outcome, false, true), dataset);
    FilterNonEmpty(Cell(exposure, outcome, false, false), dataset);
    Table(|Filter(Cell(exposure, outcome, true, true), dataset)|,
          |Filter(Cell(exposure, outcome, true, false), dataset)|,
          |Filter(Cell(exposure, outcome, false, true), dataset)|,
          |Filter(Cell(exposure, outcome, false, false), dataset)|)
  }

  function Plus(t: Table, u: Table): Table {
    Table(t.a + u.a, t.b + u.b, t.c + u.c, t.d + u.d)
  }

  /** The table of a single row: one in the row's own cell. */
  function RowTable(row: Json, exposure: string, outcome: string): Table {
    var e, o := Has(row, exposure), Has(row, outcome);
    Table(if e && o then 1 else 0, if e && !o then 1 else 0,
          if !e && o then 1 else 0, if !e && !o then 1 else 0)
  }

  /** Counting is additive over concatenated datasets; with `CountRow` this
      determines every table: each row adds one to its own cell. */
  lemma CountAppend(x: seq<Json>, y: seq<Json>, exposure: string, outcome: string)
    ensures Count(x + y, exposure, outcome) == Plus(Count(x, exposure, outcome), Count(y, exposure, outcome))
  {
    FilterAppend(Cell(exposure, outcome, true, true), x, y);
    FilterAppend(Cell(exposure, outcome, true, false), x, y);
    FilterAppend(Cell(exposure, outcome, false, true), x, y);
    FilterAppend(Cell(exposure, outcome, false, false), x, y);
  }

  /** A one-row dataset counts one in the row's cell and nothing elsewhere. */
  lemma CountRow(row: Json, exposure: string, outcome: string)
    ensures Count([row], exposure, outcome) == RowTable(row, exposure, outcome)
  {
    assert [row][1..] == [];
  }

  /** Every row falls in exactly one cell, so the counts add up to the size of the dataset. */
  lemma {:induction false} CountPartition(dataset: seq<Json>, exposure: string, outcome: string)
    ensures |Filter(Cell(exposure, outcome, true, true), dataset)| +
            |Filter(Cell(exposure, outcome, true, false), dataset)| +
            |Filter(Cell(exposure, outcome, false, true), dataset)| +
            |Filter(Cell(exposure, outcome, false, false), dataset)| == |dataset|
  {
    if |dataset| > 0 {
      CountPartition(dataset[1..], exposure, outcome);
    }
  }

  /** `x / y` is zero for a positive `y` exactly when `x` is. */
  lemma QuotientZero(x: nat, y: nat)
    ensures y > 0 ==> (x as real / y as real == 0.0 <==> x == 0)
  {
    if x > 0 && y > 0 {
      assert x as real / y as real > 0.0;
    }
  }

  /** The risk ratio of a table: `None` for `undefined`. */
  function RiskRatioOf(t: Table): (r: Option<Num>)
    ensures r.None? <==> t.c == 0 && t.d > 0
    ensures t.a + t.b > 0 && t.c > 0 ==>
              r == Some(Fin((t.a * (t.c + t.d)) as real / ((t.a + t.b) * t.c) as real))
  {
    var riskExposed := Div(t.a as real, (t.a + t.b) as real);
    var riskUnexposed := Div(t.c as real, (t.c + t.d) as real);
    QuotientZero(t.c, t.c + t.d);
    if riskUnexposed == Fin(0.0) then None
    else
      CrossMultiply(t.a, t.a + t.b, t.c, t.c + t.d);
      Some(DivNum(riskExposed, riskUnexposed))
  }

  /** The odds ratio of a table: `None` for `undefined`. */
  function OddsRatioOf(t: Table): (r: Option<Num>)
    ensures r.None? <==> t.c == 0 && t.d > 0
    ensures t.b > 0 && t.c > 0 && t.d > 0 ==>
              r == Some(Fin((t.a * t.d) as real / (t.b * t.c) as real))
  {
    var oddsExposed := Div(t.a as real, t.b as real);
    var oddsUnexposed := Div(t.c as real, t.d as real);
    QuotientZero(t.c, t.d);
    if oddsUnexposed == Fin(0.0) then None
    else
      CrossMultiply(t.a, t.b, t.c, t.d);
      Some(DivNum(oddsExposed, oddsUnexposed))
  }

  /** `calculateRiskRatio`: the risk ratio of the dataset's table. */
  function RiskRatio(dataset: seq<Json>, exposure: string, outcome: string): Option<Num> {
    RiskRatioOf(Count(dataset, exposure, outcome))
  }

  /** `calculateOddsRatio`: the odds ratio of the dataset's table. */
  function OddsRatio(dataset: seq<Json>, exposure: string, outcome: string): Option<Num> {
    OddsRatioOf(Count(dataset, exposure, outcome))
  }

  /** `(x / y) / (z / w) == (x * w) / (y * z)` for positive `y`, `z`, `w`. */
  lemma CrossMultiply(x: nat, y: nat, z: nat, w: nat)
    ensures y > 0 && z > 0 && w > 0 ==>
      (x as real / y as real) / (z as real / w as real) == (x * w) as real / (y * z) as real
  {
    if y > 0 && z > 0 && w > 0 {
      var yr, zr, wr := y as real, z as real, w as real;
      assert (x * w) as real == x as real * wr;
      assert (y * z) as real == yr * zr;
      assert (x as real / yr) / (z as real / wr) == (x as real * wr) / (yr * zr);
    }
  }

  /** `calculateRiskRatio` is `undefined` exactly when the dataset has an
      unexposed row and no unexposed row has the outcome. */
  lemma RiskRatioUndefined(dataset: seq<Json>, exposure: string, outcome: string)
    ensures RiskRatio(dataset, exposure, outcome).None? <==>
      (exists i :: 0 <= i < |dataset| && !Has(dataset[i], exposure)) &&
      (forall i :: 0 <= i < |dataset| && !Has(dataset[i], exposure) ==> !Has(dataset[i], outcome))
  {
    var t := Count(dataset, exposure, outcome);
    if exists i :: 0 <= i < |dataset| && !Has(dataset[i], exposure) {
      var i :| 0 <= i < |dataset| && !Has(dataset[i], exposure);
      assert Has(dataset[i], outcome) ==> t.c > 0;
      assert !Has(dataset[i], outcome) ==> t.d > 0;
    }
  }

  /** `calculateOddsRatio` is `undefined` for exactly the same datasets. */
  lemma OddsRatioUndefined(dataset: seq<Json>, exposure: string, outcome: string)
    ensures OddsRatio(dataset, exposure, outcome).None? <==>
      (exists i :: 0 <= i < |dataset| && !Has(dataset[i], exposure)) &&
      (forall i :: 0 <= i < |dataset| && !Has(dataset[i], exposure) ==> !Has(dataset[i], outcome))
  {
    RiskRatioUndefined(dataset, exposure, outcome);
  }

  /** The two measures decline exactly the same datasets. */
  lemma SameDatasetsDeclined(dataset: seq<Json>, exposure: string, outcome: string)
    ensures RiskRatio(dataset, exposure, outcome).None? <==> OddsRatio(dataset, exposure, outcome).None?
  {
  }

  /** A dataset with no unexposed rows still gets a value: the unexposed risk
      is `NaN`, which is not `0`, so the result is `NaN`. */
  lemma NoUnexposedRows(dataset: seq<Json>, exposure: string, outcome: string)
    requires forall i :: 0 <= i < |dataset| ==> Has(dataset[i], exposure)
    ensures RiskRatio(dataset, exposure, outcome) == Some(NaN)
    ensures OddsRatio(dataset, exposure, outcome) == Some(NaN)
  {
    FilterNone(Cell(exposure, outcome, false, true), dataset);
    FilterNone(Cell(exposure, outcome, false, false), dataset);
  }
}

=== FILE: strings.dfy ===
/** The `String.prototype` operations the source relies on: `includes`,
    `startsWith`, `replace` with a string pattern, and `split`/`join` on a
    one-character separator. Strings are sequences of characters. */
module Strings {
  import opened Wrappers

  /** `pat` occurs in `s` starting at position `k`. */
  predicate OccursAt(s: string, pat: string, k: nat) {
    k <= |s| && pat <= s[k..]
  }

  /** `s.indexOf(pat)`: the first position at which `pat` occurs, if any. */
  function IndexOf(s: string, pat: string): (r: Option<nat>)
    ensures r.Some? ==> OccursAt(s, pat, r.value)
    ensures r.Some? ==> forall k :: 0 <= k < r.value ==> !OccursAt(s, pat, k)
    ensures r.None? ==> forall k :: 0 <= k <= |s| ==> !OccursAt(s, pat, k)
  {
    if pat <= s then Some(0)
    else if |s| == 0 then None
    else
      var rest := IndexOf(s[1..], pat);
      forall k | 1 <= k <= |s|
        ensures OccursAt(s, pat, k) == OccursAt(s[1..], pat, k - 1)
      {
        assert s[k..] == s[1..][k - 1..];
      }
      match rest
      case None => None
      case Some(i) => Some(i + 1)
  }

  /** `s.includes(pat)`. */
  predicate Contains(s: string, pat: string) {
    IndexOf(s, pat).Some?
  }

  /** What `$` followed by `c` stands for in a replacement: `$$` is one
      dollar sign, `$&` the matched text, `` $` `` the text before the match
      and `$'` the text after it. With a string pattern there are no
      captures, so no other character makes a pattern. */
  function Expansion(c: char, before: string, matched: string, after: string): Option<string> {
    if c == '$' then Some("$")
    else if c == '&' then Some(matched)
    else if c == '`' then Some(before)
    else if c == '\'' then Some(after)
    else None
  }

  /** The text a string replacement inserts for a match: `rep` with its
      patterns expanded and every other character, `$` included, kept. */
  function Substitute(rep: string, before: string, matched: string, after: string): (r: string)
    ensures '$' !in rep ==> r == rep
    decreases |rep|
  {
    if |rep| == 0 then ""
    else if rep[0] == '$' && |rep| >= 2 && Expansion(rep[1], before, matched, after).Some? then
      Expansion(rep[1], before, matched, after).value + Substitute(rep[2..], before, matched, after)
    else
      assert '$' !in rep ==> '$' !in rep[1..];
      [rep[0]] + Substitute(rep[1..], before, matched, after)
  }

  /** `s.replace(pat, rep)` with a string pattern: only the first occurrence is
      replaced, by `rep` with its `$` patterns expanded; a missing pattern
      leaves `s` as it is. A replacement without `$` is inserted verbatim. */
  function ReplaceFirst(s: string, pat: string, rep: string): (r: string)
    ensures !Contains(s, pat) ==> r == s
    ensures Contains(s, pat) ==>
              var i := IndexOf(s, pat).value;
              var ins := Substitute(rep, s[..i], pat, s[i + |pat|..]);
              |r| == |s| - |pat| + |ins| &&
              r[..i] == s[..i] && r[i..i + |ins|] == ins && r[i + |ins|..] == s[i + |pat|..]
    ensures Contains(s, pat) && '$' !in rep ==>
              var i := IndexOf(s, pat).value;
              |r| == |s| - |pat| + |rep| &&
              r[..i] == s[..i] && r[i..i + |rep|] == rep && r[i + |rep|..] == s[i + |pat|..]
  {
    match IndexOf(s, pat)
    case None => s
    case Some(i) => s[..i] + Substitute(rep, s[..i], pat, s[i + |pat|..]) + s[i + |pat|..]
  }

  /** A replacement's `$` patterns are expanded wherever they stand: `$&`
      puts the matched text back, `$$` becomes a single dollar sign, and a `$`
      before any other character stays, there being no capture group. */
  lemma DollarPatterns(pre: string, pat: string, post: string, lit: string, rest: string)
    requires |pat| > 0 && pat[0] !in pre
    requires '$' !in lit && '$' !in rest
    ensures ReplaceFirst(pre + pat + post, pat, lit + "$&" + rest) == pre + lit + pat + rest + post
    ensures ReplaceFirst(pre + pat + post, pat, lit + "$$" + rest) == pre + lit + "$" + rest + post
    ensures |rest| > 0 && rest[0] != '&' && rest[0] != '`' && rest[0] != '\'' ==>
              ReplaceFirst(pre + pat + post, pat, lit + "$" + rest) == pre + lit + "$" + rest + post
  {
    PatternInContext(pre, pat, post, lit, '&', rest);
    PatternInContext(pre, pat, post, lit, '$', rest);
    if |rest| > 0 && rest[0] != '&' && rest[0] != '`' && rest[0] != '\'' {
      assert rest[0] in rest;
      LiteralDollarInContext(pre, pat, post, lit, rest);
    }
  }

  /** One pattern in a replacement, at its place in the text. */
  lemma PatternInContext(pre: string, pat: string, post: string, lit: string, c: char, rest: string)
    requires |pat| > 0 && pat[0] !in pre
    requires '$' !in lit && '$' !in rest && Expansion(c, pre, pat, post).Some?
    ensures ReplaceFirst(pre + pat + post, pat, lit + ['$', c] + rest) ==
            pre + lit + Expansion(c, pre, pat, post).value + rest + post
  {
    var rep := lit + ['$', c] + rest;
    assert ReplaceFirst(pre + pat + post, pat, rep) == pre + Substitute(rep, pre, pat, post) + post by {
      ReplaceFirstAt(pre, pat, post, rep);
    }
    assert Substitute(rep, pre, pat, post) == lit + Expansion(c, pre, pat, post).value + rest by {
      PatternStep(lit, c, rest, pre, pat, post);
    }
  }

  /** A `$` starting no pattern, at its place in the text. */
  lemma LiteralDollarInContext(pre: string, pat: string, post: string, lit: string, rest: string)
    requires |pat| > 0 && pat[0] !in pre
    requires '$' !in lit && '$' !in rest
    requires |rest| > 0 ==> Expansion(rest[0], pre, pat, post).None?
    ensures ReplaceFirst(pre + pat + post, pat, lit + "$" + rest) == pre + lit + "$" + rest + post
  {
    var rep := lit + "$" + rest;
    var sub := Substitute(rep, pre, pat, post);
    assert sub == rep by {
      LiteralDollarStep(lit, rest, pre, pat, post);
    }
    assert ReplaceFirst(pre + pat + post, pat, rep) == pre + sub + post by {
      ReplaceFirstAt(pre, pat, post, rep);
    }
  }

  /** `Substitute` on a replacement starting with a character that begins no pattern. */
  lemma SubstituteLiteralHead(rep: string, before: string, matched: string, after: string)
    requires |rep| > 0 && rep[0] != '$'
    ensures Substitute(rep, before, matched, after) == [rep[0]] + Substitute(rep[1..], before, matched, after)
  {
  }

  /** `Substitute` on a replacement starting with a pattern. */
  lemma SubstitutePatternHead(rep: string, before: string, matched: string, after: string)
    requires |rep| >= 2 && rep[0] == '$' && Expansion(rep[1], before, matched, after).Some?
    ensures Substitute(rep, before, matched, after) ==
            Expansion(rep[1], before, matched, after).value + Substitute(rep[2..], before, matched, after)
  {
  }

  /** Literal text without `$` passes through `Substitute` unchanged. */
  lemma {:induction false} LiteralPrefix(lit: string, tr: string, before: string, matched: string, after: string)
    requires '$' !in lit
    ensures Substitute(lit + tr, before, matched, after) == lit + Substitute(tr, before, matched, after)
    decreases |lit|
  {
    if |lit| == 0 {
      assert lit + tr == tr;
    } else {
      var t := lit + tr;
      var sub := Substitute(tr, before, matched, after);
      assert t[0] == lit[0] && lit[0] != '$' && t[1..] == lit[1..] + tr by {
        assert lit[0] in lit;
      }
      assert Substitute(t, before, matched, after) == [lit[0]] + Substitute(lit[1..] + tr, before, matched, after) by {
        SubstituteLiteralHead(t, before, matched, after);
      }
      assert Substitute(lit[1..] + tr, before, matched, after) == lit[1..] + sub by {
        assert forall x :: x in lit[1..] ==> x in lit;
        LiteralPrefix(lit[1..], tr, before, matched, after);
      }
      assert [lit[0]] + (lit[1..] + sub) == lit + sub by {
        assert lit == [lit[0]] + lit[1..];
      }
    }
  }

  /** The expansion of one pattern, after literal text. */
  lemma PatternStep(lit: string, c: char, rest: string, before: string, matched: string, after: string)
    requires '$' !in lit && Expansion(c, before, matched, after).Some?
    ensures Substitute(lit + ['$', c] + rest, before, matched, after) ==
            lit + Expansion(c, before, matched, after).value + Substitute(rest, before, matched, after)
  {
    var tr := ['$', c] + rest;
    assert lit + ['$', c] + rest == lit + tr;
    assert Substitute(tr, before, matched, after) ==
           Expansion(c, before, matched, after).value + Substitute(rest, before, matched, after) by {
      assert tr[0] == '$' && tr[1] == c && tr[2..] == rest;
      SubstitutePatternHead(tr, before, matched, after);
    }
    LiteralPrefix(lit, tr, before, matched, after);
  }

  /** A `$` that starts no pattern is kept, after literal text. */
  lemma LiteralDollarStep(lit: string, rest: string, before: string, matched: string, after: string)
    requires '$' !in lit && '$' !in rest
    requires |rest| > 0 ==> Expansion(rest[0], before, matched, after).None?
    ensures Substitute(lit + "$" + rest, before, matched, after) == lit + "$" + rest
  {
    var tr := "$" + rest;
    assert lit + "$" + rest == lit + tr;
    assert Substitute(tr, before, matched, after) == tr by {
      assert tr[0] == '$' && tr[1..] == rest;
      assert |tr| >= 2 ==> tr[1] == rest[0];
      assert Substitute(rest, before, matched, after) == rest;
    }
    LiteralPrefix(lit, tr, before, matched, after);
  }

  /** When the first character of `pat` does not occur before it, the
      replacement happens exactly at the written occurrence. */
  lemma ReplaceFirstAt(pre: string, pat: string, post: string, rep: string)
    requires |pat| > 0 && pat[0] !in pre
    ensures ReplaceFirst(pre + pat + post, pat, rep) == pre + Substitute(rep, pre, pat, post) + post
    ensures '$' !in rep ==> ReplaceFirst(pre + pat + post, pat, rep) == pre + rep + post
  {
    var s := pre + pat + post;
    assert OccursAt(s, pat, |pre|) by {
      assert s[|pre|..] == pat + post;
    }
    forall k | 0 <= k < |pre|
      ensures !OccursAt(s, pat, k)
    {
      assert s[k] == pre[k];
    }
    assert IndexOf(s, pat) == Some(|pre|);
    assert s[..|pre|] == pre;
    assert s[|pre| + |pat|..] == post;
  }

  /** `segs.join([sep])`. */
  function Join(segs: seq<string>, sep: char): string {
    if |segs| == 0 then ""
    else if |segs| == 1 then segs[0]
    else segs[0] + [sep] + Join(segs[1..], sep)
  }

  /** `s.split(sep)` for a one-character separator: the pieces between
      separators, including empty ones; the empty string splits into `[""]`. */
  function Split(s: string, sep: char): (r: seq<string>)
    ensures |r| >= 1
    ensures forall i :: 0 <= i < |r| ==> sep !in r[i]
    ensures Join(r, sep) == s
  {
    if |s| == 0 then [""]
    else
      var rest := Split(s[1..], sep);
      if s[0] == sep then [""] + rest
      else
        assert Join(rest, sep) == s[1..];
        var r := [[s[0]] + rest[0]] + rest[1..];
        assert Join(r, sep) == s by {
          if |rest| == 1 {
          } else {
            assert rest == [rest[0]] + rest[1..];
            assert r[1..] == rest[1..];
          }
        }
        r
  }

  /** Splitting a join of separator-free pieces gives the pieces back. */
  lemma {:induction false} SplitJoin(segs: seq<string>, sep: char)
    requires |segs| >= 1
    requires forall i :: 0 <= i < |segs| ==> sep !in segs[i]
    ensures Split(Join(segs, sep), sep) == segs
    decreases |segs|, |segs[0]|
  {
    if |segs| == 1 {
      SplitSeparatorFree(segs[0], sep);
    } else if |segs[0]| == 0 {
      SplitJoin(segs[1..], sep);
      assert Join(segs, sep) == [sep] + Join(segs[1..], sep);
      assert (([sep] + Join(segs[1..], sep))[1..]) == Join(segs[1..], sep);
    } else {
      var tail := [segs[0][1..]] + segs[1..];
      assert tail[1..] == segs[1..];
      assert Split(Join(tail, sep), sep) == tail by {
        assert forall i :: 0 <= i < |tail| ==> sep !in tail[i] by {
          assert forall c :: c in segs[0][1..] ==> c in segs[0];
        }
        SplitJoin(tail, sep);
      }
      var s := Join(segs, sep);
      assert s[1..] == Join(tail, sep) && s[0] == segs[0][0] && s[0] != sep by {
        assert segs[0] == [segs[0][0]] + segs[0][1..];
        assert s == [segs[0][0]] + Join(tail, sep);
      }
      assert segs == [[segs[0][0]] + tail[0]] + tail[1..] by {
        assert tail[0] == segs[0][1..];
        assert [segs[0][0]] + segs[0][1..] == segs[0];
        assert segs == [segs[0]] + segs[1..];
      }
    }
  }

  /** A string without the separator splits into itself. */
  lemma {:induction false} SplitSeparatorFree(s: string, sep: char)
    requires sep !in s
    ensures Split(s, sep) == [s]
    decreases |s|
  {
    if |s| > 0 {
      assert forall c :: c in s[1..] ==> c in s;
      SplitSeparatorFree(s[1..], sep);
      assert [s[0]] + s[1..] == s;
    }
  }

  /** Joining two or more pieces puts a separator into the result. */
  lemma JoinHasSeparator(segs: seq<string>, sep: char)
    requires |segs| >= 2
    ensures sep in Join(segs, sep)
  {
    assert Join(segs, sep)[|segs[0]|] == sep;
  }
}

=== FILE: wrappers.dfy ===
/** Optional values and success/failure results shared by every component model. */
module Wrappers {

  /** A value that may be missing (`undefined` in the source). */
  datatype Option<+T> = None | Some(value: T)

  /** The outcome of a step that either produces a value or fails with an error
      (a thrown exception, a rejected schema, a failed request). */
  datatype Result<+T, +E> = Success(value: T) | Failure(error: E)
}
